=== FILE: README.md ===
# LMS backend core in Dafny

A model of the rule-carrying core of a learning-management backend (Express
and Mongoose) and proofs about it. Every HTTP handler becomes a pure
function from the stored collections, the request, the clock (`now`, in
integer milliseconds) and the id the database would assign, to an outcome
and the new collections. Collections are sequences in creation order. Ids
are `nat`. An id taken from a request is `RawId` (`Absent`, `Malformed` or
`Oid(n)`), so the source's `ObjectId.isValid` tests and cast errors stay
visible. Where the source also compares an id as a string, the request
records whether the id is spelled in the lowercase hex that
`ObjectId.toString()` produces. Mongoose schema validation and unique indexes are modelled where
they decide an outcome.

Modules follow the program's structure:

- `Exams`, `Attempts`, `AttemptHistory`, `ExamResults`: exam creation and
  update; the question schema; `submitAttempt` with its gate order,
  24-hour cooldown, scoring and numbering; the attempt pre-save hook;
  `getExamStatus`; and the admin results report.
- `Enrollments`, `PaymentRecords`, `Payments`, `EnrollmentHandlers`,
  `Courses`, `Users`, `Store`: the enrollment document with its virtuals,
  hook, indexes and instance methods; the payment document and the admin
  stats; `processPayment` and `checkPaymentStatus`; `enrollCourse`,
  `getEnrolledCourses`, `removeEnrollment` and `adminGrantCourse`; and
  `createCourse` and `enrollStudent`.
- `Lectures`, `Access`: lecture creation with the course's counter, the
  listing's visibility rule, and the soft delete. `Access` compares the
  three different "may this student open this course" rules.
- `Progress`, `Quizzes`, `Messaging`: lecture progress tracking,
  positional quiz scoring, and the messaging role policy, sidebar,
  conversation read and delete authorisation.

## Model

| member | source | states |
|---|---|---|
| Exams.TotalOrZero | controllers/attemptController.js:224-226 | `totalMarks \|\| 0`: the stored total when truthy, otherwise 0 |
| Exams.MaxAttempts | controllers/attemptController.js:221 | `maxAttempts \|\| 3`: never 0; the stored value when truthy, otherwise 3 |
| Exams.EffectivePassingMarks | controllers/attemptController.js:224-226 | with passingMarks set, the smaller of passingMarks and the total; without it, the rounded-up half of the total |
| Exams.StoredExamPassingIsRaw | models/Exam.js:5-38 | for an exam the schema accepts, the effective passing marks are exactly passingMarks, between 0 and totalMarks, and maxAttempts is at least 1 |
| Exams.FindExam | controllers/attemptController.js:218-219 | `findById`: a found exam is in the store with that id; none found means no exam has it |
| Exams.CreateExam | controllers/examController.js:4-55 | missing fields (a 0 total counts as missing, a `null` passingMarks does not) and passing above total (`null` compared as 0) are rejected exactly when stated; a creation succeeds exactly for a given passingMarks within 0..total and a non-negative maxAttempts; negative marks are the 400 exactly when both fields are present, passing is not above total and either is negative, and the schema's 500 exactly when those checks pass but passingMarks is null or maxAttempts negative; a created exam passes the schema, keeps the inputs and has maxAttempts supplied-or-3 |
| Exams.CreateExamNullPassingIsServerError | controllers/examController.js:9-14 | a `null` passingMarks gets past the `=== undefined` test and is refused by the schema's `required`: a 500, not the 400 |
| Exams.CreateExamZeroAttemptsBecomesThree | controllers/examController.js:38 | a supplied maxAttempts of 0 is stored as 3 |
| Exams.UpdateChecks | controllers/examController.js:116-144 | passing above total is reported only when both are supplied; passing means no negative marks and a positive maxAttempts |
| Exams.UpdateExam | controllers/examController.js:112-172 | a failed check is its 400; then a route id that is not an ObjectId is a 500 (the cast in `findByIdAndUpdate`); then the update validators refuse (500) exactly an empty title or a positive passingMarks, since the passingMarks validator reads its limit from the query, not the document (models/Exam.js:26-29); then the 404 for an unknown id; otherwise exactly the supplied fields are overwritten and the rest kept, and the stored exam with that id is replaced by the result while every other exam stays as it was |
| Exams.UpdateChecksIgnoreLonePassingMarks | controllers/examController.js:116-150 | a lone passingMarks above the stored total passes the controller's checks and is refused by the update validator instead, with a 500, leaving the store unchanged |
| Exams.UpdateNeverRaisesPassingMarks | models/Exam.js:21-33 | an accepted update never raises an exam's passingMarks: it keeps the old value or stores 0 |
| Exams.ReportedMaxAttempts | controllers/examController.js:80-109 | `getExamById` answers 500 exactly for a route id that is not an ObjectId, 404 exactly for a missing exam, and otherwise the stored maxAttempts when truthy, else 3 |
| Exams.FindExamAfterReplace | controllers/examController.js:146-150 | in a store with unique ids, reading an exam back after replacing it finds the replacement |
| Exams.UpdateThenRead | controllers/examController.js:80-172 | after an accepted update, `getExamById` reports a supplied maxAttempts as given and otherwise reports what it reported before |
| Exams.NewQuestion | models/Question.js:5-38 | a question is accepted exactly when it has an exam, text, at least two options and a correct answer among them; marks default to 1 |
| Exams.QuestionMarks | controllers/attemptController.js:276-277 | `marks \|\| 1`: never 0 |
| Exams.FindQuestion | controllers/attemptController.js:266-273 | the found question is in the store with that id; none found means no question has it |
| Attempts.NewAttempt | models/Attempt.js:101-124 | the schema defaults: score 0, not passed, attemptNumber 1, no canRetryAfter |
| Attempts.History | controllers/attemptController.js:229 | a user's attempts at one exam are exactly the stored attempts of that user and exam: every listed one matches, and every matching stored one is listed |
| Attempts.PreSave | models/Attempt.js:130-179 | score is the sum of marks; with the exam present, passed is score >= effective passing and canRetryAfter is save time + 24 h exactly when failed; with it absent both are kept; attemptNumber follows the previous attempt only for a new record numbered 1 |
| Attempts.PreSaveIdempotent | models/Attempt.js:130-179 | running the hook again on a saved attempt changes nothing |
| Attempts.ScoreAnswer | controllers/attemptController.js:267-286 | an unknown question, or one whose id the request spells other than in lowercase hex (fetched by the `$in` cast but missed by the string comparison at :273), earns 0 with no correct answer; otherwise a correct choice earns the question's marks, a wrong one 0 |
| Attempts.ScoreAll | controllers/attemptController.js:267-286 | one scored detail per answer, in order |
| Attempts.ScoreBounds | controllers/attemptController.js:267-289 | with non-negative marks the score is between 0 and the most the answered questions can earn |
| Attempts.AllCorrectEarnsEverything | controllers/attemptController.js:267-289 | all-correct answers to known questions whose ids are spelled in lowercase earn the maximum |
| Attempts.Gate | controllers/attemptController.js:232-264 | rejections in the source's order: already passed, then prior count >= maxAttempts, then a failed newest attempt under 24 h old; the cooldown reports last + 24 h |
| Attempts.CooldownHoursInRange | controllers/attemptController.js:242-263 | a reported cooldown always has 1 to 24 hours remaining |
| Attempts.CooldownBoundary | controllers/attemptController.js:242-263 | one millisecond before 24 h the answer is 1 hour; from 24 h on there is no block |
| Attempts.Unwrapped | models/Attempt.js:105-110 | storable answers keep their question ids and selected options, one for one and in order |
| Attempts.Submit | controllers/attemptController.js:208-335 | a bad request is exactly the missing ids or empty answers; 404 exactly for a well-formed request on an unknown exam; blocked exactly when the gate over the user's history and the exam's limit refuses, with the gate's reason (passed, exhausted, or cooldown with hoursRemaining and nextAttemptTime); 500 exactly for a malformed exam id, a malformed user id on a known exam, or an unstorable answer the gate lets through; any rejection leaves the store unchanged; a success needs every answer storable (an ObjectId question id and a non-empty option), stores the scored answers, and appends one attempt numbered prior + 1 <= maxAttempts, passed iff score >= effective passing, attemptsLeft never negative and 0 once passed |
| Attempts.UnstorableAnswerIsServerError | controllers/attemptController.js:267-302 | past the gate, one answer without an ObjectId question id or a selected option makes the submission a 500 that stores nothing; a blocked request still reports its block |
| Attempts.ControllerRecordIsHookFixedPoint | models/Attempt.js:135-151 | the hook leaves the controller's score, passed and number unchanged, and sets canRetryAfter only on failure |
| Attempts.NewestFirst | controllers/attemptController.js:414-419 | the attempt list of the status read is the history reversed |
| Attempts.StatusOf | controllers/attemptController.js:374-427 | canAttempt iff not passed, under maxAttempts and no cooldown; attemptsLeft never negative and 0 once passed |
| Attempts.ExamStatus | controllers/attemptController.js:363-433 | 500 exactly when a route id is not an ObjectId; 404 exactly for an unknown exam; otherwise the status of the user's history |
| AttemptHistory.HistoryAppend | controllers/attemptController.js:295-302 | a new attempt extends only its own user's history for its exam |
| AttemptHistory.SubmitKeepsHistoryOk | controllers/attemptController.js:208-335 | a submission keeps a history numbered 1..n, with no pass before the last attempt and at most maxAttempts attempts |
| AttemptHistory.ExtendHistoryOk | controllers/attemptController.js:232-302 | appending attempt n+1 to an unpassed history of n attempts, within maxAttempts, keeps it well-formed |
| AttemptHistory.SubmitKeepsConsistent | controllers/attemptController.js:208-335 | the same for every user and exam at once |
| AttemptHistory.EmptyStoreConsistent | controllers/attemptController.js:208-335 | an empty store is consistent |
| AttemptHistory.ReplayKeepsConsistent | controllers/attemptController.js:208-335 | any sequence of submissions keeps the store consistent |
| AttemptHistory.NumberingFromScratch | controllers/attemptController.js:237 | from an empty store, the k-th attempt of every history is numbered k |
| AttemptHistory.PassedBlocksSubmit | controllers/attemptController.js:232-238 | after a pass, a submission neither succeeds nor touches that history |
| AttemptHistory.PassIsTerminal | controllers/attemptController.js:232-238 | after a pass, no sequence of submissions changes that history |
| AttemptHistory.StatusAgreesWithSubmit | controllers/attemptController.js:381-404 | for a well-formed request whose answers can be stored, the status read's canAttempt holds iff the submission succeeds, with the same passing marks |
| AttemptHistory.ReportAgreesWithStatus | controllers/examController.js:98-101 | `getExamById` finds the exam exactly when the status read does, and then reports the same attempt limit as the status read's totalAttemptsAllowed (controllers/attemptController.js:374, 413) |
| AttemptHistory.StatusAfterSubmit | controllers/attemptController.js:295-305 | after a success the status read reports the same attempts used, passed and attemptsLeft as the submission |
| ExamResults.ResultFor | controllers/examResultController.js:8-49 | Pass iff score >= raw passingMarks \|\| 0; 0 total and passing and "Deleted Exam" when the exam is missing; percentage 0 iff the total is not positive; fallbacks for a missing user; attemptNumber stored-or-1 |
| ExamResults.AllResults | controllers/examResultController.js:8-15 | exactly one row per stored attempt |
| ExamResults.AllResultsNewestFirst | controllers/examResultController.js:8-15 | row k describes the k-th newest attempt |
| Common.ReversedAt | controllers/examResultController.js:11 | the newest-first listing holds at position k the k-th newest document |
| Common.Trim | models/Course.js:70-74 | `trim: true`: the result has no white space at either end and is the part of the input between its leading and trailing white space |
| Common.TrimEmptyIffBlank | models/Course.js:92-97 | a trimmed value is empty, and so fails `required`, exactly when the input is all white space |
| Common.TrimIdempotent | models/Lectures.js:5-9 | trimming a trimmed value changes nothing |
| ExamResults.ReportAgreesWithGateOnStoredExams | controllers/examResultController.js:16-22 | on an exam the schema accepts, the report's Pass agrees with the submission's passed rule |
| ExamResults.DeletedExamReportsPass | controllers/examResultController.js:17-22 | an attempt at a deleted exam is reported as a Pass |
| ExamResults.ReportAndGateDisagreeWithoutPassingMarks | controllers/examResultController.js:16-22 | on an exam without passingMarks the report says Pass where the submission rule says fail |
| Users.FindUser | controllers/messageController.js:16 | the found user is in the store with that id; none found means no user has it |
| Users.UpdateCourses | controllers/enrollmentController.js:49-51 | `findByIdAndUpdate` on the course list touches only users with that id and keeps their other fields |
| Users.AddCourse | controllers/paymentController.js:64-66 | `$addToSet`: the course is in that user's list afterwards, nothing was lost and at most one entry was added |
| Users.RemoveCourse | controllers/enrollmentController.js:111-113 | `$pull`: every copy of the course is removed and nothing else |
| Courses.FindCourse | controllers/courseController.js:388 | the found course is in the store with that id; none found means no course has it |
| Courses.ReplaceCourse | controllers/courseController.js:406-407 | saving a course replaces the stored document with that id and nothing else |
| Courses.NormalizeSubCategories | controllers/courseController.js:229-234 | an array is kept, an empty string and any non-string become [], a string is parsed |
| Courses.ParseLevel | models/Course.js:104-108 | a missing level is "Beginner"; a given one is accepted exactly when it is in the enum |
| Courses.ParseStatus | models/Course.js:117-121 | a missing status is "Active"; a given one is accepted exactly when it is in the enum |
| Courses.EnumNamesRoundTrip | models/Course.js:104-121 | every level and status reads back from its stored spelling |
| Courses.CreateCourse | controllers/courseController.js:209-259 | 400 exactly for a missing title or description; a creation succeeds exactly when the sub-categories parse, the trimmed title and category are non-empty, level and status are in their enums and the id is fresh; a failure stores nothing; a created course is stored trimmed and keeps the other inputs, the normalised sub-categories, level and status or their defaults, price-or-0, no lectures and no students |
| Courses.BlankTitleIsServerError | models/Course.js:70-74 | any non-empty title made only of white space passes the 400 check and is refused once trimmed: a 500 |
| Courses.CreateCourseThenFind | controllers/courseController.js:236-246 | after a creation the new id reads back as the created course, ids stay unique and earlier courses are untouched |
| Courses.FindCourseAppended | controllers/courseController.js:236-246 | a course appended behind courses without its id is found by that id |
| Courses.EnrollStudent | controllers/courseController.js:386-419 | 500 exactly for a route course id that is not an ObjectId; 404 exactly for an unknown course, 400 exactly for a listed student; otherwise the student is appended once, so membership holds, the length grows by one and no duplicate appears |
| Courses.EnrollStudentTwice | controllers/courseController.js:399-404 | enrolling the same student twice leaves the second call at 400 with the list unchanged |
| Courses.FindAfterReplace | controllers/courseController.js:406-407 | with distinct ids, the course read back after a save is the saved one |
| Enrollments.NewEnrollment | models/Enrollment.js:36-133 | defaults: unpaid, method "free", payment pending, status pending_payment, 365 days, active, not deleted, no progress |
| Enrollments.PreSave | models/Enrollment.js:176-192 | a changed duration, or a missing end date with a non-zero duration, sets endDate to enrolledAt + duration days; isPaid becoming true sets active, completed and the payment date; nothing else changes |
| Enrollments.PreSaveIdempotent | models/Enrollment.js:176-192 | saving a saved enrollment again with the hook changes nothing |
| Enrollments.AdminGrantedOutsideSchema | models/Enrollment.js:45-49 | the schema's enum does not list "admin-granted"; the corrected enum does |
| Enrollments.ReplaceById | models/Enrollment.js:176-192 | saving an existing document replaces the one with its id and nothing else |
| Enrollments.SaveEnrollment | models/Enrollment.js:36-141 | a save succeeds iff the hooked document passes the enum and progress bounds and keeps the unique _id, (student, course) and paymentId indexes; it inserts a new document or replaces the old one |
| Enrollments.SaveKeepsIndexed | models/Enrollment.js:141 | a successful save keeps every unique index |
| Enrollments.FindPair | controllers/enrollmentController.js:20-23 | the pair's enrollment, soft-deleted or not; none found means the pair has none |
| Enrollments.FindLive | controllers/paymentController.js:24-28 | the pair's non-deleted enrollment; none found means all of the pair's are deleted |
| Enrollments.LiveIsPairWhenIndexed | models/Enrollment.js:141 | under the unique index, the live lookup is the pair lookup filtered on isDeleted |
| Enrollments.UniquePair | models/Enrollment.js:141 | under the unique index, two enrollments of one pair are the same |
| Enrollments.DaysRemaining | models/Enrollment.js:157-164 | null exactly without an end date; otherwise never negative, positive iff the end is ahead, and the rounded-up number of days left |
| Enrollments.AccessAndExpiry | models/Enrollment.js:151-173 | canAccess implies not expired; on the end date access holds with 0 days remaining; an expired enrollment has 0 days remaining |
| Enrollments.MarkAsCompleted | models/Enrollment.js:215-218 | progress becomes 100 and payment state is kept; the save succeeds on a valid indexed store |
| Enrollments.AddCompletedLecture | models/Enrollment.js:221-231 | the lecture is present afterwards, nothing is lost, a present lecture changes nothing and no duplicate appears |
| Enrollments.AddCompletedLectureTwice | models/Enrollment.js:221-231 | adding the same lecture again leaves the list unchanged |
| Enrollments.RequestRefund | models/Enrollment.js:234-240 | the refund flag and reason are set, status is cancelled, isActive false and isPaid kept, so canAccess is false at every time |
| PaymentRecords.CountWithStatus | controllers/paymentController.js:162-163 | a status count never exceeds the number of payments |
| PaymentRecords.AdminStats | controllers/paymentController.js:159-164 | the count is the number of payments; completed plus pending never exceed it; revenue is non-negative when amounts are |
| PaymentRecords.CompletedAndPendingBounded | controllers/paymentController.js:162-163 | completed plus pending payments are at most all payments |
| PaymentRecords.RevenueNonNegative | models/Payment.js:18-22 | with the schema's non-negative amounts, total revenue is non-negative |
| PaymentRecords.StatsAfterRecord | controllers/paymentController.js:159-164 | one more payment adds one to the count, its amount to revenue and one to its status count |
| Payments.ChosenPaymentId | controllers/paymentController.js:51 | never empty: the supplied id when non-empty, else PAY_ and the timestamp |
| Common.NatToDecimal | controllers/paymentController.js:51 | the timestamp's digits: only decimal digits, no leading zero except for 0 itself |
| Common.DecimalRoundTrip | controllers/paymentController.js:51 | reading the rendered digits back gives the number |
| Common.NatToDecimalInjective | controllers/paymentController.js:51 | distinct naturals have distinct digit strings |
| Common.IntToDecimalInjective | controllers/paymentController.js:51 | distinct timestamps give distinct PAY_ identifiers |
| Payments.BackedGrows | controllers/paymentController.js:47-62 | a backed paid enrollment stays backed when payments are only added |
| Payments.ProcessPaymentAsWritten | controllers/paymentController.js:8-81 | 400, 404 and "enroll first" exactly as the source orders them; a failure of Payment.create records no payment and no user change |
| Payments.AsWrittenPaysWithoutPayment | controllers/paymentController.js:45-62 | on a priced course with method "free", the enrollment is saved paid, Payment.create fails, and a paid enrollment is left with no payment |
| Payments.AsWrittenPaysWithoutPaymentExample | controllers/paymentController.js:45-62 | a concrete store where this happens |
| Payments.ProcessPayment | controllers/paymentController.js:8-81 | 400/404/"enroll first" exactly when stated and every failure leaves the store unchanged; a free course unlocks the enrollment only; a priced one records exactly one completed payment of the course price, with the paymentId the request supplied or the generated one and the method chosen from the request, stores that same id and method on the enrollment and adds the course to the user; on both success paths the saved enrollment replaces the stored one with its id and no other enrollment changes |
| Payments.ProcessPaymentAgreesWhenPaymentAccepted | controllers/paymentController.js:8-81 | when the payment passes its schema, the corrected handler does what the source does |
| Payments.SaveAgreesOnEnums | models/Enrollment.js:45-49 | a save that does not write "admin-granted" has the same result under either enum |
| Payments.FreeInEnrollmentSchema | models/Payment.js:23-26 | "free" is in the enrollment enum and not in the payment enum |
| Payments.ProcessPaymentKeepsPaidBacked | controllers/paymentController.js:35-62 | every paid enrollment stays backed by a free course, an admin grant or a completed payment |
| Payments.NoPaymentIdTwice | models/Payment.js:28-32 | paying twice never records the same paymentId twice |
| Payments.CheckPaymentStatus | controllers/paymentController.js:84-123 | 400/404 exactly when stated; hasAccess equals isPaid; a free course always grants; otherwise access needs a live paid enrollment; isEnrolled iff a live one exists |
| Payments.StatusExactWhenIndexed | controllers/paymentController.js:98-113 | under the unique index, access holds iff the course is free or a live paid enrollment exists |
| Payments.StatusAfterPayment | controllers/paymentController.js:98-113 | after a successful payment the status read reports enrolled, paid and access |
| EnrollmentHandlers.EnrollCourse | controllers/enrollmentController.js:7-63 | 400 exactly for malformed ids or any enrollment of the pair (deleted included); failures change nothing; a success adds one unpaid pending enrollment ending duration-or-365 days from now and adds the course to the user |
| EnrollmentHandlers.EnrollDraftSaves | controllers/enrollmentController.js:36-46 | the new enrollment passes validation, so for a new pair only an id clash refuses it; it ends the course's duration in days from now, or 365 days when that is 0 |
| EnrollmentHandlers.EnrollCourseKeepsInvariants | controllers/enrollmentController.js:7-63 | enrolling keeps the unique indexes and the backing of paid enrollments |
| EnrollmentHandlers.EnrollCourseTwice | controllers/enrollmentController.js:20-28 | a second enrollment of the same pair is "already enrolled" and changes nothing |
| EnrollmentHandlers.SoftDeletedEnrollmentLocksPair | controllers/enrollmentController.js:20-28 | with only a soft-deleted enrollment, enrolling says already enrolled, paying says enroll first, and the status read says not enrolled |
| EnrollmentHandlers.OfStudent | controllers/enrollmentController.js:74 | exactly the student's enrollments |
| EnrollmentHandlers.EnrolledCourses | controllers/enrollmentController.js:66-94 | 400 exactly for a malformed id; one row per enrollment of the student, each row from such an enrollment |
| EnrollmentHandlers.EnrolledCoursesAfterEnroll | controllers/enrollmentController.js:79-85 | after enrolling, the list gains exactly the new row at the end |
| EnrollmentHandlers.EnrolledCoursesAppend | controllers/enrollmentController.js:74-85 | storing one more enrollment of the student appends exactly its row |
| EnrollmentHandlers.FindEnrollment | controllers/enrollmentController.js:105-108 | the found enrollment is in the store with that id; none found means none has it |
| EnrollmentHandlers.WithoutId | controllers/enrollmentController.js:105 | the hard delete keeps exactly the enrollments with another id |
| EnrollmentHandlers.RemoveEnrollment | controllers/enrollmentController.js:97-124 | 400 and 404 exactly when stated and changing nothing; otherwise the enrollment is gone and the course pulled from the user's list |
| EnrollmentHandlers.RemoveThenEnroll | controllers/enrollmentController.js:97-124 | after a removal the same pair may enroll again |
| EnrollmentHandlers.RemoveKeepsInvariants | controllers/enrollmentController.js:97-124 | removal keeps the unique indexes and the backing of paid enrollments |
| EnrollmentHandlers.WithoutIdKeepsIndexed | models/Enrollment.js:141 | deleting by id keeps the unique indexes |
| EnrollmentHandlers.Grant | controllers/adminEnrollment.controller.js:7-51 | 400 and 404 exactly when stated and changing nothing; a grant is paid, active and admin-granted, creates no payment and adds the course to the user; an existing enrollment of the pair (soft-deleted included) is the one updated, keeping its id and replacing it in the store, while without one a new enrollment with the fresh id is appended; a newly created one can be accessed |
| EnrollmentHandlers.GrantFailsOnlyFor | controllers/adminEnrollment.controller.js:21-37 | with an enum that admits "admin-granted", the grant's save succeeds on a valid indexed store |
| EnrollmentHandlers.AdminGrantAsWritten | controllers/adminEnrollment.controller.js:7-51 | with the schema's enum, no grant ever succeeds: every request past the 400/404 checks fails and changes nothing |
| EnrollmentHandlers.AdminGrant | controllers/adminEnrollment.controller.js:7-51 | with the corrected enum, a grant on valid ids, an existing course and a valid store always succeeds, paid and admin-granted, and a new one grants access; a grant changes only the enrollments and the user's courses, updating the pair's existing enrollment in place or appending a new one |
| EnrollmentHandlers.AdminGrantKeepsInvariants | controllers/adminEnrollment.controller.js:7-51 | a grant keeps the unique indexes and the backing of paid enrollments |
| EnrollmentHandlers.GrantSaveKeepsInvariants | controllers/adminEnrollment.controller.js:21-37 | saving an admin-granted document keeps the unique indexes and the backing of paid enrollments |
| Lectures.CountFor | controllers/lectureController.js:203-204 | a course's lecture count never exceeds the number of lectures |
| Lectures.FindLecture | controllers/lectureController.js:297-298 | the found lecture is in the store with that id; none found means none has it |
| Lectures.CreateLecture | controllers/lectureController.js:163-211 | 400 exactly for a missing title, description or course; a creation succeeds exactly for a well-formed, existing course, a valid type, a title not blank once trimmed and a fresh id; failures change nothing; a created lecture has its title trimmed, number supplied-or-1, is active and not deleted, and the course's totalLectures rises by one |
| Lectures.CreateLectureKeepsCounters | controllers/lectureController.js:203-204 | every course's totalLectures still equals its number of lectures |
| Lectures.Select | controllers/lectureController.js:264-279 | exactly the lectures of the course that are active, not deleted and, for a preview, free |
| Lectures.InsertByNumber | controllers/lectureController.js:266-278 | inserting keeps the list sorted by lecture number and adds exactly one element |
| Lectures.SortByNumber | controllers/lectureController.js:266-278 | the sorted list is a permutation of the input, sorted by lecture number |
| Lectures.ListLectures | controllers/lectureController.js:241-292 | 400 exactly for a malformed course id; isPaidStudent iff a valid student's enrollment of the pair is paid, whatever the price; the lectures are exactly the visible ones, each as often as stored, sorted by number |
| Lectures.SelectCountsMatch | controllers/lectureController.js:264-279 | the filter keeps every visible lecture as many times as it is stored |
| Lectures.PreviewIsPartOfFullListing | controllers/lectureController.js:264-279 | the preview listing is part of the full listing |
| Lectures.GetLecture | controllers/lectureController.js:295-306 | a malformed id is the 500 path; a lecture is returned only when stored and not deleted; 404 otherwise |
| Lectures.LectureIndex | controllers/lectureController.js:311 | the position of the first lecture with that id: it has the id and no earlier one does |
| Lectures.DeleteLecture | controllers/lectureController.js:309-322 | 404 exactly for an unknown id; otherwise the store is the old one with exactly the first lecture of that id marked deleted |
| Lectures.DeleteHidesLecture | controllers/lectureController.js:298-300 | after deletion the lecture reads as 404, is in no listing, and the counters still match |
| Lectures.FindAfterDelete | controllers/lectureController.js:298-300 | a lecture whose every copy is deleted reads as missing or deleted |
| Lectures.CountForSameCourses | controllers/lectureController.js:314-315 | the soft delete does not change any course's lecture count |
| Access.ModelGrantsImpliesOthers | models/Enrollment.js:167-173 | access by the enrollment's own virtual implies the listing's paid test and, for an existing course, the status read |
| Access.StatusImpliesListingOnPricedCourse | controllers/paymentController.js:98-113 | on a priced course, access by the status read implies the listing's paid test |
| Access.FreeCourseWithoutEnrollment | controllers/paymentController.js:104-105 | on a free course with no enrollment, the status read grants access while the listing and the virtual refuse |
| Access.SoftDeletedPaidEnrollment | controllers/lectureController.js:251-260 | a soft-deleted paid enrollment unlocks the full listing, while the status read on a priced course and the virtual refuse |
| Access.ExpiredOrRefundedStillListed | models/Enrollment.js:167-173 | a paid, live enrollment that is expired, cancelled or inactive fails the virtual but passes the status read and the listing |
| Access.RefundKeepsPaymentAccess | models/Enrollment.js:234-240 | after a refund request the status read and the listing still grant access; the virtual does not |
| Progress.PairIndex | controllers/progressController.js:9 | the first progress document of the (student, course) pair; none means the pair has none |
| Progress.TrackLecture | controllers/progressController.js:5-23 | with no document, a new one holding just the lecture, with the new id and time, is added; otherwise the pair's document is replaced in place, keeping its id and time, with the lecture appended only when absent, so no duplicate appears |
| Progress.GetProgress | controllers/progressController.js:27-49 | 500 exactly when a route id is not an ObjectId; null exactly when the pair has no document; otherwise the pair's document and totalCompleted equal to its number of lectures |
| Progress.TrackLectureIdempotent | controllers/progressController.js:12-16 | tracking the same lecture twice gives the store of tracking it once |
| Progress.TrackThenRead | controllers/progressController.js:5-49 | after tracking, progress is found with the lecture, and the count is 1 for a new document, +1 for a new lecture and unchanged for a repeated one |
| Progress.PairIndexAt | controllers/progressController.js:9 | the lookup finds the first matching document |
| Quizzes.CountMatches | controllers/quizController.js:40-43 | the number of matching positions among the first n questions is at most n |
| Quizzes.FindQuiz | controllers/quizController.js:38 | the found quiz is in the store with that id; none found means no quiz has it |
| Quizzes.SubmitQuiz | controllers/quizController.js:35-49 | the 500 path exactly for a malformed, absent or unknown quiz, or a missing answer list with questions to score; otherwise the score is the number of positions where the stored answer strictly equals the submitted one, at most the number of questions, with the ids echoed |
| Quizzes.ExtraAnswersIgnored | controllers/quizController.js:40-43 | answers past the number of questions do not change the score |
| Quizzes.KeyOf | models/Quiz.js:6-12 | the answer key lists each question's stored answer in order |
| Quizzes.AnswerKeyScoresAll | controllers/quizController.js:40-43 | submitting the answer key scores every question |
| Quizzes.EmptySubmissionScoresUnanswered | controllers/quizController.js:40-43 | an empty answer list scores exactly the questions stored without an answer |
| Messaging.NormalRole | controllers/messageController.js:24-25 | a string role is itself; an array role is its first element, and an empty array gives none |
| Messaging.SendMessage | controllers/messageController.js:5-62 | 400 exactly for a missing receiver or text; 404 exactly for an unknown receiver; only a sent message changes the store, and it is appended with the caller as sender |
| Messaging.SendPolicy | controllers/messageController.js:27-45 | with readable roles, a message is sent iff the pair is not student-student and not admin-admin, and each of those is its own 403 |
| Messaging.StudentIsNotAdmin | controllers/messageController.js:27-39 | no role is both student and admin after lower-casing |
| Messaging.EmptyRoleListReceiver | controllers/messageController.js:27-39 | a receiver with an empty role array fails a student or admin sender with a 500 and receives from anyone else |
| Messaging.Others | controllers/messageController.js:105 | exactly the users other than the caller |
| Messaging.KeepRole | controllers/messageController.js:110-120 | the filter fails iff some user's role cannot be read; otherwise it keeps exactly the users with that lower-cased role |
| Messaging.UsersForMessaging | controllers/messageController.js:101-134 | the sidebar is a subset of the users that excludes the caller; it fails only on an unreadable role |
| Messaging.FindUniqueUser | controllers/messageController.js:16 | with distinct ids, looking up a stored user's id finds that user |
| Messaging.SidebarAgreesWithSend | controllers/messageController.js:101-134 | everyone in the sidebar can be messaged; when every role is Admin or Student, the sidebar holds exactly those a message would reach |
| Messaging.SidebarAgreesWithSendFor | controllers/messageController.js:101-134 | the same for one stored user: offered implies reachable, and with both roles Admin or Student, offered iff reachable |
| Messaging.ConversationMembers | controllers/messageController.js:77-82 | the conversation holds exactly the stored messages between the two users, in either direction |
| Messaging.GetMessages | controllers/messageController.js:65-98 | 404 exactly for a missing or unknown user; otherwise the conversation between the caller and that user |
| Messaging.ConversationKeepsOrder | controllers/messageController.js:85 | a store in creation order gives a conversation sorted by createdAt |
| Messaging.ConversationSymmetric | controllers/messageController.js:77-82 | both users read the same conversation |
| Messaging.SendExtendsConversation | controllers/messageController.js:41-45 | a sent message ends the conversation between its two users and changes no other conversation |
| Messaging.ConversationAppend | controllers/messageController.js:77-82 | appending a message extends only the conversation it belongs to |
| Messaging.MessageIndex | controllers/messageController.js:141 | the position of the message with that id, or none when no message has it |
| Messaging.DeleteMessage | controllers/messageController.js:137-173 | 404 exactly for an unknown id; 403 exactly when the caller neither sent nor received it; only a party's delete removes it, and the rest stay |
| Messaging.OnlyPartiesDelete | controllers/messageController.js:150-160 | a message survives every delete by a non-party; with distinct ids, a successful delete removes exactly the messages with that id |
| Messaging.RemoveAtMembers | controllers/messageController.js:160 | with distinct ids, removing one position removes exactly the message with that id and keeps every other |

## Left out

- Network, HTTP and database I/O are not modelled: Express responses, Socket.IO, `populate` and `lean`. Responses are reduced to the outcome datatype of each handler.
- Wall-clock reads become the `now` parameter. One request reads the clock once. `setDate(+days)` is modelled as days times 86 400 000 ms, so daylight-saving shifts are ignored.
- The results report's floating-point percentage (`toFixed`) is kept as the exact ratio `score * 100 / total`.
- `JSON.parse` of a string `subCategories` is a parameter of `createCourse`. Its failure is the 500 path.
- Races between a read and the following write are not modelled: the attempt count before the create, and the duplicate check before the insert in `enrollCourse`. Every handler runs alone.
- A course's `isFree` flag is not a field of the course schema, so the strict schema drops it. The free-course test is therefore `price == 0` alone.
- The lecture listing's sort is a stable insertion sort by lecture number. The database's order among equal numbers is not specified.
- The conversation read keeps store order. That order is the `createdAt` sort whenever the store is in creation order (`Messaging.ConversationKeepsOrder`).
- `models/Message.js` is not part of this model. Creating a message is taken to succeed.
- Handlers with no rules of their own are not modelled: course CRUD other than create and `enrollStudent`, quiz add/update/delete, question CRUD, `updateLecture`, `getPaymentHistory` and the payment listing beyond its stats, user and auth controllers, and the route wiring.
- Enrollment fields that no modelled rule reads are omitted: transaction id, amount paid, last accessed and refund date.
- Progress.TrackLecture: the request's student, course and lecture ids are taken as well-formed. The cast error of a malformed id is not modelled, and the saved document is taken to pass validation.
- Route parameters are never absent, so `Attempts.ExamStatus`, `Progress.GetProgress`, `Courses.EnrollStudent`, `Exams.UpdateExam` and `Exams.ReportedMaxAttempts` require their route ids to be present; a present id may still be malformed.
- Exams.UpdateExam: the update validators are modelled for Mongoose 6 and later, where a validator's `this` is the query, so a passingMarks of 0 passes. With older versions `this` is null and any passingMarks in the body is a 500. A `null` title, duration, totalMarks, passingMarks or maxAttempts in an update body is not expressible: a supplied field carries a value.
- Exams.CreateExam: only passingMarks tells `null` from missing. For title, duration and totalMarks the two take the same path (falsy, so 400).
- Courses.CreateCourse: a `null` level or status is not modelled (a missing one takes the default). Casting a non-numeric duration or price is not modelled.
- The enrollment saves of `EnrollmentHandlers.EnrollCourse`, `Enrollments.MarkAsCompleted`, `Enrollments.AddCompletedLecture`, `Enrollments.RequestRefund`, `Payments.ProcessPayment` and `EnrollmentHandlers.AdminGrant` validate paymentMethod against `Enrollments.PaymentMethods`: the schema's enum (models/Enrollment.js:45-49) plus "admin-granted", so that an enrollment the corrected grant stores can be saved again. Only the as-written members (`EnrollmentHandlers.AdminGrantAsWritten`, `Payments.ProcessPaymentAsWritten`) use the schema's enum alone. `Payments.SaveAgreesOnEnums` shows that a save not writing "admin-granted" has the same result under either enum, so the two agree on every store the original program can produce.
- Lectures.CreateLecture: the course document's save after the counter increment is taken to succeed; so are the `course.save()` in `Courses.EnrollStudent` (controllers/courseController.js:407) and the `lecture.save()` in `Lectures.DeleteLecture` (controllers/lectureController.js:315), which write documents their schemas already accepted.
- Quizzes.SubmitQuiz: an `answers` value that is not an array, such as a string indexed by position, is not modelled.
- Users.UpdateCourses: the user update's own validators are not run.

## Findings

| source | as written | input that shows it | evidently intended | confidence | as-written member | corrected member |
|---|---|---|---|---|---|---|
| controllers/adminEnrollment.controller.js:28-35 | the grant writes paymentMethod "admin-granted", which the enrollment schema's enum (models/Enrollment.js:45-49) rejects, so every grant past the 400/404 checks ends in a 500 | any well-formed student id and existing course | the grant saves a paid, active, admin-granted enrollment | not executed | EnrollmentHandlers.AdminGrantAsWritten | EnrollmentHandlers.AdminGrant |
| controllers/paymentController.js:45-62 | the enrollment is saved as paid before `Payment.create`, whose enum has no "free"; a failed create leaves a paid enrollment with no payment behind it | a priced course (price 500), a fresh unpaid enrollment, paymentMethod "free" | the payment is validated first, or nothing is saved when it fails | not executed | Payments.AsWrittenPaysWithoutPaymentExample | Payments.ProcessPaymentKeepsPaidBacked |

=== FILE: access.dfy ===
/** Three different answers to "may this student open this course?":
    the payment status read (`checkPaymentStatus`: free course, or a live
    paid enrollment), the lecture listing (`getLecturesByCourse`: any
    enrollment of the pair with isPaid, soft-deleted or not, whatever the
    price) and the enrollment's own `canAccess` virtual (active, not
    deleted, paid, status active, not past the end date). The lemmas pin
    down where they agree and where they part. */
module Access {
  import opened Common
  import opened Courses
  import opened Enrollments
  import opened Store
  import opened Payments
  import opened Lectures

  predicate StatusGrants(db: Db, student: nat, course: nat) {
    var r := CheckPaymentStatus(db, student, Oid(course));
    r.StatusOk? && r.report.hasAccess
  }

  predicate ListingGrants(db: Db, student: nat, course: nat) {
    PaidStudent(db.enrollments, Oid(student), course)
  }

  predicate ModelGrants(db: Db, student: nat, course: nat, now: int) {
    exists e :: e in db.enrollments && e.student == student && e.course == course && CanAccess(e, now)
  }

  /** The strictest rule implies the other two: an enrollment that may be
      accessed by its own virtual also passes the status read (for an
      existing course) and the listing's paid test. */
  lemma ModelGrantsImpliesOthers(db: Db, student: nat, course: nat, now: int)
    requires Indexed(db.enrollments)
    requires ModelGrants(db, student, course, now)
    ensures ListingGrants(db, student, course)
    ensures FindCourse(db.courses, course).Some? ==> StatusGrants(db, student, course)
  {
    var e :| e in db.enrollments && e.student == student && e.course == course && CanAccess(e, now);
    UniquePair(db.enrollments, e, FindPair(db.enrollments, student, course).value);
    if FindCourse(db.courses, course).Some? {
      StatusExactWhenIndexed(db, student, course);
    }
  }

  /** On a priced course the status read is the stricter of the two
      payment-based rules: it implies the listing's paid test. */
  lemma StatusImpliesListingOnPricedCourse(db: Db, student: nat, course: nat)
    requires Indexed(db.enrollments)
    requires FindCourse(db.courses, course).Some? && !IsFreeCourse(FindCourse(db.courses, course).value)
    requires StatusGrants(db, student, course)
    ensures ListingGrants(db, student, course)
  {
    var e :| e in db.enrollments && e.student == student && e.course == course && !e.isDeleted && e.isPaid;
    UniquePair(db.enrollments, e, FindPair(db.enrollments, student, course).value);
  }

  /** On a free course with no enrollment the status read grants access,
      while the listing shows only previews and no enrollment grants
      access. */
  lemma FreeCourseWithoutEnrollment(db: Db, student: nat, course: nat, now: int)
    requires FindCourse(db.courses, course).Some? && IsFreeCourse(FindCourse(db.courses, course).value)
    requires forall e :: e in db.enrollments ==> e.student != student || e.course != course
    ensures StatusGrants(db, student, course)
    ensures !ListingGrants(db, student, course)
    ensures !ModelGrants(db, student, course, now)
  {
  }

  /** A paid enrollment that was soft-deleted still unlocks the full
      listing, while the status read on a priced course and the virtual
      both refuse. */
  lemma SoftDeletedPaidEnrollment(db: Db, student: nat, course: nat, now: int)
    requires Indexed(db.enrollments)
    requires FindCourse(db.courses, course).Some? && !IsFreeCourse(FindCourse(db.courses, course).value)
    requires exists e :: e in db.enrollments && e.student == student && e.course == course && e.isPaid && e.isDeleted
    ensures ListingGrants(db, student, course)
    ensures !StatusGrants(db, student, course)
    ensures !ModelGrants(db, student, course, now)
  {
    var e :| e in db.enrollments && e.student == student && e.course == course && e.isPaid && e.isDeleted;
    UniquePair(db.enrollments, e, FindPair(db.enrollments, student, course).value);
    StatusExactWhenIndexed(db, student, course);
  }

  /** A paid enrollment past its end date, or one whose refund was
      requested, fails the virtual but passes both payment-based rules:
      neither the status read nor the listing looks at dates, status or
      isActive. */
  lemma ExpiredOrRefundedStillListed(db: Db, student: nat, course: nat, now: int)
    requires Indexed(db.enrollments)
    requires FindCourse(db.courses, course).Some?
    requires exists e :: (e in db.enrollments && e.student == student && e.course == course && e.isPaid && !e.isDeleted &&
                          (IsExpired(e, now) || e.enrollmentStatus == Cancelled || !e.isActive))
    ensures StatusGrants(db, student, course)
    ensures ListingGrants(db, student, course)
    ensures !ModelGrants(db, student, course, now)
  {
    var e :| e in db.enrollments && e.student == student && e.course == course && e.isPaid && !e.isDeleted &&
      (IsExpired(e, now) || e.enrollmentStatus == Cancelled || !e.isActive);
    UniquePair(db.enrollments, e, FindPair(db.enrollments, student, course).value);
    StatusExactWhenIndexed(db, student, course);
  }

  /** Requesting a refund ends access by the virtual but not by the status
      read or the listing: the enrollment keeps isPaid. */
  lemma RefundKeepsPaymentAccess(db: Db, e: Enrollment, reason: string, now: int)
    requires Indexed(db.enrollments) && e in db.enrollments && e.isPaid && !e.isDeleted
    requires FindCourse(db.courses, e.course).Some?
    requires RequestRefund(db.enrollments, e, reason, now).Some?
    ensures var db' := db.(enrollments := RequestRefund(db.enrollments, e, reason, now).value.1);
      StatusGrants(db', e.student, e.course) &&
      ListingGrants(db', e.student, e.course) &&
      !ModelGrants(db', e.student, e.course, now)
  {
    var (saved, es) := RequestRefund(db.enrollments, e, reason, now).value;
    var db' := db.(enrollments := es);
    var fields := e.(refundRequested := true, refundReason := Some(reason), enrollmentStatus := Cancelled, isActive := false);
    assert SaveEnrollment(db.enrollments, Some(e), fields, now, PaymentMethods) == Some((saved, es));
    SaveKeepsIndexed(db.enrollments, Some(e), fields, now, PaymentMethods);
    ExpiredOrRefundedStillListed(db', e.student, e.course, now);
  }
}

=== FILE: attempt_history.dfy ===
/** Properties of the attempt history across many submissions: attempt
    numbers run 1, 2, 3, ... without gaps, a history never grows past the
    exam's attempt ceiling, at most one attempt passes and it is the last,
    a pass is terminal, and `getExamStatus` agrees with the gate that
    `submitAttempt` applies. */
module AttemptHistory {
  import opened Common
  import opened Exams
  import opened Attempts

  lemma HistoryAppend(store: seq<Attempt>, a: Attempt, u: nat, e: nat)
    ensures History(store + [a], u, e) ==
      History(store, u, e) + (if a.userId == u && a.exam == e then [a] else [])
  {
    assert (store + [a])[..|store|] == store;
  }

  /** Attempt numbers are 1, 2, 3, ... in creation order. */
  predicate Numbered(h: seq<Attempt>) {
    forall i :: 0 <= i < |h| ==> h[i].attemptNumber == i + 1
  }

  /** No attempt but the newest has passed. */
  predicate PassOnlyLast(h: seq<Attempt>) {
    forall i :: 0 <= i < |h| - 1 ==> !h[i].passed
  }

  /** What a history built only by `submitAttempt` looks like. */
  predicate HistoryOk(h: seq<Attempt>, exams: seq<Exam>, examId: nat) {
    && Numbered(h)
    && PassOnlyLast(h)
    && (|h| == 0 || (FindExam(exams, examId).Some? && |h| <= MaxAttempts(FindExam(exams, examId).value)))
  }

  ghost predicate Consistent(store: seq<Attempt>, exams: seq<Exam>) {
    forall u: nat, e: nat :: HistoryOk(History(store, u, e), exams, e)
  }

  /** One submission keeps every history well-formed. */
  lemma SubmitKeepsHistoryOk(
    i: SubmitInput, exams: seq<Exam>, qs: seq<Question>, store: seq<Attempt>, now: int, u: nat, e: nat)
    requires HistoryOk(History(store, u, e), exams, e)
    ensures HistoryOk(History(Submit(i, exams, qs, store, now).1, u, e), exams, e)
  {
    var res := Submit(i, exams, qs, store, now);
    if res.0.Submitted? {
      var a := res.0.result.attempt;
      HistoryAppend(store, a, u, e);
      var h := History(store, u, e);
      if a.userId == u && a.exam == e {
        assert h == History(store, i.userId.id, i.examId.id);
        ExtendHistoryOk(h, a, exams, e);
      }
    }
  }

  /** Appending the next attempt to an unpassed history, within the exam's
      limit, keeps it well-formed. */
  lemma ExtendHistoryOk(h: seq<Attempt>, a: Attempt, exams: seq<Exam>, e: nat)
    requires HistoryOk(h, exams, e) && !AnyPassed(h)
    requires FindExam(exams, e).Some? && a.attemptNumber == |h| + 1 <= MaxAttempts(FindExam(exams, e).value)
    ensures HistoryOk(h + [a], exams, e)
  {
    var h' := h + [a];
    assert forall k :: 0 <= k < |h| ==> !h[k].passed;
    assert forall k :: 0 <= k < |h'| - 1 ==> h'[k] == h[k];
  }

  lemma SubmitKeepsConsistent(
    i: SubmitInput, exams: seq<Exam>, qs: seq<Question>, store: seq<Attempt>, now: int)
    requires Consistent(store, exams)
    ensures Consistent(Submit(i, exams, qs, store, now).1, exams)
  {
    forall u: nat, e: nat
      ensures HistoryOk(History(Submit(i, exams, qs, store, now).1, u, e), exams, e)
    {
      SubmitKeepsHistoryOk(i, exams, qs, store, now, u, e);
    }
  }

  lemma EmptyStoreConsistent(exams: seq<Exam>)
    ensures Consistent([], exams)
  {
  }

  /** A submission request together with the time it arrives. */
  datatype Request = Request(input: SubmitInput, now: int)

  /** The attempt collection after serving the requests one after another. */
  function Replay(reqs: seq<Request>, exams: seq<Exam>, qs: seq<Question>, store: seq<Attempt>): seq<Attempt>
    decreases |reqs|
  {
    if |reqs| == 0 then store
    else Replay(reqs[1..], exams, qs, Submit(reqs[0].input, exams, qs, store, reqs[0].now).1)
  }

  /** Starting from a consistent collection, any sequence of submissions
      leaves every (user, exam) history numbered 1..n, within the attempt
      ceiling, and with at most one pass, which is its newest attempt. */
  lemma {:induction false} ReplayKeepsConsistent(
    reqs: seq<Request>, exams: seq<Exam>, qs: seq<Question>, store: seq<Attempt>)
    requires Consistent(store, exams)
    ensures Consistent(Replay(reqs, exams, qs, store), exams)
    decreases |reqs|
  {
    if |reqs| > 0 {
      SubmitKeepsConsistent(reqs[0].input, exams, qs, store, reqs[0].now);
      ReplayKeepsConsistent(reqs[1..], exams, qs, Submit(reqs[0].input, exams, qs, store, reqs[0].now).1);
    }
  }

  /** Attempt numbers of any collection built from scratch by
      `submitAttempt` are 1, 2, 3, ... with no gap and no repeat. */
  lemma NumberingFromScratch(reqs: seq<Request>, exams: seq<Exam>, qs: seq<Question>, u: nat, e: nat)
    ensures var h := History(Replay(reqs, exams, qs, []), u, e);
      forall k :: 0 <= k < |h| ==> h[k].attemptNumber == k + 1
  {
    EmptyStoreConsistent(exams);
    ReplayKeepsConsistent(reqs, exams, qs, []);
  }

  /** Once a user has passed an exam, a submission for that pair never
      succeeds and that pair's history does not change. */
  lemma PassedBlocksSubmit(
    i: SubmitInput, exams: seq<Exam>, qs: seq<Question>, store: seq<Attempt>, now: int, u: nat, e: nat)
    requires AnyPassed(History(store, u, e))
    ensures History(Submit(i, exams, qs, store, now).1, u, e) == History(store, u, e)
    ensures i.userId == Oid(u) && i.examId == Oid(e) ==>
      !Submit(i, exams, qs, store, now).0.Submitted?
  {
    var res := Submit(i, exams, qs, store, now);
    if res.0.Submitted? {
      var a := res.0.result.attempt;
      HistoryAppend(store, a, u, e);
      assert !(a.userId == u && a.exam == e);
    }
  }

  /** A pass is terminal for the whole future: whatever requests follow,
      the pair's history stays as it is. */
  lemma {:induction false} PassIsTerminal(
    reqs: seq<Request>, exams: seq<Exam>, qs: seq<Question>, store: seq<Attempt>, u: nat, e: nat)
    requires AnyPassed(History(store, u, e))
    ensures History(Replay(reqs, exams, qs, store), u, e) == History(store, u, e)
    decreases |reqs|
  {
    if |reqs| > 0 {
      var next := Submit(reqs[0].input, exams, qs, store, reqs[0].now).1;
      PassedBlocksSubmit(reqs[0].input, exams, qs, store, reqs[0].now, u, e);
      PassIsTerminal(reqs[1..], exams, qs, next, u, e);
    }
  }

  /** The status read and the submission gate agree: for a well-formed
      request on an existing exam whose answers can all be stored,
      `submitAttempt` succeeds exactly when `getExamStatus` reports
      canAttempt, and both use the same passing marks. (With an answer
      that cannot be stored the submission is a 500 whatever the status
      says; see `UnstorableAnswerIsServerError`.) */
  lemma StatusAgreesWithSubmit(
    i: SubmitInput, exams: seq<Exam>, qs: seq<Question>, store: seq<Attempt>, now: int)
    requires WellFormedSubmission(i) && i.userId.Oid? && i.examId.Oid?
    requires AllStorable(i.answers.value)
    requires FindExam(exams, i.examId.id).Some?
    ensures var st := ExamStatus(i.userId, i.examId, exams, store, now);
      st.StatusOk? &&
      (Submit(i, exams, qs, store, now).0.Submitted? <==> st.status.canAttempt)
    ensures var st := ExamStatus(i.userId, i.examId, exams, store, now);
      Submit(i, exams, qs, store, now).0.Submitted? ==>
        Submit(i, exams, qs, store, now).0.result.passingMarks == st.status.passingMarks
  {
  }

  /** After a successful submission, a status read at the same moment
      reports the attempts the submission counted and the same attempts
      left. */
  lemma StatusAfterSubmit(
    i: SubmitInput, exams: seq<Exam>, qs: seq<Question>, store: seq<Attempt>, now: int)
    requires Submit(i, exams, qs, store, now).0.Submitted?
    ensures var res := Submit(i, exams, qs, store, now);
      var st := ExamStatus(i.userId, i.examId, exams, res.1, now);
      st.StatusOk? &&
      st.status.attemptsUsed == res.0.result.attemptNumber &&
      st.status.passed == res.0.result.passed &&
      st.status.attemptsLeft == res.0.result.attemptsLeft
  {
    var res := Submit(i, exams, qs, store, now);
    var u := i.userId.id;
    var e := i.examId.id;
    var a := res.0.result.attempt;
    var h := History(store, u, e);
    HistoryAppend(store, a, u, e);
    var h' := History(res.1, u, e);
    assert h' == h + [a];
    assert !AnyPassed(h);
    if a.passed {
      assert h'[|h'| - 1].passed;
    } else {
      assert forall k :: 0 <= k < |h'| ==> !h'[k].passed by {
        forall k | 0 <= k < |h'|
          ensures !h'[k].passed
        {
          if k < |h| {
            assert h'[k] == h[k];
          }
        }
      }
    }
  }

  /** `getExamById` and `getExamStatus` report the same attempt ceiling
      for an exam, and the same one the submission gate applies; both
      answer 404 for the same unknown exams. */
  lemma ReportAgreesWithStatus(u: nat, e: nat, exams: seq<Exam>, store: seq<Attempt>, now: int)
    ensures var read := ReportedMaxAttempts(exams, Oid(e));
      var st := ExamStatus(Oid(u), Oid(e), exams, store, now);
      && (read.ReadFound? <==> st.StatusOk?)
      && (read.ReadFound? ==>
            read.maxAttempts == st.status.totalAttemptsAllowed == MaxAttempts(FindExam(exams, e).value))
  {
  }
}

=== FILE: attempts.dfy ===
/** Exam attempts: the `Attempt` schema defaults and pre-save hook
    (models/Attempt.js), and the live `submitAttempt` / `getExamStatus`
    handlers (controllers/attemptController.js from line 203).

    The attempt collection is a sequence in creation order; a query
    "sorted by createdAt descending" reads it from the back, so the newest
    attempt of a history `h` is `h[|h| - 1]`. */
module Attempts {
  import opened Common
  import opened Exams

  /** One answer as it arrives in the request body: the question id may
      be missing or not an ObjectId, the selected option missing (None)
      or empty. `lowercase` says whether an ObjectId question id is
      spelled as `ObjectId.toString()` spells it, in lowercase hex: the
      `$in` cast accepts either case, the string comparison that picks the
      question only the lowercase one. */
  datatype RawAnswer = RawAnswer(questionId: RawId, lowercase: bool, selectedOption: Option<string>)

  /** One answer the attempt schema can store: `answers[].questionId` is a
      required ObjectId and `answers[].selectedOption` a required String,
      which refuses the empty string. */
  predicate Storable(a: RawAnswer) {
    a.questionId.Oid? && a.selectedOption.Some? && a.selectedOption.value != ""
  }

  /** One answer once it is known to be storable. */
  datatype AnswerIn = AnswerIn(questionId: nat, lowercase: bool, selectedOption: string)

  /** The storable answers with their ids and options unwrapped. */
  function Unwrapped(raws: seq<RawAnswer>): (as_: seq<AnswerIn>)
    requires forall k :: 0 <= k < |raws| ==> Storable(raws[k])
    ensures |as_| == |raws|
    ensures forall k :: 0 <= k < |raws| ==>
      && Oid(as_[k].questionId) == raws[k].questionId
      && as_[k].lowercase == raws[k].lowercase
      && Some(as_[k].selectedOption) == raws[k].selectedOption
  {
    seq(|raws|, k requires 0 <= k < |raws| && Storable(raws[k]) =>
      AnswerIn(raws[k].questionId.id, raws[k].lowercase, raws[k].selectedOption.value))
  }

  /** One answer as stored: the echoed correct answer is None (`null`)
      when the question was not found. */
  datatype AnswerDetail = AnswerDetail(
    questionId: nat,
    selectedOption: string,
    correctAnswer: Option<string>,
    marks: int)

  datatype Attempt = Attempt(
    userId: nat,
    exam: nat,
    answers: seq<AnswerDetail>,
    score: int,
    passed: bool,
    attemptNumber: int,
    createdAt: int,
    canRetryAfter: Option<int>)

  /** A fresh attempt document: the schema defaults are score 0,
      passed false, attemptNumber 1 and canRetryAfter null. */
  function NewAttempt(userId: nat, exam: nat, answers: seq<AnswerDetail>, now: int): (a: Attempt)
    ensures a.score == 0 && !a.passed && a.attemptNumber == 1 && a.canRetryAfter.None?
    ensures a.userId == userId && a.exam == exam && a.answers == answers && a.createdAt == now
  {
    Attempt(userId, exam, answers, 0, false, 1, now, None)
  }

  /** Sum of the per-answer marks (the hook's `reduce`, left to right). */
  function SumMarks(ds: seq<AnswerDetail>): int
  {
    if |ds| == 0 then 0 else SumMarks(ds[..|ds| - 1]) + ds[|ds| - 1].marks
  }

  /** The attempts of one user on one exam, in creation order. */
  function History(store: seq<Attempt>, userId: nat, examId: nat): (h: seq<Attempt>)
    ensures |h| <= |store|
    ensures forall a :: a in h ==> a in store && a.userId == userId && a.exam == examId
    ensures forall a :: a in store && a.userId == userId && a.exam == examId ==> a in h
  {
    if |store| == 0 then []
    else
      var last := store[|store| - 1];
      History(store[..|store| - 1], userId, examId)
        + (if last.userId == userId && last.exam == examId then [last] else [])
  }

  // ------------------------------------------------------------------
  // Pre-save hook
  // ------------------------------------------------------------------

  /** The `pre("save")` hook. `exam` is what `Exam.findById(this.exam)`
      returns, `prior` the stored history of the same user and exam and
      `isNew` whether the document is being inserted. The hook rewrites
      the score from the answers; when the exam exists it resets `passed`
      and sets canRetryAfter to 24 hours after `now` exactly when the
      attempt fails; a new document whose attemptNumber is 0 or 1 and that
      has a predecessor is renumbered after the newest predecessor. */
  function PreSave(a: Attempt, exam: Option<Exam>, prior: seq<Attempt>, isNew: bool, now: int): (r: Attempt)
    ensures r.score == SumMarks(a.answers)
    ensures exam.Some? ==> r.passed == (r.score >= EffectivePassingMarks(exam.value))
    ensures exam.Some? ==> (r.canRetryAfter.Some? <==> !r.passed)
    ensures exam.Some? && !r.passed ==> r.canRetryAfter == Some(now + DayMs)
    ensures exam.None? ==> r.passed == a.passed && r.canRetryAfter == a.canRetryAfter
    ensures isNew && (a.attemptNumber == 0 || a.attemptNumber == 1) && |prior| > 0 ==>
      r.attemptNumber == prior[|prior| - 1].attemptNumber + 1
    ensures !(isNew && (a.attemptNumber == 0 || a.attemptNumber == 1) && |prior| > 0) ==>
      r.attemptNumber == a.attemptNumber
    ensures r.userId == a.userId && r.exam == a.exam && r.answers == a.answers && r.createdAt == a.createdAt
  {
    var score := SumMarks(a.answers);
    var graded :=
      if exam.Some? then
        var shouldPass := score >= EffectivePassingMarks(exam.value);
        a.(score := score, passed := shouldPass,
           canRetryAfter := if shouldPass then None else Some(now + DayMs))
      else a.(score := score);
    if isNew && (a.attemptNumber == 0 || a.attemptNumber == 1) && |prior| > 0 then
      graded.(attemptNumber := prior[|prior| - 1].attemptNumber + 1)
    else graded
  }

  /** Saving an already-saved attempt again at the same time changes
      nothing: the hook is idempotent. */
  lemma PreSaveIdempotent(a: Attempt, exam: Option<Exam>, prior: seq<Attempt>, isNew: bool, now: int)
    ensures var once := PreSave(a, exam, prior, isNew, now);
      PreSave(once, exam, prior, false, now) == once
  {
  }

  // ------------------------------------------------------------------
  // Scoring
  // ------------------------------------------------------------------

  /** The question `questions.find(q => q._id.toString() === ans.questionId)`
      picks among the fetched ones: none when the request spells the id
      in anything but lowercase hex, although `Question.find` fetched it. */
  function MatchedQuestion(qs: seq<Question>, ans: AnswerIn): Option<Question> {
    if ans.lowercase then FindQuestion(qs, ans.questionId) else None
  }

  /** The marks one answer earns: the question's marks (`|| 1`) when the
      selected option equals the correct answer, otherwise 0; an unknown
      question, or one whose id the request spells in upper case, earns 0
      and echoes no correct answer. */
  function ScoreAnswer(qs: seq<Question>, ans: AnswerIn): (d: AnswerDetail)
    ensures d.questionId == ans.questionId && d.selectedOption == ans.selectedOption
    ensures !ans.lowercase || FindQuestion(qs, ans.questionId).None? ==>
      d.correctAnswer.None? && d.marks == 0
    ensures ans.lowercase && FindQuestion(qs, ans.questionId).Some? ==>
      var q := FindQuestion(qs, ans.questionId).value;
      d.correctAnswer == Some(q.correctAnswer) &&
      (ans.selectedOption == q.correctAnswer ==> d.marks == QuestionMarks(q)) &&
      (ans.selectedOption != q.correctAnswer ==> d.marks == 0)
  {
    match MatchedQuestion(qs, ans)
    case None => AnswerDetail(ans.questionId, ans.selectedOption, None, 0)
    case Some(q) =>
      var earned := if ans.selectedOption == q.correctAnswer then QuestionMarks(q) else 0;
      AnswerDetail(q.id, ans.selectedOption, Some(q.correctAnswer), earned)
  }

  /** `answers.map(...)`: one detail per submitted answer, in order. */
  function ScoreAll(qs: seq<Question>, answers: seq<AnswerIn>): (ds: seq<AnswerDetail>)
    ensures |ds| == |answers|
    ensures forall i :: 0 <= i < |answers| ==> ds[i] == ScoreAnswer(qs, answers[i])
  {
    if |answers| == 0 then []
    else ScoreAll(qs, answers[..|answers| - 1]) + [ScoreAnswer(qs, answers[|answers| - 1])]
  }

  /** The most a single answer can earn: its question's marks, or 0 when
      the question is not matched. */
  function MaxEarnable(qs: seq<Question>, ans: AnswerIn): int {
    match MatchedQuestion(qs, ans)
    case None => 0
    case Some(q) => QuestionMarks(q)
  }

  function SumMaxEarnable(qs: seq<Question>, answers: seq<AnswerIn>): int {
    if |answers| == 0 then 0
    else SumMaxEarnable(qs, answers[..|answers| - 1]) + MaxEarnable(qs, answers[|answers| - 1])
  }

  /** With non-negative question marks the score lies between 0 and the
      sum of what every answered question could earn. */
  lemma {:induction false} ScoreBounds(qs: seq<Question>, answers: seq<AnswerIn>)
    requires forall q :: q in qs ==> q.marks >= 0
    ensures 0 <= SumMarks(ScoreAll(qs, answers)) <= SumMaxEarnable(qs, answers)
  {
    if |answers| > 0 {
      var init := answers[..|answers| - 1];
      ScoreBounds(qs, init);
      var ds := ScoreAll(qs, answers);
      assert ds[..|ds| - 1] == ScoreAll(qs, init);
    }
  }

  /** When every answer is correct for a known question whose id it spells
      in lowercase, the score is the full sum. */
  lemma {:induction false} AllCorrectEarnsEverything(qs: seq<Question>, answers: seq<AnswerIn>)
    requires forall i :: 0 <= i < |answers| ==>
      answers[i].lowercase &&
      FindQuestion(qs, answers[i].questionId).Some? &&
      answers[i].selectedOption == FindQuestion(qs, answers[i].questionId).value.correctAnswer
    ensures SumMarks(ScoreAll(qs, answers)) == SumMaxEarnable(qs, answers)
  {
    if |answers| > 0 {
      var init := answers[..|answers| - 1];
      AllCorrectEarnsEverything(qs, init);
      var ds := ScoreAll(qs, answers);
      assert ds[..|ds| - 1] == ScoreAll(qs, init);
    }
  }

  // ------------------------------------------------------------------
  // The gate: already passed -> attempts exhausted -> 24 h cooldown
  // ------------------------------------------------------------------

  predicate AnyPassed(h: seq<Attempt>) {
    exists i :: 0 <= i < |h| && h[i].passed
  }

  /** The newest attempt failed less than 24 hours before `now`. */
  predicate CooldownActive(h: seq<Attempt>, now: int) {
    |h| > 0 && !h[|h| - 1].passed && now - h[|h| - 1].createdAt < DayMs
  }

  /** `Math.ceil(24 - elapsedHours)` computed exactly on milliseconds. */
  function HoursRemaining(last: int, now: int): int {
    CeilDiv(DayMs - (now - last), HourMs)
  }

  datatype Rejection =
    | AlreadyPassed
    | AttemptsExhausted(maxAttempts: int)
    | Cooldown(hoursRemaining: int, nextAttemptTime: int, lastAttemptTime: int)

  /** The eligibility checks of `submitAttempt`, in the source's order. */
  function Gate(h: seq<Attempt>, maxAttempts: int, now: int): (r: Option<Rejection>)
    ensures r == Some(AlreadyPassed) <==> AnyPassed(h)
    ensures r == Some(AttemptsExhausted(maxAttempts)) <==> !AnyPassed(h) && |h| >= maxAttempts
    ensures r.Some? && r.value.Cooldown? <==>
      !AnyPassed(h) && |h| < maxAttempts && CooldownActive(h, now)
    ensures r.None? <==> !AnyPassed(h) && |h| < maxAttempts && !CooldownActive(h, now)
    ensures r.Some? && r.value.Cooldown? ==>
      var last := h[|h| - 1].createdAt;
      r.value.nextAttemptTime == last + DayMs && r.value.lastAttemptTime == last &&
      r.value.hoursRemaining == HoursRemaining(last, now)
  {
    if AnyPassed(h) then Some(AlreadyPassed)
    else if |h| >= maxAttempts then Some(AttemptsExhausted(maxAttempts))
    else if CooldownActive(h, now) then
      var last := h[|h| - 1].createdAt;
      Some(Cooldown(HoursRemaining(last, now), last + DayMs, last))
    else None
  }

  /** The hours a cooldown reports lie in 1..24 whenever the newest
      attempt is not in the future. */
  lemma CooldownHoursInRange(h: seq<Attempt>, maxAttempts: int, now: int)
    requires Gate(h, maxAttempts, now).Some? && Gate(h, maxAttempts, now).value.Cooldown?
    requires now >= h[|h| - 1].createdAt
    ensures 1 <= Gate(h, maxAttempts, now).value.hoursRemaining <= 24
  {
    var last := h[|h| - 1].createdAt;
    var q := HoursRemaining(last, now);
    assert 0 < DayMs - (now - last) <= DayMs;
    assert (q - 1) * HourMs < DayMs - (now - last) <= q * HourMs;
  }

  /** The cooldown boundary: one millisecond before the 24 hours are up the
      newest failure still blocks with one hour remaining; from 24 hours on
      it no longer blocks. */
  lemma CooldownBoundary(h: seq<Attempt>, maxAttempts: int)
    requires |h| > 0 && !AnyPassed(h) && |h| < maxAttempts
    ensures var t := h[|h| - 1].createdAt;
      Gate(h, maxAttempts, t + DayMs - 1) == Some(Cooldown(1, t + DayMs, t))
    ensures forall now :: now >= h[|h| - 1].createdAt + DayMs ==> Gate(h, maxAttempts, now).None?
  {
    var t := h[|h| - 1].createdAt;
    assert !h[|h| - 1].passed;
    assert HoursRemaining(t, t + DayMs - 1) == 1;
  }

  // ------------------------------------------------------------------
  // submitAttempt
  // ------------------------------------------------------------------

  /** The request body; None for `answers` stands for missing or not an
      array. */
  datatype SubmitInput = SubmitInput(userId: RawId, examId: RawId, answers: Option<seq<RawAnswer>>)

  datatype SubmitResult = SubmitResult(
    attempt: Attempt,
    score: int,
    totalMarks: Option<int>,
    passingMarks: int,
    passed: bool,
    attemptNumber: int,
    attemptsLeft: int,
    totalAttemptsAllowed: int,
    cooldownUntil: Option<int>)

  datatype SubmitOutcome =
    | BadInput                      // 400: userId, examId and answers are required
    | NoSuchExam                    // 404
    | ServerError                   // 500: an id that is not an ObjectId fails to cast,
                                    // or an answer the schema cannot store
    | Blocked(reason: Rejection)    // 400 with the reason
    | Submitted(result: SubmitResult) // 201

  predicate WellFormedSubmission(i: SubmitInput) {
    i.userId != Absent && i.examId != Absent && i.answers.Some? && |i.answers.value| > 0
  }

  /** Every answer of the body can be stored. */
  predicate AllStorable(answers: seq<RawAnswer>) {
    forall k :: 0 <= k < |answers| ==> Storable(answers[k])
  }

  /** `submitAttempt` as a function from the request, the stored exams,
      questions and attempts, and the clock to the response and the new
      attempt collection. The stored record is what the pre-save hook makes
      of the record the controller builds. An answer whose question id is
      not an ObjectId fails the `Question.find` cast and one without a
      selected option fails `Attempt.create`: either is a 500 that stores
      nothing, and both come after the gate. */
  function Submit(i: SubmitInput, exams: seq<Exam>, qs: seq<Question>, store: seq<Attempt>, now: int)
    : (res: (SubmitOutcome, seq<Attempt>))
    ensures res.0 == BadInput <==> !WellFormedSubmission(i)
    ensures res.0 == NoSuchExam <==>
      WellFormedSubmission(i) && i.examId.Oid? && FindExam(exams, i.examId.id).None?
    ensures res.0.Blocked? <==>
      && WellFormedSubmission(i) && i.examId.Oid? && i.userId.Oid?
      && FindExam(exams, i.examId.id).Some?
      && Gate(History(store, i.userId.id, i.examId.id), MaxAttempts(FindExam(exams, i.examId.id).value), now).Some?
    ensures res.0.Blocked? ==>
      res.0 == Blocked(Gate(History(store, i.userId.id, i.examId.id),
                            MaxAttempts(FindExam(exams, i.examId.id).value), now).value)
    ensures res.0 == ServerError <==>
      && WellFormedSubmission(i)
      && (|| i.examId.Malformed?
          || (&& FindExam(exams, i.examId.id).Some?
              && (|| i.userId.Malformed?
                  || (&& Gate(History(store, i.userId.id, i.examId.id),
                              MaxAttempts(FindExam(exams, i.examId.id).value), now).None?
                      && !AllStorable(i.answers.value)))))
    ensures !res.0.Submitted? ==> res.1 == store
    ensures res.0.Submitted? ==>
      && i.userId.Oid? && i.examId.Oid? && FindExam(exams, i.examId.id).Some?
      && AllStorable(i.answers.value)
      && res.0.result.attempt.answers == ScoreAll(qs, Unwrapped(i.answers.value))
      && var h := History(store, i.userId.id, i.examId.id);
      && var exam := FindExam(exams, i.examId.id).value;
      && Gate(h, MaxAttempts(exam), now).None?
      && res.1 == store + [res.0.result.attempt]
      && res.0.result.attempt.attemptNumber == |h| + 1 <= MaxAttempts(exam)
      && res.0.result.attemptNumber == |h| + 1
      && res.0.result.attempt.userId == i.userId.id && res.0.result.attempt.exam == i.examId.id
      && res.0.result.score == SumMarks(res.0.result.attempt.answers) == res.0.result.attempt.score
      && res.0.result.passed == res.0.result.attempt.passed
      && res.0.result.passed == (res.0.result.score >= EffectivePassingMarks(exam))
      && res.0.result.passingMarks == EffectivePassingMarks(exam)
      && 0 <= res.0.result.attemptsLeft
      && (res.0.result.passed ==> res.0.result.attemptsLeft == 0)
      && (!res.0.result.passed ==> res.0.result.attemptsLeft == MaxAttempts(exam) - (|h| + 1))
      && res.0.result.attempt.createdAt == now
  {
    if !WellFormedSubmission(i) then (BadInput, store)
    else if i.examId.Malformed? then (ServerError, store)
    else match FindExam(exams, i.examId.id)
      case None => (NoSuchExam, store)
      case Some(exam) =>
        if i.userId.Malformed? then (ServerError, store)
        else
          var h := History(store, i.userId.id, i.examId.id);
          var maxAttempts := MaxAttempts(exam);
          var gate := Gate(h, maxAttempts, now);
          if gate.Some? then (Blocked(gate.value), store)
          else if !AllStorable(i.answers.value) then (ServerError, store)
          else
            var details := ScoreAll(qs, Unwrapped(i.answers.value));
            var total := SumMarks(details);
            var passingMarks := EffectivePassingMarks(exam);
            var passed := total >= passingMarks;
            var built := Attempt(i.userId.id, i.examId.id, details, total, passed, |h| + 1, now, None);
            var stored := PreSave(built, Some(exam), h, true, now);
            var attemptsUsed := |h| + 1;
            var attemptsLeft := if passed then 0
                                else if maxAttempts - attemptsUsed > 0 then maxAttempts - attemptsUsed
                                else 0;
            var result := SubmitResult(stored, total, exam.totalMarks, passingMarks, passed,
                                       attemptsUsed, attemptsLeft, maxAttempts,
                                       if passed then None else Some(now + DayMs));
            (Submitted(result), store + [stored])
  }

  /** On a request the gate lets through, one answer without an ObjectId
      question id or without a selected option makes the whole submission
      a 500 that stores nothing; on a request the gate blocks, the block is
      reported first. */
  lemma UnstorableAnswerIsServerError(
    i: SubmitInput, exams: seq<Exam>, qs: seq<Question>, store: seq<Attempt>, now: int, k: nat)
    requires WellFormedSubmission(i) && i.userId.Oid? && i.examId.Oid?
    requires FindExam(exams, i.examId.id).Some?
    requires k < |i.answers.value| && !Storable(i.answers.value[k])
    ensures var gate := Gate(History(store, i.userId.id, i.examId.id),
                             MaxAttempts(FindExam(exams, i.examId.id).value), now);
      Submit(i, exams, qs, store, now) ==
        (if gate.Some? then Blocked(gate.value) else ServerError, store)
  {
  }

  /** The record `submitAttempt` builds is a fixed point of the pre-save
      hook in score, passed and attemptNumber; the hook only adds the
      retry time, which is 24 hours after `now` exactly for a failure. */
  lemma ControllerRecordIsHookFixedPoint(
    userId: nat, exam: Exam, qs: seq<Question>, answers: seq<AnswerIn>,
    h: seq<Attempt>, now: int)
    ensures
      var details := ScoreAll(qs, answers);
      var total := SumMarks(details);
      var passed := total >= EffectivePassingMarks(exam);
      var built := Attempt(userId, exam.id, details, total, passed, |h| + 1, now, None);
      var stored := PreSave(built, Some(exam), h, true, now);
      stored.score == built.score && stored.passed == built.passed &&
      stored.attemptNumber == built.attemptNumber &&
      stored.canRetryAfter == (if passed then None else Some(now + DayMs))
  {
  }

  // ------------------------------------------------------------------
  // getExamStatus
  // ------------------------------------------------------------------

  datatype AttemptSummary = AttemptSummary(attemptNumber: int, score: int, passed: bool, submittedAt: int)

  datatype Eligibility = Eligibility(
    canAttempt: bool,
    passed: bool,
    attemptsUsed: nat,
    attemptsLeft: int,
    totalAttemptsAllowed: int,
    attempts: seq<AttemptSummary>,
    passingMarks: int,
    hasCooldown: bool,
    hoursRemaining: Option<int>,
    nextAttemptTime: Option<int>,
    lastAttemptTime: Option<int>)

  function Summary(a: Attempt): AttemptSummary {
    AttemptSummary(a.attemptNumber, a.score, a.passed, a.createdAt)
  }

  /** The history as the status response lists it, newest first. */
  function NewestFirst(h: seq<Attempt>): (s: seq<AttemptSummary>)
    ensures |s| == |h|
    ensures forall k :: 0 <= k < |h| ==> s[k] == Summary(h[|h| - 1 - k])
  {
    seq(|h|, k requires 0 <= k < |h| => Summary(h[|h| - 1 - k]))
  }

  /** The status computed from one history and its exam. */
  function StatusOf(h: seq<Attempt>, exam: Exam, now: int): (r: Eligibility)
    ensures r.attemptsUsed == |h|
    ensures r.passed == AnyPassed(h)
    ensures r.totalAttemptsAllowed == MaxAttempts(exam)
    ensures r.passingMarks == EffectivePassingMarks(exam)
    ensures r.canAttempt <==> !AnyPassed(h) && |h| < MaxAttempts(exam) && !CooldownActive(h, now)
    ensures r.hasCooldown == CooldownActive(h, now)
    ensures r.hasCooldown ==> r.nextAttemptTime == Some(h[|h| - 1].createdAt + DayMs)
    ensures 0 <= r.attemptsLeft
    ensures AnyPassed(h) ==> r.attemptsLeft == 0
    ensures r.attempts == NewestFirst(h)
  {
    var maxAttempts := MaxAttempts(exam);
    var passedAny := AnyPassed(h);
    var cooling := CooldownActive(h, now);
    var left := if passedAny then 0 else if maxAttempts - |h| > 0 then maxAttempts - |h| else 0;
    var last := if |h| > 0 then Some(h[|h| - 1].createdAt) else None;
    Eligibility(
      !passedAny && |h| < maxAttempts && !cooling,
      passedAny, |h|, left, maxAttempts, NewestFirst(h), EffectivePassingMarks(exam),
      cooling,
      if cooling then Some(HoursRemaining(last.value, now)) else None,
      if cooling then Some(last.value + DayMs) else None,
      last)
  }

  datatype StatusOutcome =
    | StatusServerError              // 500: a route id that is not an ObjectId fails to cast
    | StatusNotFound                 // 404: no exam with that id
    | StatusOk(status: Eligibility)  // 200

  /** `getExamStatus`: the exam read and the user's history read run
      together, so a route id that is not an ObjectId fails one of them
      and is a 500 before the 404 for an unknown exam. Otherwise the
      status of the user's history. The cooldown block is computed from
      the newest attempt whatever the other conditions say. Route
      parameters are never absent. */
  function ExamStatus(studentId: RawId, examId: RawId, exams: seq<Exam>, store: seq<Attempt>, now: int)
    : (r: StatusOutcome)
    requires studentId != Absent && examId != Absent
    ensures r == StatusServerError <==> studentId.Malformed? || examId.Malformed?
    ensures r == StatusNotFound <==> studentId.Oid? && examId.Oid? && FindExam(exams, examId.id).None?
    ensures r.StatusOk? ==>
      && studentId.Oid? && examId.Oid? && FindExam(exams, examId.id).Some?
      && r.status == StatusOf(History(store, studentId.id, examId.id), FindExam(exams, examId.id).value, now)
  {
    if studentId.Malformed? || examId.Malformed? then StatusServerError
    else match FindExam(exams, examId.id)
      case None => StatusNotFound
      case Some(exam) => StatusOk(StatusOf(History(store, studentId.id, examId.id), exam, now))
  }
}

=== FILE: common.dfy ===
/** Helpers shared by every handler model: optional values, request ids,
    integer time, and the small sequence operations the document store
    offers ($addToSet, $pull). */
module Common {

  /** A value that may be absent (`undefined` / `null` in the source). */
  datatype Option<+T> = None | Some(value: T) {
    function GetOr(default: T): T {
      match this
      case Some(v) => v
      case None => default
    }
  }

  /** An id as it arrives in a request body, query string or route
      parameter: missing (or the empty string), present but not a
      well-formed ObjectId, or a well-formed ObjectId. Stored documents
      always carry well-formed ids, which are plain `nat`s. */
  datatype RawId = Absent | Malformed | Oid(id: nat) {
    /** `mongoose.Types.ObjectId.isValid` */
    predicate IsValid() { Oid? }
  }

  /** Milliseconds in one hour and in one day: the cooldown and the
      enrollment duration are written in these units. */
  const HourMs: int := 3_600_000
  const DayMs: int := 86_400_000

  /** `Math.ceil(n / d)` for a positive divisor, on integers. */
  function CeilDiv(n: int, d: int): (q: int)
    requires d > 0
    ensures (q - 1) * d < n <= q * d
  {
    var q := (n + d - 1) / d;
    assert (n + d - 1) == q * d + (n + d - 1) % d;
    q
  }

  /** JavaScript `x || dflt` on a number field that may be missing:
      both a missing value and 0 fall back to the default. */
  function OrDefault(x: Option<int>, dflt: int): (r: int)
    ensures x.Some? && x.value != 0 ==> r == x.value
    ensures (x.None? || x.value == 0) ==> r == dflt
  {
    if x.Some? && x.value != 0 then x.value else dflt
  }

  /** JavaScript truthiness of an optional number. */
  predicate Truthy(x: Option<int>) {
    x.Some? && x.value != 0
  }

  predicate NoDuplicates<T(==)>(s: seq<T>) {
    forall i, j :: 0 <= i < j < |s| ==> s[i] != s[j]
  }

  /** MongoDB `$addToSet`: append the value unless it is already there. */
  function AddToSet(s: seq<nat>, x: nat): (r: seq<nat>)
    ensures x in r
    ensures forall y :: y in r <==> y in s || y == x
    ensures x in s ==> r == s
    ensures x !in s ==> |r| == |s| + 1 && r[..|s|] == s
    ensures NoDuplicates(s) ==> NoDuplicates(r)
  {
    if x in s then s else s + [x]
  }

  /** MongoDB `$pull`: remove every occurrence of the value. */
  function Pull(s: seq<nat>, x: nat): (r: seq<nat>)
    ensures x !in r
    ensures forall y :: y in r <==> y in s && y != x
    ensures |r| <= |s|
    ensures x !in s ==> r == s
  {
    if |s| == 0 then []
    else if s[0] == x then Pull(s[1..], x)
    else [s[0]] + Pull(s[1..], x)
  }

  /** The decimal digits of a natural number, most significant first,
      with no leading zero except for 0 itself. */
  function NatToDecimal(n: nat): (r: string)
    ensures |r| > 0
    ensures forall i :: 0 <= i < |r| ==> '0' <= r[i] <= '9'
    ensures n == 0 <==> r == "0"
    ensures r[0] == '0' ==> n == 0
  {
    var digit := ['0' + (n % 10) as char];
    if n < 10 then digit else NatToDecimal(n / 10) + digit
  }

  /** The number a string of decimal digits denotes, read most significant
      digit first: the reference reading that `NatToDecimal` inverts. */
  function DecimalValue(s: string): nat
    requires forall i :: 0 <= i < |s| ==> '0' <= s[i] <= '9'
  {
    if |s| == 0 then 0
    else DecimalValue(s[..|s| - 1]) * 10 + (s[|s| - 1] - '0') as nat
  }

  /** Reading the digits back gives the number. */
  lemma {:induction false} DecimalRoundTrip(n: nat)
    ensures DecimalValue(NatToDecimal(n)) == n
  {
    if n >= 10 {
      DecimalRoundTrip(n / 10);
      var r := NatToDecimal(n);
      assert r[..|r| - 1] == NatToDecimal(n / 10);
    }
  }

  /** `Number.prototype.toString()` of an integer. */
  function IntToDecimal(n: int): (r: string)
    ensures |r| > 0
    ensures n >= 0 ==> forall i :: 0 <= i < |r| ==> '0' <= r[i] <= '9'
    ensures n < 0 ==> r[0] == '-' && r[1..] == NatToDecimal(-n)
    ensures n >= 0 ==> r == NatToDecimal(n)
  {
    if n >= 0 then NatToDecimal(n) else "-" + NatToDecimal(-n)
  }

  /** Distinct integers render as distinct strings, so a `"PAY_" + now`
      identifier names the instant it was made at. */
  lemma IntToDecimalInjective(m: int, n: int)
    requires IntToDecimal(m) == IntToDecimal(n)
    ensures m == n
  {
    var x, y := IntToDecimal(m), IntToDecimal(n);
    if m >= 0 && n >= 0 {
      NatToDecimalInjective(m, n);
    } else if m < 0 && n < 0 {
      assert x[1..] == y[1..];
      NatToDecimalInjective(-m, -n);
    }
  }

  /** Distinct naturals have distinct digit strings. */
  lemma NatToDecimalInjective(a: nat, b: nat)
    requires NatToDecimal(a) == NatToDecimal(b)
    ensures a == b
  {
    DecimalRoundTrip(a);
    DecimalRoundTrip(b);
  }

  /** `String.prototype.toLowerCase()` restricted to ASCII letters. */
  function LowerChar(c: char): (r: char)
    ensures 'A' <= c <= 'Z' ==> 'a' <= r <= 'z'
    ensures !('A' <= c <= 'Z') ==> r == c
  {
    if 'A' <= c <= 'Z' then (c as int - 'A' as int + 'a' as int) as char else c
  }

  function ToLower(s: string): (r: string)
    ensures |r| == |s|
    ensures forall i :: 0 <= i < |s| ==> r[i] == LowerChar(s[i])
  {
    seq(|s|, i requires 0 <= i < |s| => LowerChar(s[i]))
  }

  /** The characters `String.prototype.trim` removes: the white space
      and line terminators of section 12.2 and 12.3 of ECMA-262 (tab,
      vertical tab, form feed, space, no-break space, the byte order mark,
      the other space separators, line feed, carriage return and the line
      and paragraph separators). */
  predicate IsJsSpace(c: char) {
    || c == '\t' || c == '\n' || c == '\U{000B}' || c == '\U{000C}' || c == '\r' || c == ' '
    || c == '\U{00A0}' || c == '\U{1680}' || ('\U{2000}' <= c <= '\U{200A}')
    || c == '\U{2028}' || c == '\U{2029}' || c == '\U{202F}' || c == '\U{205F}'
    || c == '\U{3000}' || c == '\U{FEFF}'
  }

  /** A string with no white space at either end. */
  predicate Trimmed(s: string) {
    |s| == 0 || (!IsJsSpace(s[0]) && !IsJsSpace(s[|s| - 1]))
  }

  /** The number of white-space characters the string starts with. */
  function LeadingSpaces(s: string): (n: nat)
    ensures n <= |s|
    ensures forall k :: 0 <= k < n ==> IsJsSpace(s[k])
    ensures n < |s| ==> !IsJsSpace(s[n])
  {
    if |s| > 0 && IsJsSpace(s[0]) then 1 + LeadingSpaces(s[1..]) else 0
  }

  /** Drop trailing white space. */
  function TrimEnd(s: string): (r: string)
    ensures |r| <= |s| && r == s[..|r|]
    ensures forall k :: |r| <= k < |s| ==> IsJsSpace(s[k])
    ensures |r| > 0 ==> !IsJsSpace(r[|r| - 1])
  {
    if |s| > 0 && IsJsSpace(s[|s| - 1]) then TrimEnd(s[..|s| - 1]) else s
  }

  /** `String.prototype.trim`, which a schema path with `trim: true`
      applies before validation: what is left between the leading and the
      trailing white space, everything cut off being white space. */
  function Trim(s: string): (r: string)
    ensures Trimmed(r)
    ensures var i := LeadingSpaces(s);
      && i + |r| <= |s| && r == s[i..i + |r|]
      && forall k :: i + |r| <= k < |s| ==> IsJsSpace(s[k])
  {
    TrimEnd(s[LeadingSpaces(s)..])
  }

  /** A blank string, all white space, trims to the empty string, and
      only a blank one does. */
  lemma TrimEmptyIffBlank(s: string)
    ensures Trim(s) == "" <==> forall k :: 0 <= k < |s| ==> IsJsSpace(s[k])
  {
    var r := Trim(s);
    if r != "" {
      assert s[LeadingSpaces(s)] == r[0];
    }
  }

  /** Trimming is idempotent: a trimmed string is left as it is. */
  lemma TrimIdempotent(s: string)
    ensures Trim(Trim(s)) == Trim(s)
  {
    TrimKeepsTrimmed(Trim(s));
  }

  lemma TrimKeepsTrimmed(s: string)
    requires Trimmed(s)
    ensures Trim(s) == s
  {
  }

  /** A collection listed newest first: the creation order reversed. */
  function Reversed<T>(s: seq<T>): (r: seq<T>)
    ensures |r| == |s|
  {
    if |s| == 0 then [] else [s[|s| - 1]] + Reversed(s[..|s| - 1])
  }

  /** Position `k` of the reversed list holds the `k`-th newest element. */
  lemma {:induction false} ReversedAt<T>(s: seq<T>, k: nat)
    requires k < |s|
    ensures Reversed(s)[k] == s[|s| - 1 - k]
    decreases |s|
  {
    if k > 0 {
      var older := s[..|s| - 1];
      ReversedAt(older, k - 1);
      assert older[|older| - 1 - (k - 1)] == s[|s| - 1 - k];
    }
  }
}

=== FILE: courses.dfy ===
/** Courses: the fields of `models/Course.js` the core reads, the
    free-course test shared by the payment handlers, and the two course
    handlers in scope: `createCourse` (required fields and subCategories
    normalisation) and `enrollStudent` (add-to-set on studentsEnrolled). */
module Courses {
  import opened Common

  datatype Course = Course(
    id: nat,
    title: string,
    description: string,
    category: string,
    duration: int,           // days; the schema default is 0
    price: int,              // the schema default is 0
    totalLectures: int,      // the schema default is 0
    studentsEnrolled: seq<nat>,
    subCategories: seq<string>,
    level: CourseLevel,
    status: CourseStatus)

  datatype CourseLevel = Beginner | Intermediate | Advanced
  datatype CourseStatus = CourseActive | CourseInactive

  /** The `level` enum: a missing level takes the default "Beginner"; any
      other string outside the enum is refused (None). */
  function ParseLevel(s: Option<string>): (r: Option<CourseLevel>)
    ensures s.None? ==> r == Some(Beginner)
    ensures s.Some? ==> (r.Some? <==> s.value in {"Beginner", "Intermediate", "Advanced"})
  {
    match s
    case None => Some(Beginner)
    case Some(v) =>
      if v == "Beginner" then Some(Beginner)
      else if v == "Intermediate" then Some(Intermediate)
      else if v == "Advanced" then Some(Advanced)
      else None
  }

  /** The `status` enum: missing means the default "Active". */
  function ParseStatus(s: Option<string>): (r: Option<CourseStatus>)
    ensures s.None? ==> r == Some(CourseActive)
    ensures s.Some? ==> (r.Some? <==> s.value in {"Active", "Inactive"})
  {
    match s
    case None => Some(CourseActive)
    case Some(v) =>
      if v == "Active" then Some(CourseActive)
      else if v == "Inactive" then Some(CourseInactive)
      else None
  }

  /** The spelling the schema stores for each level and status. */
  function LevelName(l: CourseLevel): string {
    match l
    case Beginner => "Beginner"
    case Intermediate => "Intermediate"
    case Advanced => "Advanced"
  }

  function StatusName(st: CourseStatus): string {
    match st
    case CourseActive => "Active"
    case CourseInactive => "Inactive"
  }

  /** Parsing the stored spelling gives the value back, for every level
      and status. */
  lemma EnumNamesRoundTrip(l: CourseLevel, st: CourseStatus)
    ensures ParseLevel(Some(LevelName(l))) == Some(l)
    ensures ParseStatus(Some(StatusName(st))) == Some(st)
  {
  }

  /** The payment handlers' free-course test `price === 0 || isFree === true`.
      `isFree` is not a field of the course schema, so on a loaded course
      it is always undefined and only the price decides. */
  predicate IsFreeCourse(c: Course) {
    c.price == 0
  }

  function FindCourse(courses: seq<Course>, id: nat): (r: Option<Course>)
    ensures r.Some? ==> r.value in courses && r.value.id == id
    ensures r.None? ==> forall c :: c in courses ==> c.id != id
  {
    if |courses| == 0 then None
    else if courses[0].id == id then Some(courses[0])
    else FindCourse(courses[1..], id)
  }

  /** Replace the course whose id matches (`course.save()` on a loaded
      document); `Exams.ReplaceExam` and `Enrollments.ReplaceById` are the
      same per-model save for their collections. */
  function ReplaceCourse(courses: seq<Course>, c: Course): (r: seq<Course>)
    ensures |r| == |courses|
    ensures forall k :: 0 <= k < |courses| ==> r[k] == (if courses[k].id == c.id then c else courses[k])
  {
    seq(|courses|, k requires 0 <= k < |courses| => if courses[k].id == c.id then c else courses[k])
  }

  // ------------------------------------------------------------------
  // createCourse
  // ------------------------------------------------------------------

  /** The shapes `subCategories` may arrive in: a string (JSON text), an
      array, or anything else (missing, null, a number, an object). */
  datatype SubCategoriesIn = SubText(text: string) | SubArray(items: seq<string>) | SubOther

  /** The normalisation: a non-empty string is parsed (`parse` stands for
      `JSON.parse`; None is a parse error), an array is kept, and
      everything else, the empty string included, becomes []. */
  function NormalizeSubCategories(s: SubCategoriesIn, parse: string -> Option<seq<string>>): (r: Option<seq<string>>)
    ensures s.SubArray? ==> r == Some(s.items)
    ensures s.SubOther? ==> r == Some([])
    ensures s.SubText? && s.text == "" ==> r == Some([])
    ensures s.SubText? && s.text != "" ==> r == parse(s.text)
  {
    match s
    case SubText(t) => if t != "" then parse(t) else Some([])
    case SubArray(items) => Some(items)
    case SubOther => Some([])
  }

  /** The body of `createCourse`. The empty string stands for a missing
      title, description or category; None for a missing level or
      status. */
  datatype CourseInput = CourseInput(
    title: string,
    description: string,
    category: string,
    duration: Option<int>,
    price: Option<int>,
    subCategories: SubCategoriesIn,
    level: Option<string>,
    status: Option<string>)

  datatype CourseOutcome =
    | CourseCreated(course: Course)   // 201
    | MissingTitleOrDescription       // 400
    | CourseServerError               // 500: a parse error or a document the schema refuses

  /** What the course schema admits of a new document: title and
      category are stored trimmed and non-empty, the description is
      non-empty. */
  predicate ValidNewCourse(c: Course) {
    && c.title != "" && Trimmed(c.title)
    && c.category != "" && Trimmed(c.category)
    && c.description != ""
  }

  /** Whether `Course.create` accepts the body once the 400 check has
      passed: `trim` runs before `required`, so a blank title or category
      is refused, and a level or status outside its enum is refused. */
  predicate CourseSchemaAccepts(i: CourseInput) {
    && Trim(i.title) != "" && Trim(i.category) != ""
    && ParseLevel(i.level).Some? && ParseStatus(i.status).Some?
  }

  /** `createCourse`: 400 without title or description (tested before
      trimming); otherwise the course is created with normalised
      subCategories, the trimmed title and category and the schema's
      defaults, unless the parse fails or the schema refuses it. */
  function CreateCourse(courses: seq<Course>, i: CourseInput, newId: nat, parse: string -> Option<seq<string>>)
    : (res: (CourseOutcome, seq<Course>))
    ensures res.0 == MissingTitleOrDescription <==> i.title == "" || i.description == ""
    ensures !res.0.CourseCreated? ==> res.1 == courses
    ensures res.0.CourseCreated? <==>
      && i.title != "" && i.description != ""
      && NormalizeSubCategories(i.subCategories, parse).Some?
      && CourseSchemaAccepts(i) && FindCourse(courses, newId).None?
    ensures res.0.CourseCreated? ==>
      && res.1 == courses + [res.0.course]
      && ValidNewCourse(res.0.course)
      && res.0.course.id == newId && res.0.course.title == Trim(i.title)
      && res.0.course.description == i.description && res.0.course.category == Trim(i.category)
      && Some(res.0.course.subCategories) == NormalizeSubCategories(i.subCategories, parse)
      && Some(res.0.course.level) == ParseLevel(i.level)
      && Some(res.0.course.status) == ParseStatus(i.status)
      && res.0.course.price == i.price.GetOr(0) && res.0.course.totalLectures == 0
      && res.0.course.studentsEnrolled == []
  {
    if i.title == "" || i.description == "" then (MissingTitleOrDescription, courses)
    else match NormalizeSubCategories(i.subCategories, parse)
      case None => (CourseServerError, courses)
      case Some(subs) =>
        if !CourseSchemaAccepts(i) || FindCourse(courses, newId).Some? then (CourseServerError, courses)
        else
          var c := Course(newId, Trim(i.title), i.description, Trim(i.category), i.duration.GetOr(0),
                          i.price.GetOr(0), 0, [], subs,
                          ParseLevel(i.level).value, ParseStatus(i.status).value);
          (CourseCreated(c), courses + [c])
  }

  /** A title made only of white space gets past the 400 check and is
      refused by the schema once trimmed: a 500. */
  lemma BlankTitleIsServerError(courses: seq<Course>, i: CourseInput, newId: nat, parse: string -> Option<seq<string>>)
    requires |i.title| > 0 && (forall k :: 0 <= k < |i.title| ==> IsJsSpace(i.title[k]))
    requires i.description != ""
    ensures CreateCourse(courses, i, newId, parse).0 == CourseServerError
  {
    assert Trim(i.title) == "" by { TrimEmptyIffBlank(i.title); }
  }

  /** A created course reads back: with ids unique before the create
      they stay unique, and looking the new id up gives the course
      exactly as created; every earlier course is untouched. */
  lemma CreateCourseThenFind(courses: seq<Course>, i: CourseInput, newId: nat, parse: string -> Option<seq<string>>)
    requires forall j, k :: 0 <= j < k < |courses| ==> courses[j].id != courses[k].id
    requires CreateCourse(courses, i, newId, parse).0.CourseCreated?
    ensures var res := CreateCourse(courses, i, newId, parse);
      && FindCourse(res.1, newId) == Some(res.0.course)
      && (forall j, k :: 0 <= j < k < |res.1| ==> res.1[j].id != res.1[k].id)
      && res.1[..|courses|] == courses
  {
    var res := CreateCourse(courses, i, newId, parse);
    FindCourseAppended(courses, res.0.course);
  }

  /** Looking up the id of a course appended behind courses that do not
      carry it finds the appended course. */
  lemma {:induction false} FindCourseAppended(courses: seq<Course>, c: Course)
    requires FindCourse(courses, c.id).None?
    ensures FindCourse(courses + [c], c.id) == Some(c)
    decreases |courses|
  {
    if |courses| > 0 {
      assert (courses + [c])[1..] == courses[1..] + [c];
      FindCourseAppended(courses[1..], c);
    }
  }

  // ------------------------------------------------------------------
  // enrollStudent
  // ------------------------------------------------------------------

  datatype EnrollStudentOutcome =
    | StudentAdded                // 200
    | CourseMissing               // 404
    | StudentAlreadyEnrolled      // 400
    | EnrollStudentServerError    // 500: a route id that is not an ObjectId fails to cast

  /** `enrollStudent`: 500 when the course id of the route is not an
      ObjectId, 404 for an unknown course, 400 when the student is already
      listed, otherwise the student is appended. The student id comes from
      the authenticated user and is always well-formed; route parameters
      are never absent. */
  function EnrollStudent(courses: seq<Course>, courseId: RawId, studentId: nat)
    : (res: (EnrollStudentOutcome, seq<Course>))
    requires courseId != Absent
    ensures res.0 == EnrollStudentServerError <==> courseId.Malformed?
    ensures res.0 == CourseMissing <==> courseId.Oid? && FindCourse(courses, courseId.id).None?
    ensures res.0 != StudentAdded ==> res.1 == courses
    ensures res.0 == StudentAlreadyEnrolled <==>
      && courseId.Oid? && FindCourse(courses, courseId.id).Some?
      && studentId in FindCourse(courses, courseId.id).value.studentsEnrolled
    ensures res.0 == StudentAdded ==>
      && courseId.Oid?
      && var before := FindCourse(courses, courseId.id).value;
      && var after := before.(studentsEnrolled := before.studentsEnrolled + [studentId]);
      && res.1 == ReplaceCourse(courses, after)
      && studentId in after.studentsEnrolled
      && |after.studentsEnrolled| == |before.studentsEnrolled| + 1
      && (NoDuplicates(before.studentsEnrolled) ==> NoDuplicates(after.studentsEnrolled))
  {
    if courseId.Malformed? then (EnrollStudentServerError, courses)
    else match FindCourse(courses, courseId.id)
      case None => (CourseMissing, courses)
      case Some(c) =>
        if studentId in c.studentsEnrolled then (StudentAlreadyEnrolled, courses)
        else (StudentAdded, ReplaceCourse(courses, c.(studentsEnrolled := c.studentsEnrolled + [studentId])))
  }

  /** Enrolling the same student twice leaves the list as after the first
      call: the second call is a 400 and changes nothing. */
  lemma EnrollStudentTwice(courses: seq<Course>, courseId: RawId, studentId: nat)
    requires forall j, k :: 0 <= j < k < |courses| ==> courses[j].id != courses[k].id
    requires courseId != Absent && EnrollStudent(courses, courseId, studentId).0 == StudentAdded
    ensures var once := EnrollStudent(courses, courseId, studentId).1;
      EnrollStudent(once, courseId, studentId) == (StudentAlreadyEnrolled, once)
  {
    var c := FindCourse(courses, courseId.id).value;
    var after := c.(studentsEnrolled := c.studentsEnrolled + [studentId]);
    var once := EnrollStudent(courses, courseId, studentId).1;
    var k :| 0 <= k < |courses| && courses[k] == c;
    FindAfterReplace(courses, after, k);
  }

  /** With unique ids, looking up a course after replacing it yields the
      replacement. */
  lemma {:induction false} FindAfterReplace(courses: seq<Course>, c: Course, k: nat)
    requires forall j, m :: 0 <= j < m < |courses| ==> courses[j].id != courses[m].id
    requires k < |courses| && courses[k].id == c.id
    ensures FindCourse(ReplaceCourse(courses, c), c.id) == Some(c)
    decreases |courses|
  {
    var r := ReplaceCourse(courses, c);
    if k > 0 {
      assert r[1..] == ReplaceCourse(courses[1..], c);
      assert courses[0].id != c.id;
      FindAfterReplace(courses[1..], c, k - 1);
    }
  }
}

=== FILE: enrollment_handlers.dfy ===
/** The enrollment handlers: `enrollCourse`, `getEnrolledCourses` and
    `removeEnrollment` of `controllers/enrollmentController.js`, and the
    admin grant of `controllers/adminEnrollment.controller.js` (as
    written, and with the schema enum admitting the method it writes). */
module EnrollmentHandlers {
  import opened Common
  import opened Courses
  import opened Enrollments
  import opened PaymentRecords
  import opened Users
  import opened Store
  import opened Payments

  // ------------------------------------------------------------------
  // enrollCourse
  // ------------------------------------------------------------------

  datatype EnrollOutcome =
    | BadIds                          // 400
    | AlreadyEnrolled                 // 400
    | NoSuchCourse                    // 404
    | Enrolled(enrollment: Enrollment) // 201
    | EnrollFailed                    // 500

  /** The end date the handler passes to `create`: the course duration
      in days from now, or null when the duration is 0. */
  function RequestedEnd(c: Course, now: int): Option<int> {
    if c.duration != 0 then Some(now + c.duration * DayMs) else None
  }

  /** `enrollCourse`: 400 on a malformed id, 400 when any enrollment of
      the pair exists (soft-deleted ones included), 404 for an unknown
      course, otherwise a new unpaid enrollment and the course added to
      the user's list. The hook replaces a null end date with 365 days
      from now. */
  function EnrollCourse(db: Db, student: RawId, course: RawId, newId: nat, now: int): (res: (EnrollOutcome, Db))
    ensures res.0 == BadIds <==> !student.IsValid() || !course.IsValid()
    ensures res.0 == AlreadyEnrolled <==>
      (student.Oid? && course.Oid? &&
       exists e :: e in db.enrollments && e.student == student.id && e.course == course.id)
    ensures !res.0.Enrolled? ==> res.1 == db
    ensures res.0 == EnrollFailed ==> exists e :: e in db.enrollments && e.id == newId
    ensures res.0.Enrolled? ==>
      && student.Oid? && course.Oid? && FindCourse(db.courses, course.id).Some?
      && var e := res.0.enrollment;
      && e.id == newId && e.student == student.id && e.course == course.id
      && !e.isPaid && e.enrollmentStatus == PendingPayment && e.paymentStatus == Pending
      && e.endDate == Some(EnrollEnd(FindCourse(db.courses, course.id).value, now))
      && res.1 == db.(enrollments := db.enrollments + [e], users := AddCourse(db.users, student.id, course.id))
  {
    if !student.IsValid() || !course.IsValid() then (BadIds, db)
    else if FindPair(db.enrollments, student.id, course.id).Some? then (AlreadyEnrolled, db)
    else match FindCourse(db.courses, course.id)
      case None => (NoSuchCourse, db)
      case Some(c) =>
        var draft := NewEnrollment(newId, student.id, course.id, now).(endDate := RequestedEnd(c, now));
        EnrollDraftSaves(db.enrollments, c, student.id, course.id, newId, now);
        match SaveEnrollment(db.enrollments, None, draft, now, PaymentMethods)
        case None => (EnrollFailed, db)
        case Some((saved, es)) => (Enrolled(saved), db.(enrollments := es, users := AddCourse(db.users, student.id, course.id)))
  }

  /** The document `enrollCourse` creates passes validation, so for a new
      pair only an id clash refuses it; the hook gives it the course's
      duration, or 365 days, from now as its end date. */
  lemma EnrollDraftSaves(es: seq<Enrollment>, c: Course, student: nat, course: nat, newId: nat, now: int)
    requires FindPair(es, student, course).None?
    ensures var draft := NewEnrollment(newId, student, course, now).(endDate := RequestedEnd(c, now));
      var r := SaveEnrollment(es, None, draft, now, PaymentMethods);
      && (r.Some? <==> forall o :: o in es ==> o.id != newId)
      && (r.Some? ==> r.value.0 == draft.(endDate := Some(EnrollEnd(c, now))))
  {
  }

  /** The end date an enrollment created by `enrollCourse` carries: the
      course's duration in days from now, or 365 days when the duration
      is 0. */
  function EnrollEnd(c: Course, now: int): int {
    now + (if c.duration != 0 then c.duration else 365) * DayMs
  }

  /** Enrolling keeps the unique indexes and the backing of paid
      enrollments. */
  lemma EnrollCourseKeepsInvariants(db: Db, student: RawId, course: RawId, newId: nat, now: int)
    requires Indexed(db.enrollments) && PaidIsBacked(db)
    ensures Indexed(EnrollCourse(db, student, course, newId, now).1.enrollments)
    ensures PaidIsBacked(EnrollCourse(db, student, course, newId, now).1)
  {
    var res := EnrollCourse(db, student, course, newId, now);
    if res.0.Enrolled? {
      var c := FindCourse(db.courses, course.id).value;
      var draft := NewEnrollment(newId, student.id, course.id, now).(endDate := RequestedEnd(c, now));
      SaveKeepsIndexed(db.enrollments, None, draft, now, PaymentMethods);
    }
  }

  /** A second enrollment request for the same pair is refused and changes
      nothing. */
  lemma EnrollCourseTwice(db: Db, student: RawId, course: RawId, id1: nat, id2: nat, now: int, later: int)
    requires EnrollCourse(db, student, course, id1, now).0.Enrolled?
    ensures var db1 := EnrollCourse(db, student, course, id1, now).1;
      EnrollCourse(db1, student, course, id2, later) == (AlreadyEnrolled, db1)
  {
    var res := EnrollCourse(db, student, course, id1, now);
    assert res.0.enrollment in res.1.enrollments;
  }

  /** A soft-deleted enrollment locks the pair out: `enrollCourse` calls it
      a duplicate while `processPayment` asks to enroll first and
      `checkPaymentStatus` reports the student as not enrolled. */
  lemma SoftDeletedEnrollmentLocksPair(db: Db, rq: PayRequest, newId: nat, now: int, newPaymentId: nat)
    requires rq.courseId.Oid? && FindCourse(db.courses, rq.courseId.id).Some?
    requires exists e :: e in db.enrollments && e.student == rq.student && e.course == rq.courseId.id
    requires forall e :: e in db.enrollments && e.student == rq.student && e.course == rq.courseId.id ==> e.isDeleted
    ensures EnrollCourse(db, Oid(rq.student), rq.courseId, newId, now).0 == AlreadyEnrolled
    ensures ProcessPayment(db, rq, now, newPaymentId).0 == EnrollFirst
    ensures !CheckPaymentStatus(db, rq.student, rq.courseId).report.isEnrolled
  {
  }

  // ------------------------------------------------------------------
  // getEnrolledCourses
  // ------------------------------------------------------------------

  datatype EnrolledRow = EnrolledRow(id: nat, course: nat, enrolledAt: int, endDate: Option<int>)

  function RowOf(e: Enrollment): EnrolledRow {
    EnrolledRow(e.id, e.course, e.createdAt, e.endDate)
  }

  /** Every enrollment of one student, soft-deleted ones included, in
      store order. */
  function OfStudent(es: seq<Enrollment>, student: nat): (r: seq<Enrollment>)
    ensures forall e :: e in r <==> e in es && e.student == student
    ensures |r| <= |es|
  {
    if |es| == 0 then []
    else OfStudent(es[..|es| - 1], student) + (if es[|es| - 1].student == student then [es[|es| - 1]] else [])
  }

  /** `getEnrolledCourses`: 400 on a malformed id, otherwise one row per
      enrollment of the student. */
  function EnrolledCourses(es: seq<Enrollment>, student: RawId): (rows: Option<seq<EnrolledRow>>)
    ensures rows.None? <==> !student.IsValid()
    ensures rows.Some? ==> |rows.value| == |OfStudent(es, student.id)|
    ensures rows.Some? ==> forall e :: e in es && e.student == student.id ==> RowOf(e) in rows.value
    ensures rows.Some? ==> forall r :: r in rows.value ==>
      exists e :: e in es && e.student == student.id && RowOf(e) == r
  {
    if !student.IsValid() then None
    else
      var mine := OfStudent(es, student.id);
      var rows := seq(|mine|, k requires 0 <= k < |mine| => RowOf(mine[k]));
      assert forall e :: e in mine ==> RowOf(e) in rows by {
        forall e | e in mine ensures RowOf(e) in rows {
          var k :| 0 <= k < |mine| && mine[k] == e;
          assert rows[k] == RowOf(e);
        }
      }
      Some(rows)
  }

  /** A successful enrollment adds exactly one row, for the new
      enrollment, at the end of the student's list. */
  lemma EnrolledCoursesAfterEnroll(db: Db, student: nat, course: RawId, newId: nat, now: int)
    requires EnrollCourse(db, Oid(student), course, newId, now).0.Enrolled?
    ensures var res := EnrollCourse(db, Oid(student), course, newId, now);
      EnrolledCourses(res.1.enrollments, Oid(student)).value ==
        EnrolledCourses(db.enrollments, Oid(student)).value + [RowOf(res.0.enrollment)]
  {
    var res := EnrollCourse(db, Oid(student), course, newId, now);
    EnrolledCoursesAppend(db.enrollments, res.0.enrollment, student);
  }

  /** Storing one more enrollment of the student appends its row. */
  lemma EnrolledCoursesAppend(es: seq<Enrollment>, e: Enrollment, student: nat)
    requires e.student == student
    ensures EnrolledCourses(es + [e], Oid(student)).value == EnrolledCourses(es, Oid(student)).value + [RowOf(e)]
  {
    var es' := es + [e];
    assert es'[..|es'| - 1] == es;
    assert OfStudent(es', student) == OfStudent(es, student) + [e];
  }

  // ------------------------------------------------------------------
  // removeEnrollment
  // ------------------------------------------------------------------

  datatype RemoveOutcome = BadEnrollmentId | EnrollmentNotFound | Removed(enrollment: Enrollment)

  /** First enrollment with the given id (`Enrollment.findById`): the
      enrollment collection's copy of the per-model `findById` lookup that
      `Courses.FindCourse` and `Exams.FindExam` give for theirs. */
  function FindEnrollment(es: seq<Enrollment>, id: nat): (r: Option<Enrollment>)
    ensures r.Some? ==> r.value in es && r.value.id == id
    ensures r.None? ==> forall e :: e in es ==> e.id != id
  {
    if |es| == 0 then None
    else if es[0].id == id then Some(es[0])
    else FindEnrollment(es[1..], id)
  }

  function WithoutId(es: seq<Enrollment>, id: nat): (r: seq<Enrollment>)
    ensures forall e :: e in r <==> e in es && e.id != id
    ensures |r| <= |es|
  {
    if |es| == 0 then []
    else (if es[0].id == id then [] else [es[0]]) + WithoutId(es[1..], id)
  }

  /** `removeEnrollment`: 400 on a malformed id, 404 when no document has
      it, otherwise a hard delete and the course pulled from the
      student's list. */
  function RemoveEnrollment(db: Db, id: RawId): (res: (RemoveOutcome, Db))
    ensures res.0 == BadEnrollmentId <==> !id.IsValid()
    ensures res.0 == EnrollmentNotFound <==> id.Oid? && forall e :: e in db.enrollments ==> e.id != id.id
    ensures !res.0.Removed? ==> res.1 == db
    ensures res.0.Removed? ==>
      && id.Oid? && res.0.enrollment in db.enrollments && res.0.enrollment.id == id.id
      && (forall e :: e in res.1.enrollments <==> e in db.enrollments && e.id != id.id)
      && res.1 == db.(enrollments := res.1.enrollments,
                      users := RemoveCourse(db.users, res.0.enrollment.student, res.0.enrollment.course))
  {
    if !id.IsValid() then (BadEnrollmentId, db)
    else match FindEnrollment(db.enrollments, id.id)
      case None => (EnrollmentNotFound, db)
      case Some(e) =>
        (Removed(e), db.(enrollments := WithoutId(db.enrollments, id.id),
                         users := RemoveCourse(db.users, e.student, e.course)))
  }

  /** Removing an enrollment frees its pair: in an indexed collection the
      same student can enroll in the same course again. */
  lemma RemoveThenEnroll(db: Db, id: RawId, newId: nat, now: int)
    requires Indexed(db.enrollments)
    requires RemoveEnrollment(db, id).0.Removed?
    ensures var res := RemoveEnrollment(db, id);
      var e := res.0.enrollment;
      EnrollCourse(res.1, Oid(e.student), Oid(e.course), newId, now).0 != AlreadyEnrolled
  {
    var res := RemoveEnrollment(db, id);
    var e := res.0.enrollment;
    forall o | o in res.1.enrollments && o.student == e.student && o.course == e.course
      ensures false
    {
      UniquePair(db.enrollments, o, e);
    }
  }

  /** Removing keeps the unique indexes and the backing of the paid
      enrollments that remain. */
  lemma RemoveKeepsInvariants(db: Db, id: RawId)
    requires Indexed(db.enrollments) && PaidIsBacked(db)
    ensures PaidIsBacked(RemoveEnrollment(db, id).1)
    ensures Indexed(RemoveEnrollment(db, id).1.enrollments)
  {
    if id.Oid? {
      WithoutIdKeepsIndexed(db.enrollments, id.id);
    }
  }

  lemma {:induction false} WithoutIdKeepsIndexed(es: seq<Enrollment>, id: nat)
    requires Indexed(es)
    ensures Indexed(WithoutId(es, id))
    decreases |es|
  {
    if |es| > 0 {
      IndexedTail(es);
      WithoutIdKeepsIndexed(es[1..], id);
      var rest := WithoutId(es[1..], id);
      if es[0].id != id {
        forall o | o in rest
          ensures o.id != es[0].id
          ensures o.student != es[0].student || o.course != es[0].course
          ensures es[0].paymentId.Some? ==> o.paymentId != es[0].paymentId
        {
          var m :| 0 <= m < |es[1..]| && es[1..][m] == o;
          assert es[m + 1] == o;
        }
        IndexedCons(es[0], rest);
      }
    }
  }

  /** Dropping the first enrollment keeps the unique indexes. */
  lemma IndexedTail(es: seq<Enrollment>)
    requires Indexed(es) && |es| > 0
    ensures Indexed(es[1..])
  {
    forall j, k | 0 <= j < k < |es| - 1 ensures es[1..][j] == es[j + 1] && es[1..][k] == es[k + 1] {
    }
  }

  /** An enrollment that clashes with none of an indexed collection can be
      put in front of it. */
  lemma IndexedCons(x: Enrollment, rest: seq<Enrollment>)
    requires Indexed(rest)
    requires forall o :: o in rest ==>
      o.id != x.id && (o.student != x.student || o.course != x.course) &&
      (x.paymentId.Some? ==> o.paymentId != x.paymentId)
    ensures Indexed([x] + rest)
  {
    var r := [x] + rest;
    forall k | 0 < k < |r| ensures r[k] in rest {
      assert r[k] == rest[k - 1];
    }
    forall j, k | 0 < j < k < |r| ensures r[j] == rest[j - 1] && r[k] == rest[k - 1] {
    }
  }

  // ------------------------------------------------------------------
  // adminGrantCourse
  // ------------------------------------------------------------------

  datatype GrantOutcome =
    | GrantBadIds                      // 400
    | GrantCourseMissing               // 404
    | Granted(enrollment: Enrollment)  // 200
    | GrantFailed                      // 500

  /** The fields the grant writes on a new or existing enrollment. */
  function GrantFields(e: Enrollment, now: int): Enrollment {
    e.(isPaid := true, enrollmentStatus := Active, paymentDate := Some(now), paymentMethod := AdminGranted)
  }

  /** What a successful grant writes: an existing enrollment of the pair
      (soft-deleted ones included) is updated in place, keeping its id
      and, apart from what the hook derives, every field the grant does
      not set; without one, a new enrollment with the fresh id is
      appended. */
  predicate GrantWrites(es: seq<Enrollment>, student: nat, course: nat, newId: nat, now: int,
                        e: Enrollment, es': seq<Enrollment>) {
    match FindPair(es, student, course)
    case Some(prior) =>
      && e.id == prior.id
      && e == PreSave(Some(prior), GrantFields(prior, now), now)
      && es' == ReplaceById(es, e)
    case None =>
      && e.id == newId
      && e == PreSave(None, GrantFields(NewEnrollment(newId, student, course, now), now), now)
      && es' == es + [e]
  }

  /** The grant, with the enrollment schema's enum as a parameter: create
      or update the pair's enrollment as paid, active and admin-granted,
      then add the course to the user's list. */
  function Grant(db: Db, student: RawId, course: RawId, newId: nat, now: int, methods: set<string>)
    : (res: (GrantOutcome, Db))
    ensures res.0 == GrantBadIds <==> !student.IsValid() || !course.IsValid()
    ensures res.0 == GrantCourseMissing <==>
      student.Oid? && course.Oid? && FindCourse(db.courses, course.id).None?
    ensures !res.0.Granted? ==> res.1 == db
    ensures res.0.Granted? ==>
      && student.Oid? && course.Oid?
      && var e := res.0.enrollment;
      && e.student == student.id && e.course == course.id
      && e.isPaid && e.enrollmentStatus == Active && e.paymentMethod == AdminGranted
      && e.paymentDate == Some(now) && e in res.1.enrollments
      && res.1.payments == db.payments && res.1.courses == db.courses
      && res.1.users == AddCourse(db.users, student.id, course.id)
      && GrantWrites(db.enrollments, student.id, course.id, newId, now, e, res.1.enrollments)
      && (FindPair(db.enrollments, student.id, course.id).None? ==>
            e.id == newId && CanAccess(e, now) && e.paymentStatus == Completed)
  {
    if !student.IsValid() || !course.IsValid() then (GrantBadIds, db)
    else match FindCourse(db.courses, course.id)
      case None => (GrantCourseMissing, db)
      case Some(_) =>
        var existing := FindPair(db.enrollments, student.id, course.id);
        var saved := if existing.None?
          then SaveEnrollment(db.enrollments, None, GrantFields(NewEnrollment(newId, student.id, course.id, now), now), now, methods)
          else SaveEnrollment(db.enrollments, existing, GrantFields(existing.value, now), now, methods);
        match saved
        case None => (GrantFailed, db)
        case Some((e, es)) => (Granted(e), db.(enrollments := es, users := AddCourse(db.users, student.id, course.id)))
  }

  /** When the grant's save succeeds: the enum admits the method, the
      collection is indexed, the new id is free, and a stored enrollment
      of the pair meets the schema. */
  lemma GrantFailsOnlyFor(db: Db, student: nat, course: nat, newId: nat, now: int, methods: set<string>)
    requires AdminGranted in methods && Indexed(db.enrollments)
    requires forall e :: e in db.enrollments ==> e.id != newId
    requires FindPair(db.enrollments, student, course).Some? ==>
      ValidEnrollment(FindPair(db.enrollments, student, course).value, SchemaPaymentMethods)
    ensures var existing := FindPair(db.enrollments, student, course);
      existing.None? ==>
        SaveEnrollment(db.enrollments, None, GrantFields(NewEnrollment(newId, student, course, now), now), now, methods).Some?
    ensures var existing := FindPair(db.enrollments, student, course);
      existing.Some? ==>
        SaveEnrollment(db.enrollments, existing, GrantFields(existing.value, now), now, methods).Some?
  {
    var existing := FindPair(db.enrollments, student, course);
    if existing.Some? {
      var e := existing.value;
      var d := PreSave(existing, GrantFields(e, now), now);
      forall o | o in db.enrollments && o.id != d.id
        ensures o.student != d.student || o.course != d.course
        ensures d.paymentId.Some? ==> o.paymentId != d.paymentId
      {
        var j :| 0 <= j < |db.enrollments| && db.enrollments[j] == o;
        var k :| 0 <= k < |db.enrollments| && db.enrollments[k] == e;
        assert j != k;
      }
    }
  }

  /** `adminGrantCourse` as written: the enrollment schema's enum has no
      "admin-granted", so every save the grant attempts is rejected and
      past the 400 and 404 checks the handler always answers 500,
      changing nothing. */
  function AdminGrantAsWritten(db: Db, student: RawId, course: RawId, newId: nat, now: int): (res: (GrantOutcome, Db))
    ensures !res.0.Granted?
    ensures res.1 == db
    ensures res.0 == GrantFailed <==> student.Oid? && course.Oid? && FindCourse(db.courses, course.id).Some?
  {
    AdminGrantedOutsideSchema();
    Grant(db, student, course, newId, now, SchemaPaymentMethods)
  }

  /** `adminGrantCourse` with "admin-granted" in the enum: in an indexed
      collection with a fresh id it always grants, and a new grant gives
      access at once. */
  function AdminGrant(db: Db, student: RawId, course: RawId, newId: nat, now: int): (res: (GrantOutcome, Db))
    ensures student.Oid? && course.Oid? && FindCourse(db.courses, course.id).Some? &&
      Indexed(db.enrollments) && (forall e :: e in db.enrollments ==> e.id != newId) &&
      (FindPair(db.enrollments, student.id, course.id).Some? ==>
         ValidEnrollment(FindPair(db.enrollments, student.id, course.id).value, SchemaPaymentMethods))
      ==> res.0.Granted?
    ensures res.0.Granted? ==> res.0.enrollment.isPaid && res.0.enrollment.paymentMethod == AdminGranted
    ensures res.0.Granted? ==>
      && student.Oid? && course.Oid?
      && res.1 == db.(enrollments := res.1.enrollments, users := AddCourse(db.users, student.id, course.id))
      && GrantWrites(db.enrollments, student.id, course.id, newId, now, res.0.enrollment, res.1.enrollments)
    ensures res.0.Granted? && student.Oid? && course.Oid? && FindPair(db.enrollments, student.id, course.id).None? ==>
      CanAccess(res.0.enrollment, now)
    ensures !res.0.Granted? ==> res.1 == db
  {
    if student.Oid? && course.Oid? && Indexed(db.enrollments) && (forall e :: e in db.enrollments ==> e.id != newId) &&
       (FindPair(db.enrollments, student.id, course.id).Some? ==>
          ValidEnrollment(FindPair(db.enrollments, student.id, course.id).value, SchemaPaymentMethods))
    then
      AdminGrantedOutsideSchema();
      GrantFailsOnlyFor(db, student.id, course.id, newId, now, PaymentMethods);
      Grant(db, student, course, newId, now, PaymentMethods)
    else Grant(db, student, course, newId, now, PaymentMethods)
  }

  /** The corrected grant keeps the unique indexes and the backing of
      paid enrollments: the granted one is backed by its method. */
  lemma AdminGrantKeepsInvariants(db: Db, student: RawId, course: RawId, newId: nat, now: int)
    requires Indexed(db.enrollments) && PaidIsBacked(db)
    ensures Indexed(AdminGrant(db, student, course, newId, now).1.enrollments)
    ensures PaidIsBacked(AdminGrant(db, student, course, newId, now).1)
  {
    var res := AdminGrant(db, student, course, newId, now);
    if res.0.Granted? {
      var existing := FindPair(db.enrollments, student.id, course.id);
      var users' := AddCourse(db.users, student.id, course.id);
      if existing.None? {
        GrantSaveKeepsInvariants(db, None, GrantFields(NewEnrollment(newId, student.id, course.id, now), now), now, users');
      } else {
        GrantSaveKeepsInvariants(db, existing, GrantFields(existing.value, now), now, users');
      }
    }
  }

  /** Saving an admin-granted document keeps the unique indexes and the
      backing of paid enrollments, whatever happens to the users. */
  lemma GrantSaveKeepsInvariants(db: Db, prev: Option<Enrollment>, d: Enrollment, now: int, users': seq<User>)
    requires Indexed(db.enrollments) && PaidIsBacked(db)
    requires d.paymentMethod == AdminGranted
    requires SaveEnrollment(db.enrollments, prev, d, now, PaymentMethods).Some?
    ensures var db' := db.(enrollments := SaveEnrollment(db.enrollments, prev, d, now, PaymentMethods).value.1, users := users');
      Indexed(db'.enrollments) && PaidIsBacked(db')
  {
    var (saved, es') := SaveEnrollment(db.enrollments, prev, d, now, PaymentMethods).value;
    var db' := db.(enrollments := es', users := users');
    SaveKeepsIndexed(db.enrollments, prev, d, now, PaymentMethods);
    forall o | o in es' && o.isPaid ensures Backed(db', o) {
      if o != saved {
        BackedGrows(db, db', o);
      }
    }
  }
}

=== FILE: enrollments.dfy ===
/** The enrollment document of `models/Enrollment.js`: its fields and
    defaults, the pre-save hook that derives the end date and the paid
    state, the schema validation that runs on every save, the unique
    indexes of the collection, the three virtuals (isExpired,
    daysRemaining, canAccess) and the three instance methods. */
module Enrollments {
  import opened Common

  datatype PayState = Pending | Completed | Failed | Refunded
  datatype EnrollmentStatus = Active | Expired | Cancelled | PendingPayment

  datatype Enrollment = Enrollment(
    id: nat,
    student: nat,
    course: nat,
    isPaid: bool,
    paymentDate: Option<int>,
    paymentMethod: string,
    paymentId: Option<string>,
    paymentStatus: PayState,
    enrollmentStatus: EnrollmentStatus,
    enrolledAt: int,
    endDate: Option<int>,
    duration: int,                // days
    isActive: bool,
    isDeleted: bool,
    progressPercentage: int,
    completedLectures: seq<nat>,
    refundRequested: bool,
    refundReason: Option<string>,
    createdAt: int)

  /** The payment methods the schema's enum admits. */
  const SchemaPaymentMethods: set<string> := {"card", "upi", "netbanking", "cash", "wallet", "free"}

  /** The method the admin grant writes. */
  const AdminGranted: string := "admin-granted"

  /** The enum with the admin grant's method added: what the grant handler
      evidently relies on (see the Findings in the README). */
  const PaymentMethods: set<string> := SchemaPaymentMethods + {AdminGranted}

  /** The schema's enum does not list the admin grant's method. */
  lemma AdminGrantedOutsideSchema()
    ensures AdminGranted !in SchemaPaymentMethods && AdminGranted in PaymentMethods
  {
    assert AdminGranted[0] == 'a';
    assert forall m :: m in SchemaPaymentMethods ==> m[0] != 'a';
  }

  /** A new document with the schema's defaults. */
  function NewEnrollment(id: nat, student: nat, course: nat, now: int): (e: Enrollment)
    ensures !e.isPaid && e.paymentMethod == "free" && e.paymentStatus == Pending
    ensures e.enrollmentStatus == PendingPayment && e.duration == 365
    ensures e.isActive && !e.isDeleted && e.progressPercentage == 0 && e.completedLectures == []
    ensures e.enrolledAt == now && e.createdAt == now && e.endDate.None?
  {
    Enrollment(id, student, course, false, None, "free", None, Pending, PendingPayment,
               now, None, 365, true, false, 0, [], false, None, now)
  }

  // ------------------------------------------------------------------
  // The pre-save hook
  // ------------------------------------------------------------------

  /** Whether the hook recomputes the end date: the duration was changed
      since the document was loaded, or there is no end date and the
      duration is not 0. On a new document the defaulted duration counts
      as unmodified. */
  predicate RecomputesEnd(prev: Option<Enrollment>, e: Enrollment) {
    (prev.Some? && prev.value.duration != e.duration) || (e.endDate.None? && e.duration != 0)
  }

  /** Whether isPaid is modified to true by this save. */
  predicate BecomesPaid(prev: Option<Enrollment>, e: Enrollment) {
    e.isPaid && (prev.None? || !prev.value.isPaid)
  }

  /** The hook: `prev` is the document as loaded (None for a new one), `e`
      the document being saved, `now` the clock. */
  function PreSave(prev: Option<Enrollment>, e: Enrollment, now: int): (r: Enrollment)
    ensures RecomputesEnd(prev, e) ==> r.endDate == Some(e.enrolledAt + e.duration * DayMs)
    ensures !RecomputesEnd(prev, e) ==> r.endDate == e.endDate
    ensures BecomesPaid(prev, e) ==>
      r.enrollmentStatus == Active && r.paymentStatus == Completed && r.paymentDate == Some(now)
    ensures !BecomesPaid(prev, e) ==>
      r.enrollmentStatus == e.enrollmentStatus && r.paymentStatus == e.paymentStatus && r.paymentDate == e.paymentDate
    ensures r == e.(endDate := r.endDate, enrollmentStatus := r.enrollmentStatus,
                    paymentStatus := r.paymentStatus, paymentDate := r.paymentDate)
  {
    var withEnd := if RecomputesEnd(prev, e) then e.(endDate := Some(e.enrolledAt + e.duration * DayMs)) else e;
    if BecomesPaid(prev, e) then withEnd.(enrollmentStatus := Active, paymentStatus := Completed, paymentDate := Some(now))
    else withEnd
  }

  /** Saving a stored document again without changes is a no-op for the
      hook, whatever the clock says: the hook is idempotent. */
  lemma PreSaveIdempotent(prev: Option<Enrollment>, e: Enrollment, now: int, later: int)
    ensures var r := PreSave(prev, e, now); PreSave(Some(r), r, later) == r
  {
  }

  // ------------------------------------------------------------------
  // Validation and the collection's unique indexes
  // ------------------------------------------------------------------

  /** The schema validators that can fail on the documents the handlers
      write: the paymentMethod enum (against `methods`) and the 0..100
      bounds of progressPercentage. */
  predicate ValidEnrollment(e: Enrollment, methods: set<string>) {
    e.paymentMethod in methods && 0 <= e.progressPercentage <= 100
  }

  /** The unique indexes: _id, (student, course), and the sparse paymentId. */
  predicate Indexed(es: seq<Enrollment>) {
    && (forall j, k :: 0 <= j < k < |es| ==> es[j].id != es[k].id)
    && (forall j, k :: 0 <= j < k < |es| ==> es[j].student != es[k].student || es[j].course != es[k].course)
    && (forall j, k :: 0 <= j < k < |es| && es[j].paymentId.Some? ==> es[j].paymentId != es[k].paymentId)
  }

  /** Whether writing `d` (inserted when `isNew`, else replacing the
      stored document with its id) keeps every unique index. */
  predicate Admissible(es: seq<Enrollment>, d: Enrollment, isNew: bool) {
    && (isNew ==> forall o :: o in es ==> o.id != d.id)
    && (!isNew ==> exists o :: o in es && o.id == d.id)
    && (forall o :: o in es && o.id != d.id ==>
          (o.student != d.student || o.course != d.course) &&
          (d.paymentId.Some? ==> o.paymentId != d.paymentId))
  }

  /** Replace the enrollment whose id matches (`enrollment.save()` on a
      loaded document): the enrollment collection's copy of the per-model
      save that `Courses.ReplaceCourse` and `Exams.ReplaceExam` give for
      theirs. */
  function ReplaceById(es: seq<Enrollment>, d: Enrollment): (r: seq<Enrollment>)
    ensures |r| == |es|
    ensures forall k :: 0 <= k < |es| ==> r[k] == (if es[k].id == d.id then d else es[k])
  {
    seq(|es|, k requires 0 <= k < |es| => if es[k].id == d.id then d else es[k])
  }

  /** `doc.save()` / `Model.create(doc)`: run the hook, then the
      validators and the unique indexes. None is the thrown error. */
  function SaveEnrollment(es: seq<Enrollment>, prev: Option<Enrollment>, e: Enrollment, now: int, methods: set<string>)
    : (r: Option<(Enrollment, seq<Enrollment>)>)
    ensures r.Some? <==> ValidEnrollment(PreSave(prev, e, now), methods) && Admissible(es, PreSave(prev, e, now), prev.None?)
    ensures r.Some? ==> r.value.0 == PreSave(prev, e, now) && r.value.0 in r.value.1
    ensures r.Some? && prev.None? ==> r.value.1 == es + [r.value.0]
    ensures r.Some? && prev.Some? ==> |r.value.1| == |es| && r.value.1 == ReplaceById(es, r.value.0)
    ensures r.Some? ==> forall o :: o in r.value.1 ==> o == r.value.0 || o in es
    ensures r.Some? ==> forall o :: o in es && o.id != e.id ==> o in r.value.1
  {
    var d := PreSave(prev, e, now);
    if !ValidEnrollment(d, methods) || !Admissible(es, d, prev.None?) then None
    else if prev.None? then Some((d, es + [d]))
    else
      var r := ReplaceById(es, d);
      var k :| 0 <= k < |es| && es[k].id == d.id;
      assert r[k] == d;
      assert forall o :: o in es && o.id != d.id ==> o in r by {
        forall o | o in es && o.id != d.id ensures o in r {
          var m :| 0 <= m < |es| && es[m] == o;
          assert r[m] == o;
        }
      }
      Some((d, r))
  }

  /** A successful save keeps every unique index of the collection. */
  lemma SaveKeepsIndexed(es: seq<Enrollment>, prev: Option<Enrollment>, e: Enrollment, now: int, methods: set<string>)
    requires Indexed(es)
    requires SaveEnrollment(es, prev, e, now, methods).Some?
    ensures Indexed(SaveEnrollment(es, prev, e, now, methods).value.1)
  {
    var d := PreSave(prev, e, now);
    if prev.None? {
      IndexedAppend(es, d);
    } else {
      assert SaveEnrollment(es, prev, e, now, methods).value.1 == ReplaceById(es, d);
      IndexedReplace(es, d);
    }
  }

  /** Inserting an admissible new document keeps the unique indexes. */
  lemma IndexedAppend(es: seq<Enrollment>, d: Enrollment)
    requires Indexed(es) && Admissible(es, d, true)
    ensures Indexed(es + [d])
  {
    var r := es + [d];
    forall j, k | 0 <= j < k < |r|
      ensures r[j].id != r[k].id
      ensures r[j].student != r[k].student || r[j].course != r[k].course
      ensures r[j].paymentId.Some? ==> r[j].paymentId != r[k].paymentId
    {
      assert r[j] == es[j] && es[j] in es;
    }
  }

  /** Replacing a stored document by an admissible one with its id keeps
      the unique indexes. */
  lemma IndexedReplace(es: seq<Enrollment>, d: Enrollment)
    requires Indexed(es) && Admissible(es, d, false)
    ensures Indexed(ReplaceById(es, d))
  {
    var r := ReplaceById(es, d);
    forall j, k | 0 <= j < k < |r|
      ensures r[j].id != r[k].id
      ensures r[j].student != r[k].student || r[j].course != r[k].course
      ensures r[j].paymentId.Some? ==> r[j].paymentId != r[k].paymentId
    {
      assert es[j] in es && es[k] in es;
    }
  }

  // ------------------------------------------------------------------
  // Lookups
  // ------------------------------------------------------------------

  /** `Enrollment.findOne({ student, course })`: any document of the pair. */
  function FindPair(es: seq<Enrollment>, student: nat, course: nat): (r: Option<Enrollment>)
    ensures r.Some? ==> r.value in es && r.value.student == student && r.value.course == course
    ensures r.None? ==> forall o :: o in es ==> o.student != student || o.course != course
  {
    if |es| == 0 then None
    else if es[0].student == student && es[0].course == course then Some(es[0])
    else FindPair(es[1..], student, course)
  }

  /** The same query with `isDeleted: { $ne: true }`. */
  function FindLive(es: seq<Enrollment>, student: nat, course: nat): (r: Option<Enrollment>)
    ensures r.Some? ==> r.value in es && r.value.student == student && r.value.course == course && !r.value.isDeleted
    ensures r.None? ==> forall o :: o in es && o.student == student && o.course == course ==> o.isDeleted
  {
    if |es| == 0 then None
    else if es[0].student == student && es[0].course == course && !es[0].isDeleted then Some(es[0])
    else FindLive(es[1..], student, course)
  }

  /** With the (student, course) index in place, the live lookup is the
      pair lookup minus a soft-deleted document. */
  lemma LiveIsPairWhenIndexed(es: seq<Enrollment>, student: nat, course: nat)
    requires Indexed(es)
    ensures FindLive(es, student, course) ==
      (if FindPair(es, student, course).Some? && !FindPair(es, student, course).value.isDeleted
       then FindPair(es, student, course) else None)
  {
    var p := FindPair(es, student, course);
    var l := FindLive(es, student, course);
    if p.Some? && l.Some? {
      var j :| 0 <= j < |es| && es[j] == p.value;
    }
  }

  /** Two documents of the same pair in an indexed collection are the same
      document. */
  lemma UniquePair(es: seq<Enrollment>, a: Enrollment, b: Enrollment)
    requires Indexed(es) && a in es && b in es
    requires a.student == b.student && a.course == b.course
    ensures a == b
  {
    var j :| 0 <= j < |es| && es[j] == a;
    var k :| 0 <= k < |es| && es[k] == b;
  }

  // ------------------------------------------------------------------
  // Virtuals
  // ------------------------------------------------------------------

  /** `isExpired`: there is an end date and it has passed. */
  predicate IsExpired(e: Enrollment, now: int) {
    e.endDate.Some? && now > e.endDate.value
  }

  /** `daysRemaining`: null without an end date, otherwise the whole days
      left, rounded up and never negative. */
  function DaysRemaining(e: Enrollment, now: int): (r: Option<int>)
    ensures e.endDate.None? <==> r.None?
    ensures r.Some? ==> r.value >= 0
    ensures r.Some? ==> (r.value > 0 <==> e.endDate.value > now)
    ensures r.Some? && r.value > 0 ==> (r.value - 1) * DayMs < e.endDate.value - now <= r.value * DayMs
  {
    if e.endDate.None? then None
    else
      var d := CeilDiv(e.endDate.value - now, DayMs);
      Some(if d > 0 then d else 0)
  }

  /** `canAccess`: active, not deleted, paid, status "active", and not
      past the end date. */
  predicate CanAccess(e: Enrollment, now: int) {
    e.isActive && !e.isDeleted && e.isPaid && e.enrollmentStatus == Active &&
    (e.endDate.None? || now <= e.endDate.value)
  }

  /** Access and the expiry virtuals agree: access implies not expired;
      on the end date itself access still holds while daysRemaining is
      already 0. */
  lemma AccessAndExpiry(e: Enrollment, now: int)
    ensures CanAccess(e, now) ==> !IsExpired(e, now)
    ensures e.isActive && !e.isDeleted && e.isPaid && e.enrollmentStatus == Active ==>
      (CanAccess(e, now) <==> !IsExpired(e, now))
    ensures e.endDate == Some(now) ==> DaysRemaining(e, now) == Some(0) && !IsExpired(e, now)
    ensures IsExpired(e, now) ==> DaysRemaining(e, now) == Some(0)
  {
  }

  // ------------------------------------------------------------------
  // Instance methods (each ends in `this.save()`)
  // ------------------------------------------------------------------

  /** `markAsCompleted`: progress 100, then save. */
  function MarkAsCompleted(es: seq<Enrollment>, e: Enrollment, now: int): (r: Option<(Enrollment, seq<Enrollment>)>)
    requires e in es
    ensures r.Some? ==> r.value.0.progressPercentage == 100 && r.value.0.id == e.id
    ensures r.Some? ==> r.value.0.isPaid == e.isPaid && r.value.0.enrollmentStatus == e.enrollmentStatus
    ensures Indexed(es) && e.paymentMethod in PaymentMethods ==> r.Some?
  {
    SaveEnrollment(es, Some(e), e.(progressPercentage := 100), now, PaymentMethods)
  }

  /** `addCompletedLecture`: append the lecture unless it is already
      listed, then save. */
  function AddCompletedLecture(es: seq<Enrollment>, e: Enrollment, lecture: nat, now: int)
    : (r: Option<(Enrollment, seq<Enrollment>)>)
    requires e in es
    ensures r.Some? ==> lecture in r.value.0.completedLectures
    ensures r.Some? ==> forall l :: l in e.completedLectures ==> l in r.value.0.completedLectures
    ensures r.Some? && lecture in e.completedLectures ==> r.value.0.completedLectures == e.completedLectures
    ensures r.Some? && NoDuplicates(e.completedLectures) ==> NoDuplicates(r.value.0.completedLectures)
    ensures Indexed(es) && ValidEnrollment(e, PaymentMethods) ==> r.Some?
  {
    SaveEnrollment(es, Some(e), e.(completedLectures := AddToSet(e.completedLectures, lecture)), now, PaymentMethods)
  }

  /** `requestRefund`: mark the refund, cancel, deactivate, then save.
      The document keeps isPaid. */
  function RequestRefund(es: seq<Enrollment>, e: Enrollment, reason: string, now: int)
    : (r: Option<(Enrollment, seq<Enrollment>)>)
    requires e in es
    ensures r.Some? ==> r.value.0.refundRequested && r.value.0.refundReason == Some(reason)
    ensures r.Some? ==> r.value.0.enrollmentStatus == Cancelled && !r.value.0.isActive
    ensures r.Some? ==> r.value.0.isPaid == e.isPaid
    ensures r.Some? ==> forall t :: !CanAccess(r.value.0, t)
    ensures Indexed(es) && ValidEnrollment(e, PaymentMethods) ==> r.Some?
  {
    SaveEnrollment(es, Some(e),
      e.(refundRequested := true, refundReason := Some(reason), enrollmentStatus := Cancelled, isActive := false),
      now, PaymentMethods)
  }

  /** Re-adding a completed lecture leaves the document's list as it was. */
  lemma AddCompletedLectureTwice(es: seq<Enrollment>, e: Enrollment, lecture: nat, now: int, later: int)
    requires e in es && AddCompletedLecture(es, e, lecture, now).Some?
    ensures var (e1, es1) := AddCompletedLecture(es, e, lecture, now).value;
      AddCompletedLecture(es1, e1, lecture, later).Some? ==>
        AddCompletedLecture(es1, e1, lecture, later).value.0.completedLectures == e1.completedLectures
  {
  }
}

=== FILE: exam_results.dfy ===
/** The admin results report (`getAllExamResults`): one row per stored
    attempt, newest first, with fallbacks for a deleted user or exam. Its
    pass/fail column uses the raw `passingMarks || 0`, not the effective
    passing marks of the attempt gate. */
module ExamResults {
  import opened Common
  import opened Exams
  import opened Attempts
  import opened Users

  /** The percentage column: 0 unless the total is positive, otherwise the ratio
      obtained * 100 / total (rounded to two places in the source). */
  datatype Percentage = ZeroPercent | Ratio(numerator: int, denominator: int)

  datatype ResultRow = ResultRow(
    studentName: string,
    studentEmail: string,
    examTitle: string,
    totalMarks: int,
    obtainedMarks: int,
    passingMarks: int,
    percentage: Percentage,
    pass: bool,
    attemptNumber: int,
    submittedAt: int)

  /** `s || fallback` on a string. */
  function OrText(s: string, fallback: string): string {
    if s != "" then s else fallback
  }

  /** One report row for one attempt. */
  function ResultFor(a: Attempt, users: seq<User>, exams: seq<Exam>): (row: ResultRow)
    ensures row.obtainedMarks == a.score
    ensures FindExam(exams, a.exam).None? ==> row.totalMarks == 0 && row.passingMarks == 0 && row.examTitle == "Deleted Exam"
    ensures FindExam(exams, a.exam).Some? ==>
      row.totalMarks == TotalOrZero(FindExam(exams, a.exam).value) &&
      row.passingMarks == OrDefault(FindExam(exams, a.exam).value.passingMarks, 0)
    ensures row.pass <==> row.obtainedMarks >= row.passingMarks
    ensures row.totalMarks <= 0 <==> row.percentage == ZeroPercent
    ensures row.percentage.Ratio? ==> row.percentage == Ratio(a.score * 100, row.totalMarks)
    ensures FindUser(users, a.userId).None? ==> row.studentName == "Unknown Student" && row.studentEmail == "No Email"
    ensures a.attemptNumber != 0 ==> row.attemptNumber == a.attemptNumber
    ensures a.attemptNumber == 0 ==> row.attemptNumber == 1
  {
    var user := FindUser(users, a.userId);
    var exam := FindExam(exams, a.exam);
    var total := if exam.Some? then TotalOrZero(exam.value) else 0;
    var passing := if exam.Some? then OrDefault(exam.value.passingMarks, 0) else 0;
    ResultRow(
      if user.Some? then OrText(user.value.fullName, "Unknown Student") else "Unknown Student",
      if user.Some? then OrText(user.value.email, "No Email") else "No Email",
      if exam.Some? then OrText(exam.value.title, "Deleted Exam") else "Deleted Exam",
      total, a.score, passing,
      if total > 0 then Ratio(a.score * 100, total) else ZeroPercent,
      a.score >= passing,
      if a.attemptNumber != 0 then a.attemptNumber else 1,
      a.createdAt)
  }

  /** The whole report: exactly one row per attempt, newest first. */
  function AllResults(store: seq<Attempt>, users: seq<User>, exams: seq<Exam>): (rows: seq<ResultRow>)
    ensures |rows| == |store|
  {
    var newest := Reversed(store);
    seq(|store|, k requires 0 <= k < |store| => ResultFor(newest[k], users, exams))
  }

  /** Row `k` of the report describes the `k`-th newest attempt. */
  lemma AllResultsNewestFirst(store: seq<Attempt>, users: seq<User>, exams: seq<Exam>, k: nat)
    requires k < |store|
    ensures AllResults(store, users, exams)[k] == ResultFor(store[|store| - 1 - k], users, exams)
  {
    ReversedAt(store, k);
  }

  /** For an attempt on a stored (valid) exam, the report's Pass agrees
      with the gate's rule score >= effective passing marks. */
  lemma ReportAgreesWithGateOnStoredExams(a: Attempt, users: seq<User>, exams: seq<Exam>)
    requires FindExam(exams, a.exam).Some? && ValidStoredExam(FindExam(exams, a.exam).value)
    ensures ResultFor(a, users, exams).pass <==> a.score >= EffectivePassingMarks(FindExam(exams, a.exam).value)
  {
    StoredExamPassingIsRaw(FindExam(exams, a.exam).value);
  }

  /** An attempt whose exam was deleted is reported as passed whenever its
      score is not negative. */
  lemma DeletedExamReportsPass(a: Attempt, users: seq<User>, exams: seq<Exam>)
    requires FindExam(exams, a.exam).None? && a.score >= 0
    ensures ResultFor(a, users, exams).pass
    ensures ResultFor(a, users, exams).examTitle == "Deleted Exam"
  {
  }

  /** On an exam document without passingMarks the two rules part ways:
      a score of 0 on a 10-mark exam is a Pass in the report, while the
      gate requires 5 and records a failure. */
  lemma ReportAndGateDisagreeWithoutPassingMarks(users: seq<User>)
    ensures var exam := Exam(1, "Quiz", Some(30), Some(10), None, Some(3));
      var a := Attempt(7, 1, [], 0, false, 1, 0, None);
      ResultFor(a, users, [exam]).pass &&
      EffectivePassingMarks(exam) == 5 &&
      !(a.score >= EffectivePassingMarks(exam))
  {
    var exam := Exam(1, "Quiz", Some(30), Some(10), None, Some(3));
    assert EffectivePassingMarks(exam) == CeilDiv(10, 2);
  }
}

=== FILE: exams.dfy ===
/** Exams and questions: the schema constraints of `models/Exam.js` and
    `models/Question.js`, the input checks of `createExam` / `updateExam`,
    the `maxAttempts || 3` default, and the effective-passing-marks rule
    that the attempt controller and the attempt pre-save hook share. */
module Exams {
  import opened Common

  /** An exam document. Numbers the source may leave missing are options;
      the empty string stands for a missing title. */
  datatype Exam = Exam(
    id: nat,
    title: string,
    duration: Option<int>,
    totalMarks: Option<int>,
    passingMarks: Option<int>,
    maxAttempts: Option<int>)

  /** `exam.totalMarks || 0` */
  function TotalOrZero(e: Exam): (t: int)
    ensures Truthy(e.totalMarks) ==> t == e.totalMarks.value
    ensures !Truthy(e.totalMarks) ==> t == 0
  {
    OrDefault(e.totalMarks, 0)
  }

  /** `exam.maxAttempts || 3`: the attempt ceiling every reader uses. */
  function MaxAttempts(e: Exam): (m: int)
    ensures m != 0
    ensures Truthy(e.maxAttempts) ==> m == e.maxAttempts.value
    ensures !Truthy(e.maxAttempts) ==> m == 3
  {
    OrDefault(e.maxAttempts, 3)
  }

  /** The effective passing marks: the set passingMarks capped at
      totalMarks (missing total counts as 0), or half of totalMarks
      rounded up when passingMarks is unset. */
  function EffectivePassingMarks(e: Exam): (p: int)
    ensures e.passingMarks.Some? ==>
      p <= e.passingMarks.value && p <= TotalOrZero(e) &&
      (p == e.passingMarks.value || p == TotalOrZero(e))
    ensures e.passingMarks.None? ==>
      2 * (p - 1) < TotalOrZero(e) <= 2 * p
  {
    if e.passingMarks.Some? then
      var t := TotalOrZero(e);
      if e.passingMarks.value <= t then e.passingMarks.value else t
    else
      CeilDiv(TotalOrZero(e), 2)
  }

  /** What the exam schema admits: title and duration required,
      0 <= totalMarks, 0 <= passingMarks <= (totalMarks || 0), and
      maxAttempts >= 1 (it defaults to 3, so it is always present). */
  predicate ValidStoredExam(e: Exam) {
    && e.title != ""
    && e.duration.Some?
    && e.totalMarks.Some? && e.totalMarks.value >= 0
    && e.passingMarks.Some? && 0 <= e.passingMarks.value <= TotalOrZero(e)
    && e.maxAttempts.Some? && e.maxAttempts.value >= 1
  }

  /** For a stored exam the effective passing marks are exactly the stored
      passingMarks: the cap never bites and the half-of-total branch is
      unreachable. */
  lemma StoredExamPassingIsRaw(e: Exam)
    requires ValidStoredExam(e)
    ensures EffectivePassingMarks(e) == e.passingMarks.value
    ensures 0 <= EffectivePassingMarks(e) <= e.totalMarks.value
    ensures MaxAttempts(e) == e.maxAttempts.value >= 1
  {
  }

  /** First exam with the given id (`Exam.findById`). */
  function FindExam(exams: seq<Exam>, id: nat): (r: Option<Exam>)
    ensures r.Some? ==> r.value in exams && r.value.id == id
    ensures r.None? ==> forall e :: e in exams ==> e.id != id
  {
    if |exams| == 0 then None
    else if exams[0].id == id then Some(exams[0])
    else FindExam(exams[1..], id)
  }

  // ------------------------------------------------------------------
  // createExam / updateExam / getExamById
  // ------------------------------------------------------------------

  /** A number in a request body that may be left out, sent as `null`,
      or given. The two are told apart only by `=== undefined`; in a
      comparison `null` counts as 0. */
  datatype BodyNumber = Missing | Null | Given(value: int)

  /** The number a body field compares as (`null` is 0). */
  function Compared(f: BodyNumber): int
    requires !f.Missing?
  {
    if f.Given? then f.value else 0
  }

  datatype ExamInput = ExamInput(
    title: string,
    duration: Option<int>,
    totalMarks: Option<int>,
    passingMarks: BodyNumber,
    maxAttempts: Option<int>)

  datatype ExamError =
    | MissingFields         // 400 "All fields are required"
    | PassingAboveTotal     // 400
    | NegativeMarks         // 400
    | InvalidMaxAttempts    // 400 (update only)
    | ExamNotFound          // 404
    | ValidationFailed      // 500: the schema rejected the document
    | CastFailed            // 500: the route id is not an ObjectId

  datatype ExamResult = Created(exam: Exam) | Rejected(error: ExamError)

  /** The fields createExam checks before it touches the store: title,
      duration and totalMarks must be truthy, passingMarks merely not
      `undefined` (a `null` gets through). */
  predicate CreateFieldsPresent(i: ExamInput) {
    i.title != "" && Truthy(i.duration) && Truthy(i.totalMarks) && !i.passingMarks.Missing?
  }

  /** `createExam`: required fields (a totalMarks or duration of 0 counts
      as missing), passingMarks <= totalMarks, no negative marks, then
      `Exam.create` with `maxAttempts || 3`, which the schema validates. */
  function CreateExam(i: ExamInput, id: nat): (r: ExamResult)
    ensures r == Rejected(MissingFields) <==> !CreateFieldsPresent(i)
    ensures r == Rejected(PassingAboveTotal) <==>
      CreateFieldsPresent(i) && Compared(i.passingMarks) > i.totalMarks.value
    ensures r == Rejected(NegativeMarks) <==>
      && CreateFieldsPresent(i) && Compared(i.passingMarks) <= i.totalMarks.value
      && (Compared(i.passingMarks) < 0 || i.totalMarks.value < 0)
    ensures r == Rejected(ValidationFailed) <==>
      && CreateFieldsPresent(i) && 0 <= Compared(i.passingMarks) <= i.totalMarks.value
      && !(i.passingMarks.Given? && (i.maxAttempts.None? || i.maxAttempts.value >= 0))
    ensures r.Created? ==>
      && ValidStoredExam(r.exam)
      && r.exam.id == id && r.exam.title == i.title
      && r.exam.totalMarks == i.totalMarks && i.passingMarks.Given? && r.exam.passingMarks == Some(i.passingMarks.value)
      && r.exam.maxAttempts == Some(OrDefault(i.maxAttempts, 3))
    ensures r.Created? <==>
      && CreateFieldsPresent(i)
      && i.passingMarks.Given?
      && 0 <= i.passingMarks.value <= i.totalMarks.value
      && (i.maxAttempts.None? || i.maxAttempts.value >= 0)
  {
    if !CreateFieldsPresent(i) then Rejected(MissingFields)
    else if Compared(i.passingMarks) > i.totalMarks.value then Rejected(PassingAboveTotal)
    else if Compared(i.passingMarks) < 0 || i.totalMarks.value < 0 then Rejected(NegativeMarks)
    else
      var pm := if i.passingMarks.Given? then Some(i.passingMarks.value) else None;
      var e := Exam(id, i.title, i.duration, i.totalMarks, pm, Some(OrDefault(i.maxAttempts, 3)));
      if ValidStoredExam(e) then Created(e) else Rejected(ValidationFailed)
  }

  /** A `null` passingMarks passes every check of the controller and is
      refused by the schema's `required`: a 500, not the 400 of a missing
      field. */
  lemma CreateExamNullPassingIsServerError(i: ExamInput, id: nat)
    requires i.title != "" && Truthy(i.duration) && i.totalMarks.Some? && i.totalMarks.value > 0
    requires i.passingMarks == Null
    ensures CreateExam(i, id) == Rejected(ValidationFailed)
  {
  }

  /** A supplied maxAttempts of 0 is falsy and becomes the default 3. */
  lemma CreateExamZeroAttemptsBecomesThree(i: ExamInput, id: nat)
    requires CreateFieldsPresent(i) && i.passingMarks.Given?
    requires 0 <= i.passingMarks.value <= i.totalMarks.value
    requires i.maxAttempts == Some(0)
    ensures CreateExam(i, id).Created?
    ensures CreateExam(i, id).exam.maxAttempts == Some(3)
  {
  }

  /** The fields an update body may carry; None means "not in the body". */
  datatype ExamPatch = ExamPatch(
    title: Option<string>,
    duration: Option<int>,
    totalMarks: Option<int>,
    passingMarks: Option<int>,
    maxAttempts: Option<int>)

  /** The checks `updateExam` makes, in order, before the store update. */
  function UpdateChecks(p: ExamPatch): (r: Option<ExamError>)
    ensures r == Some(PassingAboveTotal) <==>
      p.totalMarks.Some? && p.passingMarks.Some? && p.passingMarks.value > p.totalMarks.value
    ensures r.None? ==>
      && (p.totalMarks.Some? ==> p.totalMarks.value >= 0)
      && (p.passingMarks.Some? ==> p.passingMarks.value >= 0)
      && (p.maxAttempts.Some? ==> p.maxAttempts.value > 0)
      && (p.totalMarks.Some? && p.passingMarks.Some? ==> p.passingMarks.value <= p.totalMarks.value)
  {
    if p.totalMarks.Some? && p.passingMarks.Some? && p.passingMarks.value > p.totalMarks.value then
      Some(PassingAboveTotal)
    else if p.totalMarks.Some? && p.totalMarks.value < 0 then Some(NegativeMarks)
    else if p.passingMarks.Some? && p.passingMarks.value < 0 then Some(NegativeMarks)
    else if p.maxAttempts.Some? && p.maxAttempts.value <= 0 then Some(InvalidMaxAttempts)
    else None
  }

  function Patch<T>(current: T, supplied: Option<T>): T {
    if supplied.Some? then supplied.value else current
  }

  /** The update validators `runValidators: true` applies to the fields
      in the body before the query runs. A supplied title must be
      non-empty (`required`). The passingMarks validator compares the value
      with `this.totalMarks || 0`, but in an update validator `this` is the
      query, not the document, so the limit is always 0: any positive
      passingMarks in an update body is refused, whatever the totals say. */
  predicate UpdateValidatorsPass(p: ExamPatch) {
    && p.title != Some("")
    && (p.passingMarks.Some? ==> p.passingMarks.value <= 0)
  }

  /** The exam with the supplied fields of an accepted body written over
      it; a supplied passingMarks can only be 0 there. */
  function Patched(e: Exam, p: ExamPatch): Exam {
    Exam(e.id, Patch(e.title, p.title),
         if p.duration.Some? then p.duration else e.duration,
         if p.totalMarks.Some? then p.totalMarks else e.totalMarks,
         if p.passingMarks.Some? then p.passingMarks else e.passingMarks,
         if p.maxAttempts.Some? then p.maxAttempts else e.maxAttempts)
  }

  /** Replace the exam whose id matches: the per-model counterpart of
      `Courses.ReplaceCourse` for the exam collection. */
  function ReplaceExam(exams: seq<Exam>, e: Exam): (r: seq<Exam>)
    ensures |r| == |exams|
    ensures forall k :: 0 <= k < |exams| ==> r[k] == (if exams[k].id == e.id then e else exams[k])
  {
    seq(|exams|, k requires 0 <= k < |exams| => if exams[k].id == e.id then e else exams[k])
  }

  /** `updateExam`: the controller's checks (400), then
      `findByIdAndUpdate` with update validators. A route id that is not an
      ObjectId fails to cast and an update the validators refuse throws;
      both are the 500 of the catch block and both come before the 404,
      because casting and validation precede the query. Otherwise exactly
      the supplied fields are overwritten. Route parameters are never
      absent. */
  function UpdateExam(exams: seq<Exam>, id: RawId, p: ExamPatch): (res: (ExamResult, seq<Exam>))
    requires id != Absent
    ensures UpdateChecks(p).Some? ==> res == (Rejected(UpdateChecks(p).value), exams)
    ensures !res.0.Created? ==> res.1 == exams
    ensures UpdateChecks(p).None? ==> (res.0 == Rejected(CastFailed) <==> id.Malformed?)
    ensures UpdateChecks(p).None? && id.Oid? ==>
      (res.0 == Rejected(ValidationFailed) <==> !UpdateValidatorsPass(p))
    ensures UpdateChecks(p).None? && id.Oid? && UpdateValidatorsPass(p) && FindExam(exams, id.id).None? ==>
      res.0 == Rejected(ExamNotFound)
    ensures res.0.Created? <==>
      UpdateChecks(p).None? && id.Oid? && UpdateValidatorsPass(p) && FindExam(exams, id.id).Some?
    ensures res.0.Created? ==>
      && var stored := FindExam(exams, id.id).value;
      && res.1 == ReplaceExam(exams, res.0.exam)
      && res.0.exam.id == stored.id == id.id
      && res.0.exam.title == Patch(stored.title, p.title) && (p.title.Some? ==> res.0.exam.title != "")
      && (p.duration.Some? ==> res.0.exam.duration == p.duration)
      && (p.duration.None? ==> res.0.exam.duration == stored.duration)
      && (p.totalMarks.Some? ==> res.0.exam.totalMarks == p.totalMarks)
      && (p.totalMarks.None? ==> res.0.exam.totalMarks == stored.totalMarks)
      && (p.passingMarks.Some? ==> res.0.exam.passingMarks == Some(0))
      && (p.passingMarks.None? ==> res.0.exam.passingMarks == stored.passingMarks)
      && (p.maxAttempts.Some? ==> res.0.exam.maxAttempts == p.maxAttempts && p.maxAttempts.value >= 1)
      && (p.maxAttempts.None? ==> res.0.exam.maxAttempts == stored.maxAttempts)
  {
    var check := UpdateChecks(p);
    if check.Some? then (Rejected(check.value), exams)
    else if id.Malformed? then (Rejected(CastFailed), exams)
    else if !UpdateValidatorsPass(p) then (Rejected(ValidationFailed), exams)
    else match FindExam(exams, id.id)
      case None => (Rejected(ExamNotFound), exams)
      case Some(e) =>
        var e' := Patched(e, p);
        (Created(e'), ReplaceExam(exams, e'))
  }

  /** The passingMarks <= totalMarks check of the controller only fires
      when both are in the body, so a lone passingMarks above the stored
      total passes the controller; it is the update validator that refuses
      it, with a 500 instead of the controller's 400, and nothing is
      stored. */
  lemma UpdateChecksIgnoreLonePassingMarks(exams: seq<Exam>, e: Exam)
    requires ValidStoredExam(e) && e in exams
    ensures var p := ExamPatch(None, None, None, Some(e.totalMarks.value + 1), None);
      UpdateChecks(p).None? && UpdateExam(exams, Oid(e.id), p) == (Rejected(ValidationFailed), exams)
  {
  }

  /** An update can never raise passingMarks: every positive value is
      refused, even one within the stored or the supplied total, so an
      accepted update stores passingMarks 0 or keeps the old value. */
  lemma UpdateNeverRaisesPassingMarks(exams: seq<Exam>, n: nat, p: ExamPatch)
    requires FindExam(exams, n).Some? && ValidStoredExam(FindExam(exams, n).value)
    requires UpdateExam(exams, Oid(n), p).0.Created?
    ensures UpdateExam(exams, Oid(n), p).0.exam.passingMarks.Some?
    ensures UpdateExam(exams, Oid(n), p).0.exam.passingMarks.value <= FindExam(exams, n).value.passingMarks.value
  {
  }

  datatype ExamRead =
    | ReadServerError             // 500: the route id is not an ObjectId
    | ReadNotFound                // 404
    | ReadFound(maxAttempts: int) // 200, with the reported maxAttempts

  /** `getExamById`: a 500 when the route id fails to cast, a 404 for an
      unknown id, otherwise the exam with maxAttempts reported as
      `stored || 3`. Route parameters are never absent. */
  function ReportedMaxAttempts(exams: seq<Exam>, id: RawId): (r: ExamRead)
    requires id != Absent
    ensures r == ReadServerError <==> id.Malformed?
    ensures r == ReadNotFound <==> id.Oid? && FindExam(exams, id.id).None?
    ensures r.ReadFound? ==>
      && id.Oid? && FindExam(exams, id.id).Some?
      && var stored := FindExam(exams, id.id).value;
      && r.maxAttempts != 0
      && (Truthy(stored.maxAttempts) ==> r.maxAttempts == stored.maxAttempts.value)
      && (!Truthy(stored.maxAttempts) ==> r.maxAttempts == 3)
  {
    if id.Malformed? then ReadServerError
    else match FindExam(exams, id.id)
      case None => ReadNotFound
      case Some(e) => ReadFound(MaxAttempts(e))
  }

  /** With unique ids, looking an exam up after replacing it yields the
      replacement. */
  lemma {:induction false} FindExamAfterReplace(exams: seq<Exam>, e: Exam)
    requires forall j, k :: 0 <= j < k < |exams| ==> exams[j].id != exams[k].id
    requires FindExam(exams, e.id).Some?
    ensures FindExam(ReplaceExam(exams, e), e.id) == Some(e)
    decreases |exams|
  {
    var r := ReplaceExam(exams, e);
    if exams[0].id != e.id {
      assert r[1..] == ReplaceExam(exams[1..], e);
      FindExamAfterReplace(exams[1..], e);
    }
  }

  /** An accepted update is what `getExamById` reads back: a supplied
      maxAttempts is reported as given, and without one the report is the
      one before the update. */
  lemma UpdateThenRead(exams: seq<Exam>, n: nat, p: ExamPatch)
    requires forall j, k :: 0 <= j < k < |exams| ==> exams[j].id != exams[k].id
    requires UpdateExam(exams, Oid(n), p).0.Created?
    ensures var after := UpdateExam(exams, Oid(n), p).1;
      && (p.maxAttempts.Some? ==> ReportedMaxAttempts(after, Oid(n)) == ReadFound(p.maxAttempts.value))
      && (p.maxAttempts.None? ==> ReportedMaxAttempts(after, Oid(n)) == ReportedMaxAttempts(exams, Oid(n)))
  {
    var e' := UpdateExam(exams, Oid(n), p).0.exam;
    FindExamAfterReplace(exams, e');
  }

  // ------------------------------------------------------------------
  // Questions
  // ------------------------------------------------------------------

  datatype Question = Question(
    id: nat,
    exam: Option<nat>,
    questionText: string,
    options: seq<string>,
    correctAnswer: string,
    marks: int)

  /** What the question schema admits. */
  predicate ValidQuestion(q: Question) {
    && q.exam.Some?
    && q.questionText != ""
    && |q.options| >= 2
    && q.correctAnswer != ""
    && q.correctAnswer in q.options
  }

  datatype QuestionInput = QuestionInput(
    exam: Option<nat>,
    questionText: string,
    options: seq<string>,
    correctAnswer: string,
    marks: Option<int>)

  /** Building a question document: marks default to 1, then the schema
      validators run; None is the validation error. */
  function NewQuestion(i: QuestionInput, id: nat): (r: Option<Question>)
    ensures r.Some? <==>
      i.exam.Some? && i.questionText != "" && |i.options| >= 2 &&
      i.correctAnswer != "" && i.correctAnswer in i.options
    ensures r.Some? ==> ValidQuestion(r.value) && r.value.id == id
    ensures r.Some? ==> r.value.correctAnswer in r.value.options && |r.value.options| >= 2
    ensures r.Some? && i.marks.None? ==> r.value.marks == 1
    ensures r.Some? && i.marks.Some? ==> r.value.marks == i.marks.value
  {
    var q := Question(id, i.exam, i.questionText, i.options, i.correctAnswer, i.marks.GetOr(1));
    if ValidQuestion(q) then Some(q) else None
  }

  /** `question.marks || 1`: the marks a correct answer earns. A question
      stored with marks 0 still earns 1. */
  function QuestionMarks(q: Question): (m: int)
    ensures m != 0
    ensures q.marks != 0 ==> m == q.marks
    ensures q.marks == 0 ==> m == 1
  {
    if q.marks != 0 then q.marks else 1
  }

  /** First question with the given id (the `questions.find` lookup); the
      same first-match search as the per-model `findById` lookups. */
  function FindQuestion(qs: seq<Question>, id: nat): (r: Option<Question>)
    ensures r.Some? ==> r.value in qs && r.value.id == id
    ensures r.None? ==> forall q :: q in qs ==> q.id != id
  {
    if |qs| == 0 then None
    else if qs[0].id == id then Some(qs[0])
    else FindQuestion(qs[1..], id)
  }
}

=== FILE: lectures.dfy ===
/** Lectures (`controllers/lectureController.js`, `models/Lectures.js`):
    creation with the course's lecture counter, the course listing that
    shows every active lecture to a paid student and only the free
    previews to everyone else, sorted by lecture number, the single
    lecture read and the soft delete. */
module Lectures {
  import opened Common
  import opened Courses
  import opened Enrollments

  datatype LectureKind = Video | Pdf | Document | Excel | Ppt | QuizItem | Link
  datatype LectureStatus = LectureActive | LectureInactive

  datatype Lecture = Lecture(
    id: nat,
    title: string,
    description: string,
    course: nat,
    lectureNumber: int,
    kind: LectureKind,
    isFreePreview: bool,
    priceRequired: int,
    duration: int,
    status: LectureStatus,
    isDeleted: bool)

  // ------------------------------------------------------------------
  // createLecture
  // ------------------------------------------------------------------

  datatype LectureInput = LectureInput(
    title: string,
    description: string,
    course: RawId,
    lectureNumber: Option<int>,
    kind: Option<LectureKind>,   // None: missing or outside the enum
    duration: Option<int>,
    isFreePreview: bool,
    priceRequired: Option<int>)

  datatype CreateLectureOutcome =
    | LectureFieldsMissing           // 400
    | LectureCourseMissing           // 404
    | LectureCreated(lecture: Lecture) // 201
    | LectureServerError             // 500

  /** The number of stored lectures (soft-deleted ones included) of one
      course. */
  function CountFor(ls: seq<Lecture>, course: nat): (n: nat)
    ensures n <= |ls|
  {
    if |ls| == 0 then 0
    else CountFor(ls[..|ls| - 1], course) + (if ls[|ls| - 1].course == course then 1 else 0)
  }

  /** Every course's lecture counter equals the number of its stored
      lectures. */
  predicate CountersMatch(courses: seq<Course>, ls: seq<Lecture>) {
    forall c :: c in courses ==> c.totalLectures == CountFor(ls, c.id)
  }

  function FindLecture(ls: seq<Lecture>, id: nat): (r: Option<Lecture>)
    ensures r.Some? ==> r.value in ls && r.value.id == id
    ensures r.None? ==> forall l :: l in ls ==> l.id != id
  {
    if |ls| == 0 then None
    else if ls[0].id == id then Some(ls[0])
    else FindLecture(ls[1..], id)
  }

  /** `createLecture`: 400 without title, description or course, 500 when
      the course id is malformed (a cast error), 404 for an unknown
      course, 500 when the schema rejects the lecture (no type, or a title
      that is blank once `trim` has run); otherwise the lecture is stored
      with its trimmed title and its defaults, and the course's counter
      goes up by one. */
  function CreateLecture(courses: seq<Course>, ls: seq<Lecture>, i: LectureInput, newId: nat)
    : (res: (CreateLectureOutcome, seq<Course>, seq<Lecture>))
    ensures res.0 == LectureFieldsMissing <==> i.title == "" || i.description == "" || i.course.Absent?
    ensures !res.0.LectureCreated? ==> res.1 == courses && res.2 == ls
    ensures res.0 == LectureCourseMissing ==> i.course.Oid? && FindCourse(courses, i.course.id).None?
    ensures res.0.LectureCreated? <==>
      && i.title != "" && i.description != "" && i.course.Oid?
      && FindCourse(courses, i.course.id).Some? && i.kind.Some?
      && Trim(i.title) != "" && FindLecture(ls, newId).None?
    ensures res.0.LectureCreated? ==>
      && i.course.Oid? && FindCourse(courses, i.course.id).Some? && i.kind.Some?
      && var l := res.0.lecture;
      && res.2 == ls + [l]
      && l.id == newId && l.title == Trim(i.title) && Trimmed(l.title) && l.title != ""
      && l.course == i.course.id && l.kind == i.kind.value
      && l.lectureNumber == OrDefault(i.lectureNumber, 1) && l.lectureNumber != 0
      && l.status == LectureActive && !l.isDeleted && l.isFreePreview == i.isFreePreview
      && var before := FindCourse(courses, i.course.id).value;
      && res.1 == ReplaceCourse(courses, before.(totalLectures := before.totalLectures + 1))
  {
    if i.title == "" || i.description == "" || i.course.Absent? then (LectureFieldsMissing, courses, ls)
    else if i.course.Malformed? then (LectureServerError, courses, ls)
    else match FindCourse(courses, i.course.id)
      case None => (LectureCourseMissing, courses, ls)
      case Some(c) =>
        if i.kind.None? || Trim(i.title) == "" || FindLecture(ls, newId).Some? then (LectureServerError, courses, ls)
        else
          var l := Lecture(newId, Trim(i.title), i.description, c.id, OrDefault(i.lectureNumber, 1), i.kind.value,
                           i.isFreePreview, OrDefault(i.priceRequired, 0), OrDefault(i.duration, 0),
                           LectureActive, false);
          (LectureCreated(l), ReplaceCourse(courses, c.(totalLectures := c.totalLectures + 1)), ls + [l])
  }

  /** Creating a lecture keeps every course's counter equal to its number
      of stored lectures. */
  lemma CreateLectureKeepsCounters(courses: seq<Course>, ls: seq<Lecture>, i: LectureInput, newId: nat)
    requires CountersMatch(courses, ls)
    requires forall j, k :: 0 <= j < k < |courses| ==> courses[j].id != courses[k].id
    ensures var res := CreateLecture(courses, ls, i, newId); CountersMatch(res.1, res.2)
  {
    var res := CreateLecture(courses, ls, i, newId);
    if res.0.LectureCreated? {
      var l := res.0.lecture;
      var before := FindCourse(courses, i.course.id).value;
      assert res.2[..|ls|] == ls;
      forall c | c in res.1 ensures c.totalLectures == CountFor(res.2, c.id) {
        var k :| 0 <= k < |res.1| && res.1[k] == c;
        if courses[k].id == before.id {
          assert courses[k] == before;
        } else {
          assert c == courses[k];
        }
      }
    }
  }

  // ------------------------------------------------------------------
  // getLecturesByCourse
  // ------------------------------------------------------------------

  /** What the listing query selects: the course's active, not deleted
      lectures, and of those only the free previews unless `full`. */
  predicate Visible(l: Lecture, course: nat, full: bool) {
    l.course == course && l.status == LectureActive && !l.isDeleted && (full || l.isFreePreview)
  }

  function Select(ls: seq<Lecture>, course: nat, full: bool): (r: seq<Lecture>)
    ensures forall l :: l in r <==> l in ls && Visible(l, course, full)
    ensures |r| <= |ls|
  {
    if |ls| == 0 then []
    else (if Visible(ls[0], course, full) then [ls[0]] else []) + Select(ls[1..], course, full)
  }

  predicate SortedByNumber(s: seq<Lecture>) {
    forall i, j :: 0 <= i < j < |s| ==> s[i].lectureNumber <= s[j].lectureNumber
  }

  function InsertByNumber(x: Lecture, s: seq<Lecture>): (r: seq<Lecture>)
    requires SortedByNumber(s)
    ensures SortedByNumber(r)
    ensures multiset(r) == multiset(s) + multiset{x}
    ensures forall y :: y in r ==> y == x || y in s
    ensures |r| == |s| + 1
  {
    if |s| == 0 then [x]
    else if x.lectureNumber <= s[0].lectureNumber then
      SortedCons(x, s);
      [x] + s
    else
      SortedTail(s);
      var rest := InsertByNumber(x, s[1..]);
      AboveHead(x, s, rest);
      SortedCons(s[0], rest);
      assert s == [s[0]] + s[1..];
      [s[0]] + rest
  }

  /** A sorted list without its head is sorted. */
  lemma SortedTail(s: seq<Lecture>)
    requires SortedByNumber(s) && |s| > 0
    ensures SortedByNumber(s[1..])
    ensures forall i :: 0 <= i < |s| ==> s[0].lectureNumber <= s[i].lectureNumber
  {
    forall i, j | 0 <= i < j < |s| - 1 ensures s[1..][i].lectureNumber <= s[1..][j].lectureNumber {
      assert s[1..][i] == s[i + 1] && s[1..][j] == s[j + 1];
    }
  }

  /** Every element of `rest`, being `x` or from the tail of `s`, is at
      least the head of `s`. */
  lemma AboveHead(x: Lecture, s: seq<Lecture>, rest: seq<Lecture>)
    requires SortedByNumber(s) && |s| > 0 && s[0].lectureNumber < x.lectureNumber
    requires forall y :: y in rest ==> y == x || y in s[1..]
    ensures forall i :: 0 <= i < |rest| ==> s[0].lectureNumber <= rest[i].lectureNumber
  {
    forall i | 0 <= i < |rest| ensures s[0].lectureNumber <= rest[i].lectureNumber {
      if rest[i] != x {
        assert rest[i] in s[1..] by { assert rest[i] in rest; }
        var k :| 0 <= k < |s[1..]| && s[1..][k] == rest[i];
        assert s[k + 1] == rest[i];
      }
    }
  }

  /** A head no larger than any element of a sorted list keeps it sorted. */
  lemma SortedCons(h: Lecture, t: seq<Lecture>)
    requires SortedByNumber(t)
    requires forall i :: 0 <= i < |t| ==> h.lectureNumber <= t[i].lectureNumber
    ensures SortedByNumber([h] + t)
  {
    var r := [h] + t;
    forall i, j | 0 <= i < j < |r| ensures r[i].lectureNumber <= r[j].lectureNumber {
      assert r[j] == t[j - 1];
      if i > 0 {
        assert r[i] == t[i - 1];
      }
    }
  }

  /** `.sort({ lectureNumber: 1 })`: the result is ordered by lecture
      number and holds exactly the selected lectures. */
  function SortByNumber(s: seq<Lecture>): (r: seq<Lecture>)
    ensures SortedByNumber(r)
    ensures multiset(r) == multiset(s)
    ensures forall y :: y in r <==> y in s
  {
    if |s| == 0 then []
    else
      var r := InsertByNumber(s[0], SortByNumber(s[1..]));
      assert s == [s[0]] + s[1..];
      assert forall y :: y in r <==> y in multiset(r);
      r
  }

  /** The listing's paid test: a well-formed student id whose enrollment
      for the course (any, soft-deleted included) has isPaid. */
  predicate PaidStudent(es: seq<Enrollment>, student: RawId, course: nat) {
    student.Oid? && FindPair(es, student.id, course).Some? && FindPair(es, student.id, course).value.isPaid
  }

  datatype Listing = Listing(lectures: seq<Lecture>, isPaidStudent: bool)

  /** `getLecturesByCourse`: 400 on a malformed course id, otherwise the
      visible lectures sorted by lecture number. */
  function ListLectures(ls: seq<Lecture>, es: seq<Enrollment>, course: RawId, student: RawId): (r: Option<Listing>)
    ensures r.None? <==> !course.IsValid()
    ensures r.Some? ==> r.value.isPaidStudent == PaidStudent(es, student, course.id)
    ensures r.Some? ==> SortedByNumber(r.value.lectures)
    ensures r.Some? ==> forall l :: l in r.value.lectures <==> l in ls && Visible(l, course.id, r.value.isPaidStudent)
    ensures r.Some? ==> forall l :: l in r.value.lectures ==> multiset(r.value.lectures)[l] == multiset(ls)[l]
  {
    if !course.IsValid() then None
    else
      var paid := PaidStudent(es, student, course.id);
      var picked := Select(ls, course.id, paid);
      var sorted := SortByNumber(picked);
      assert forall l :: l in sorted <==> l in picked by {
        forall l ensures l in sorted <==> l in picked {
          assert l in sorted <==> l in multiset(sorted);
        }
      }
      SelectCountsMatch(ls, course.id, paid);
      Some(Listing(sorted, paid))
  }

  /** Every visible lecture is selected as often as it is stored. */
  lemma {:induction false} SelectCountsMatch(ls: seq<Lecture>, course: nat, full: bool)
    ensures forall l :: Visible(l, course, full) ==> multiset(Select(ls, course, full))[l] == multiset(ls)[l]
    decreases |ls|
  {
    if |ls| > 0 {
      SelectCountsMatch(ls[1..], course, full);
      assert ls == [ls[0]] + ls[1..];
    }
  }

  /** A student shown only previews sees a part of what a paid student
      sees. */
  lemma PreviewIsPartOfFullListing(ls: seq<Lecture>, course: nat)
    ensures forall l :: l in SortByNumber(Select(ls, course, false)) ==> l in SortByNumber(Select(ls, course, true))
  {
  }

  // ------------------------------------------------------------------
  // getLecture and deleteLecture
  // ------------------------------------------------------------------

  datatype LectureLookup = LectureFound(lecture: Lecture) | LectureNotFound | LectureLookupError

  /** `getLecture`: a cast error on a malformed id, 404 when the lecture
      is missing or soft-deleted. */
  function GetLecture(ls: seq<Lecture>, id: RawId): (r: LectureLookup)
    ensures r.LectureLookupError? <==> !id.IsValid()
    ensures r.LectureFound? ==> r.lecture in ls && r.lecture.id == id.id && !r.lecture.isDeleted
    ensures r.LectureNotFound? ==> id.Oid? && (FindLecture(ls, id.id).None? || FindLecture(ls, id.id).value.isDeleted)
  {
    if !id.IsValid() then LectureLookupError
    else match FindLecture(ls, id.id)
      case None => LectureNotFound
      case Some(l) => if l.isDeleted then LectureNotFound else LectureFound(l)
  }

  /** The position of the first lecture with the id (`findById`). */
  function LectureIndex(ls: seq<Lecture>, id: nat): (r: Option<nat>)
    ensures r.Some? ==> r.value < |ls| && ls[r.value].id == id
    ensures r.Some? ==> forall j :: 0 <= j < r.value ==> ls[j].id != id
    ensures r.None? ==> forall l :: l in ls ==> l.id != id
  {
    if |ls| == 0 then None
    else if ls[0].id == id then Some(0)
    else match LectureIndex(ls[1..], id)
      case None => None
      case Some(k) => Some(k + 1)
  }

  /** `deleteLecture`: a soft delete; the document stays and is flagged. */
  function DeleteLecture(ls: seq<Lecture>, id: RawId): (res: (LectureLookup, seq<Lecture>))
    ensures res.0.LectureLookupError? <==> !id.IsValid()
    ensures res.0.LectureNotFound? <==> id.Oid? && FindLecture(ls, id.id).None?
    ensures !res.0.LectureFound? ==> res.1 == ls
    ensures res.0.LectureFound? ==>
      && id.Oid? && res.0.lecture in ls && res.0.lecture.id == id.id
      && res.0.lecture.(isDeleted := true) in res.1
      && |res.1| == |ls|
      && (forall k :: 0 <= k < |ls| ==> res.1[k].id == ls[k].id && res.1[k].course == ls[k].course)
      && (forall k :: 0 <= k < |ls| ==> res.1[k] == ls[k] || res.1[k] == ls[k].(isDeleted := true))
      && exists k :: 0 <= k < |ls| && ls[k].id == id.id && res.0.lecture == ls[k]
           && (forall j :: 0 <= j < k ==> ls[j].id != id.id)
           && res.1 == ls[k := ls[k].(isDeleted := true)]
  {
    if !id.IsValid() then (LectureLookupError, ls)
    else match LectureIndex(ls, id.id)
      case None => (LectureNotFound, ls)
      case Some(k) =>
        var ls' := ls[k := ls[k].(isDeleted := true)];
        assert ls'[k] == ls[k].(isDeleted := true);
        assert ls[k].id == id.id && ls' == ls[k := ls[k].(isDeleted := true)];
        (LectureFound(ls[k]), ls')
  }

  /** After a delete the lecture reads as 404 and drops out of both
      listings, while the course's counter still counts it. */
  lemma DeleteHidesLecture(courses: seq<Course>, ls: seq<Lecture>, id: nat)
    requires forall j, k :: 0 <= j < k < |ls| ==> ls[j].id != ls[k].id
    requires DeleteLecture(ls, Oid(id)).0.LectureFound?
    ensures var ls' := DeleteLecture(ls, Oid(id)).1;
      && GetLecture(ls', Oid(id)) == LectureNotFound
      && (forall c: nat, full: bool, l :: l in Select(ls', c, full) ==> l.id != id)
      && (CountersMatch(courses, ls) ==> CountersMatch(courses, ls'))
  {
    var res := DeleteLecture(ls, Oid(id));
    var ls' := res.1;
    forall l | l in ls' && l.id == id ensures l.isDeleted {
      var k :| 0 <= k < |ls'| && ls'[k] == l;
      var m :| 0 <= m < |ls'| && ls'[m] == res.0.lecture.(isDeleted := true);
      assert ls[k].id == ls'[k].id == id == ls'[m].id == ls[m].id;
    }
    FindAfterDelete(ls', id);
    forall c: nat | true ensures CountFor(ls', c) == CountFor(ls, c) {
      CountForSameCourses(ls, ls', c);
    }
  }

  lemma FindAfterDelete(ls: seq<Lecture>, id: nat)
    requires forall l :: l in ls && l.id == id ==> l.isDeleted
    ensures FindLecture(ls, id).None? || FindLecture(ls, id).value.isDeleted
  {
  }

  /** The counter of a course depends only on the course of each stored
      lecture. */
  lemma {:induction false} CountForSameCourses(ls: seq<Lecture>, ls': seq<Lecture>, c: nat)
    requires |ls| == |ls'|
    requires forall k :: 0 <= k < |ls| ==> ls[k].course == ls'[k].course
    ensures CountFor(ls, c) == CountFor(ls', c)
    decreases |ls|
  {
    if |ls| > 0 {
      CountForSameCourses(ls[..|ls| - 1], ls'[..|ls'| - 1], c);
    }
  }
}

=== FILE: messaging.dfy ===
/** Direct messages between users (`controllers/messageController.js`):
    the role policy on sending (no student-to-student, no admin-to-admin),
    the sidebar of people one may write to, the conversation read and the
    delete authorisation. A message document holds sender, receiver, text
    and creation time; `models/Message.js` is not part of this model, so
    creating a message is taken to succeed. */
module Messaging {
  import opened Common
  import opened Users

  datatype Message = Message(id: nat, sender: nat, receiver: nat, text: string, createdAt: int)

  /** A role as the handlers read it: the first element when it is an
      array; an empty array yields `undefined`, whose `toLowerCase` throws. */
  function NormalRole(role: RoleField): (r: Option<string>)
    ensures role.RoleText? ==> r == Some(role.text)
    ensures role.RoleList? ==> (r.Some? <==> |role.items| > 0)
    ensures role.RoleList? && |role.items| > 0 ==> r == Some(role.items[0])
  {
    match role
    case RoleText(t) => Some(t)
    case RoleList(items) => if |items| > 0 then Some(items[0]) else None
  }

  predicate IsStudentRole(role: string) { ToLower(role) == "student" }
  predicate IsAdminRole(role: string) { ToLower(role) == "admin" }

  /** A role the user schema's enum allows (Admin or Student), in any
      letter case. */
  predicate KnownRole(u: User) {
    NormalRole(u.role).Some? && (IsStudentRole(NormalRole(u.role).value) || IsAdminRole(NormalRole(u.role).value))
  }

  datatype SendOutcome =
    | ReceiverAndTextRequired
    | ReceiverNotFound
    | StudentsCannotMessage
    | AdminsCannotMessage
    | MessageSent(message: Message)
    | SendServerError

  /** `sendMessage`: `to` and `text` must both be truthy; the receiver must
      exist; then the two role checks, each evaluated left to right so the
      receiver's role is only lower-cased once the sender's role has
      matched; then the message is created with the caller as sender. */
  function SendMessage(users: seq<User>, messages: seq<Message>, sender: User, to: RawId, text: string, newId: nat, now: int)
    : (res: (SendOutcome, seq<Message>))
    ensures !res.0.MessageSent? ==> res.1 == messages
    ensures res.0.ReceiverAndTextRequired? <==> to.Absent? || text == ""
    ensures res.0.ReceiverNotFound? <==> to.Oid? && text != "" && FindUser(users, to.id).None?
    ensures res.0.MessageSent? ==>
      && to.Oid? && FindUser(users, to.id).Some?
      && res.0.message == Message(newId, sender.id, to.id, text, now)
      && res.1 == messages + [res.0.message]
  {
    if to.Absent? || text == "" then (ReceiverAndTextRequired, messages)
    else if to.Malformed? then (SendServerError, messages)
    else match FindUser(users, to.id)
      case None => (ReceiverNotFound, messages)
      case Some(receiver) =>
        var sr := NormalRole(sender.role);
        var rr := NormalRole(receiver.role);
        if sr.None? then (SendServerError, messages)
        else if IsStudentRole(sr.value) && rr.None? then (SendServerError, messages)
        else if IsStudentRole(sr.value) && IsStudentRole(rr.value) then (StudentsCannotMessage, messages)
        else if IsAdminRole(sr.value) && rr.None? then (SendServerError, messages)
        else if IsAdminRole(sr.value) && IsAdminRole(rr.value) then (AdminsCannotMessage, messages)
        else
          var m := Message(newId, sender.id, to.id, text, now);
          (MessageSent(m), messages + [m])
  }

  /** The role policy: for a request that names an existing receiver and
      carries text, between users whose roles can be read, a message is
      sent exactly when the two are not both students and not both
      admins; the two refusals are the 403 answers. */
  lemma SendPolicy(users: seq<User>, messages: seq<Message>, sender: User, to: nat, text: string, newId: nat, now: int)
    requires text != "" && FindUser(users, to).Some?
    requires NormalRole(sender.role).Some? && NormalRole(FindUser(users, to).value.role).Some?
    ensures var sr := NormalRole(sender.role).value;
      var rr := NormalRole(FindUser(users, to).value.role).value;
      var out := SendMessage(users, messages, sender, Oid(to), text, newId, now).0;
      && (out.MessageSent? <==> !(IsStudentRole(sr) && IsStudentRole(rr)) && !(IsAdminRole(sr) && IsAdminRole(rr)))
      && (out.StudentsCannotMessage? <==> IsStudentRole(sr) && IsStudentRole(rr))
      && (out.AdminsCannotMessage? <==> IsAdminRole(sr) && IsAdminRole(rr))
  {
    var sr := NormalRole(sender.role).value;
    if IsStudentRole(sr) && IsAdminRole(sr) {
      StudentIsNotAdmin(sr);
    }
  }

  /** No role is both "student" and "admin" once lower-cased. */
  lemma StudentIsNotAdmin(role: string)
    requires IsStudentRole(role)
    ensures !IsAdminRole(role)
  {
  }

  /** An array role with no element: a student or admin sender then hits
      the 500 path, while any other sender's checks never look at it. */
  lemma EmptyRoleListReceiver(users: seq<User>, messages: seq<Message>, sender: User, to: nat, text: string, newId: nat, now: int)
    requires text != "" && FindUser(users, to).Some? && FindUser(users, to).value.role == RoleList([])
    requires NormalRole(sender.role).Some?
    ensures var sr := NormalRole(sender.role).value;
      var out := SendMessage(users, messages, sender, Oid(to), text, newId, now).0;
      (out.SendServerError? <==> IsStudentRole(sr) || IsAdminRole(sr)) &&
      (out.MessageSent? <==> !IsStudentRole(sr) && !IsAdminRole(sr))
  {
  }

  /** Every user except the caller. */
  function Others(users: seq<User>, me: nat): (r: seq<User>)
    ensures forall u :: u in r <==> u in users && u.id != me
  {
    if |users| == 0 then []
    else (if users[0].id != me then [users[0]] else []) + Others(users[1..], me)
  }

  /** `users.filter(u => role(u).toLowerCase() === want)`: None when some
      user's role cannot be read, which throws inside the filter. */
  function KeepRole(us: seq<User>, want: string): (r: Option<seq<User>>)
    ensures r.None? <==> exists u :: u in us && NormalRole(u.role).None?
    ensures r.Some? ==> forall u :: u in r.value <==> u in us && ToLower(NormalRole(u.role).value) == want
  {
    if |us| == 0 then Some([])
    else
      var rest := KeepRole(us[1..], want);
      var role := NormalRole(us[0].role);
      if role.None? then None
      else if rest.None? then
        assert exists u :: u in us[1..] && NormalRole(u.role).None?;
        None
      else Some((if ToLower(role.value) == want then [us[0]] else []) + rest.value)
  }

  datatype SidebarOutcome = Sidebar(users: seq<User>) | SidebarServerError

  /** `getUsersForMessaging`: everyone but the caller; a student sees only
      admins and an admin only students; any other role sees everyone. */
  function UsersForMessaging(users: seq<User>, me: User): (r: SidebarOutcome)
    ensures r.Sidebar? ==> forall u :: u in r.users ==> u in users && u.id != me.id
    ensures r.SidebarServerError? ==>
      (NormalRole(me.role).None? || exists u :: u in users && u.id != me.id && NormalRole(u.role).None?)
  {
    var sr := NormalRole(me.role);
    if sr.None? then SidebarServerError
    else
      var others := Others(users, me.id);
      if IsStudentRole(sr.value) then
        match KeepRole(others, "admin")
        case None => SidebarServerError
        case Some(l) => Sidebar(l)
      else if IsAdminRole(sr.value) then
        match KeepRole(others, "student")
        case None => SidebarServerError
        case Some(l) => Sidebar(l)
      else Sidebar(others)
  }

  predicate DistinctUserIds(users: seq<User>) {
    forall i, j :: 0 <= i < j < |users| ==> users[i].id != users[j].id
  }

  lemma FindUniqueUser(users: seq<User>, u: User)
    requires DistinctUserIds(users) && u in users
    ensures FindUser(users, u.id) == Some(u)
  {
    var i :| 0 <= i < |users| && users[i] == u;
    if i > 0 {
      assert users[0].id != u.id;
      assert u in users[1..] by { assert users[1..][i - 1] == u; }
      FindUniqueUser(users[1..], u);
    }
  }

  /** The sidebar and the send policy agree: everyone the sidebar offers
      to a stored caller can be written to; and when all roles are the
      schema's two, the sidebar offers exactly the users a message would
      reach. */
  lemma SidebarAgreesWithSend(users: seq<User>, messages: seq<Message>, me: User, text: string, newId: nat, now: int)
    requires DistinctUserIds(users) && me in users && text != ""
    requires UsersForMessaging(users, me).Sidebar?
    ensures forall u :: u in UsersForMessaging(users, me).users ==>
      SendMessage(users, messages, me, Oid(u.id), text, newId, now).0.MessageSent?
    ensures KnownRole(me) && (forall u :: u in users ==> KnownRole(u)) ==>
      forall u :: u in users ==>
        (u in UsersForMessaging(users, me).users <==>
         SendMessage(users, messages, me, Oid(u.id), text, newId, now).0.MessageSent?)
  {
    forall u | u in users {
      SidebarAgreesWithSendFor(users, messages, me, u, text, newId, now);
    }
  }

  lemma SidebarAgreesWithSendFor(users: seq<User>, messages: seq<Message>, me: User, u: User, text: string, newId: nat, now: int)
    requires DistinctUserIds(users) && me in users && u in users && text != ""
    requires UsersForMessaging(users, me).Sidebar?
    ensures u in UsersForMessaging(users, me).users ==>
      SendMessage(users, messages, me, Oid(u.id), text, newId, now).0.MessageSent?
    ensures KnownRole(me) && KnownRole(u) ==>
      (u in UsersForMessaging(users, me).users <==>
       SendMessage(users, messages, me, Oid(u.id), text, newId, now).0.MessageSent?)
  {
    var sr := NormalRole(me.role).value;
    FindUniqueUser(users, u);
    FindUniqueUser(users, me);
    if IsStudentRole(sr) { StudentIsNotAdmin(sr); }
    if NormalRole(u.role).Some? && IsStudentRole(NormalRole(u.role).value) {
      StudentIsNotAdmin(NormalRole(u.role).value);
    }
  }

  /** The messages between `a` and `b`, in either direction, in store
      order. */
  function Conversation(messages: seq<Message>, a: nat, b: nat): (r: seq<Message>)
    ensures |r| <= |messages|
  {
    if |messages| == 0 then []
    else
      var m := messages[0];
      (if Between(m, a, b) then [m] else []) + Conversation(messages[1..], a, b)
  }

  /** The message is from one of the two users to the other. */
  predicate Between(m: Message, a: nat, b: nat) {
    (m.sender == a && m.receiver == b) || (m.sender == b && m.receiver == a)
  }

  /** The conversation holds exactly the stored messages between the two
      users. */
  lemma {:induction false} ConversationMembers(messages: seq<Message>, a: nat, b: nat)
    ensures forall m :: m in Conversation(messages, a, b) <==> m in messages && Between(m, a, b)
  {
    if |messages| > 0 {
      ConversationMembers(messages[1..], a, b);
      assert messages == [messages[0]] + messages[1..];
    }
  }

  predicate OldestFirst(messages: seq<Message>) {
    forall i, j :: 0 <= i < j < |messages| ==> messages[i].createdAt <= messages[j].createdAt
  }

  datatype ConversationOutcome = Messages(messages: seq<Message>) | UserNotFound | ConversationServerError

  /** `getMessages`: 404 for an unknown other user, otherwise the
      conversation between the caller and that user. The store keeps
      creation order, which is the order of `createdAt` the query sorts
      by. */
  function GetMessages(users: seq<User>, messages: seq<Message>, me: nat, other: RawId): (r: ConversationOutcome)
    ensures r.UserNotFound? <==> other.Absent? || (other.Oid? && FindUser(users, other.id).None?)
    ensures r.Messages? ==> other.Oid? && r.messages == Conversation(messages, me, other.id)
  {
    if other.Malformed? then ConversationServerError
    else if other.Absent? then UserNotFound
    else if FindUser(users, other.id).None? then UserNotFound
    else Messages(Conversation(messages, me, other.id))
  }

  /** A store in creation order yields every conversation oldest first,
      the order of the query's sort on `createdAt`. */
  lemma {:induction false} ConversationKeepsOrder(messages: seq<Message>, a: nat, b: nat)
    requires OldestFirst(messages)
    ensures OldestFirst(Conversation(messages, a, b))
  {
    if |messages| > 0 {
      var first, tail := messages[0], messages[1..];
      assert OldestFirst(tail) by {
        forall i, j | 0 <= i < j < |tail| ensures tail[i].createdAt <= tail[j].createdAt {
          assert tail[i] == messages[i + 1] && tail[j] == messages[j + 1];
        }
      }
      ConversationKeepsOrder(tail, a, b);
      var rest := Conversation(tail, a, b);
      ConversationMembers(tail, a, b);
      forall m | m in rest ensures first.createdAt <= m.createdAt {
        var k :| 0 <= k < |tail| && tail[k] == m;
        assert messages[k + 1] == m;
      }
      if Between(first, a, b) {
        assert Conversation(messages, a, b) == [first] + rest;
        OldestFirstCons(first, rest);
      } else {
        assert Conversation(messages, a, b) == rest;
      }
    }
  }

  lemma OldestFirstCons(first: Message, rest: seq<Message>)
    requires OldestFirst(rest)
    requires forall m :: m in rest ==> first.createdAt <= m.createdAt
    ensures OldestFirst([first] + rest)
  {
    var all := [first] + rest;
    forall i, j | 0 <= i < j < |all| ensures all[i].createdAt <= all[j].createdAt {
      assert all[j] == rest[j - 1];
      if i > 0 {
        assert all[i] == rest[i - 1];
      }
    }
  }

  /** Both sides read the same conversation. */
  lemma {:induction false} ConversationSymmetric(messages: seq<Message>, a: nat, b: nat)
    ensures Conversation(messages, a, b) == Conversation(messages, b, a)
  {
    if |messages| > 0 {
      ConversationSymmetric(messages[1..], a, b);
    }
  }

  /** A sent message closes the conversation between sender and receiver
      and changes no other conversation. */
  lemma SendExtendsConversation(users: seq<User>, messages: seq<Message>, sender: User, to: RawId, text: string, newId: nat, now: int, a: nat, b: nat)
    requires SendMessage(users, messages, sender, to, text, newId, now).0.MessageSent?
    ensures var (out, ms') := SendMessage(users, messages, sender, to, text, newId, now);
      Conversation(ms', a, b) ==
        Conversation(messages, a, b) +
        (if (a == sender.id && b == to.id) || (a == to.id && b == sender.id) then [out.message] else [])
  {
    var (out, ms') := SendMessage(users, messages, sender, to, text, newId, now);
    ConversationAppend(messages, out.message, a, b);
  }

  lemma {:induction false} ConversationAppend(messages: seq<Message>, m: Message, a: nat, b: nat)
    ensures Conversation(messages + [m], a, b) ==
      Conversation(messages, a, b) +
      (if Between(m, a, b) then [m] else [])
  {
    if |messages| > 0 {
      assert (messages + [m])[1..] == messages[1..] + [m];
      ConversationAppend(messages[1..], m, a, b);
    } else {
      assert messages + [m] == [m];
    }
  }

  function MessageIndex(messages: seq<Message>, id: nat): (r: Option<nat>)
    ensures r.Some? ==> r.value < |messages| && messages[r.value].id == id
    ensures r.None? ==> forall m :: m in messages ==> m.id != id
  {
    if |messages| == 0 then None
    else if messages[0].id == id then Some(0)
    else match MessageIndex(messages[1..], id)
      case None => None
      case Some(k) => Some(k + 1)
  }

  datatype DeleteOutcome = MessageNotFound | NotAuthorised | MessageDeleted | DeleteServerError

  /** `deleteMessage`: 404 for an unknown id, 403 unless the caller sent or
      received the message, otherwise a hard delete. */
  function DeleteMessage(messages: seq<Message>, me: nat, id: RawId): (res: (DeleteOutcome, seq<Message>))
    ensures !res.0.MessageDeleted? ==> res.1 == messages
    ensures res.0.MessageNotFound? <==> id.Absent? || (id.Oid? && MessageIndex(messages, id.id).None?)
    ensures res.0.MessageDeleted? ==>
      id.Oid? && MessageIndex(messages, id.id).Some? &&
      var k := MessageIndex(messages, id.id).value;
      && (messages[k].sender == me || messages[k].receiver == me)
      && res.1 == messages[..k] + messages[k + 1..]
    ensures res.0.NotAuthorised? <==>
      id.Oid? && MessageIndex(messages, id.id).Some? &&
      messages[MessageIndex(messages, id.id).value].sender != me &&
      messages[MessageIndex(messages, id.id).value].receiver != me
  {
    if id.Malformed? then (DeleteServerError, messages)
    else if id.Absent? then (MessageNotFound, messages)
    else match MessageIndex(messages, id.id)
      case None => (MessageNotFound, messages)
      case Some(k) =>
        if messages[k].sender != me && messages[k].receiver != me then (NotAuthorised, messages)
        else (MessageDeleted, messages[..k] + messages[k + 1..])
  }

  /** Only a party to a message can remove it: for anyone else every
      message survives, and after a delete by a party, with distinct ids,
      the message is gone and every other message stays. */
  lemma OnlyPartiesDelete(messages: seq<Message>, me: nat, id: nat)
    requires forall i, j :: 0 <= i < j < |messages| ==> messages[i].id != messages[j].id
    ensures var (out, ms') := DeleteMessage(messages, me, Oid(id));
      && (forall m :: m in messages && m.id == id && m.sender != me && m.receiver != me ==> m in ms')
      && (out.MessageDeleted? ==> forall m :: m in ms' <==> m in messages && m.id != id)
  {
    var (out, ms') := DeleteMessage(messages, me, Oid(id));
    if out.MessageDeleted? {
      RemoveAtMembers(messages, MessageIndex(messages, id).value);
    }
  }

  /** Removing position `k` from a list with distinct ids removes exactly
      the message with that id. */
  lemma RemoveAtMembers(messages: seq<Message>, k: nat)
    requires k < |messages|
    requires forall i, j :: 0 <= i < j < |messages| ==> messages[i].id != messages[j].id
    ensures forall m :: m in messages && m.id == messages[k].id ==> m == messages[k]
    ensures forall m :: m in messages[..k] + messages[k + 1..] <==> m in messages && m.id != messages[k].id
  {
    var rest := messages[..k] + messages[k + 1..];
    forall m | m in messages ensures (m in rest <==> m.id != messages[k].id) && (m.id == messages[k].id ==> m == messages[k]) {
      var i :| 0 <= i < |messages| && messages[i] == m;
      if i < k {
        assert rest[i] == m;
      } else if i > k {
        assert rest[i - 1] == m;
      }
    }
    assert forall m :: m in rest ==> m in messages by {
      assert forall m :: m in rest ==> m in messages[..k] || m in messages[k + 1..];
    }
  }
}

=== FILE: payment_records.dfy ===
/** The payment document of `models/Payment.js` with the validators that
    can reject it, and the admin dashboard's statistics over the whole
    collection (`getAdminPayments`). */
module PaymentRecords {
  import opened Common
  import opened Enrollments

  datatype Payment = Payment(
    id: nat,
    student: nat,
    course: nat,
    enrollment: Option<nat>,
    amount: int,
    paymentMethod: string,
    paymentId: string,
    status: PayState,        // the schema default is Pending
    paymentDate: int)

  /** The payment schema's method enum: unlike the enrollment's it has no
      "free". */
  const PaymentSchemaMethods: set<string> := {"card", "upi", "netbanking", "cash", "wallet"}

  /** Whether `Payment.create(p)` succeeds against the stored payments:
      amount at least 0, the method in the enum, a non-empty paymentId
      (required), and the unique indexes on paymentId and _id. */
  predicate PaymentAccepted(ps: seq<Payment>, p: Payment) {
    && p.amount >= 0
    && p.paymentMethod in PaymentSchemaMethods
    && p.paymentId != ""
    && (forall q :: q in ps ==> q.paymentId != p.paymentId && q.id != p.id)
  }

  function Revenue(ps: seq<Payment>): int {
    if |ps| == 0 then 0 else Revenue(ps[..|ps| - 1]) + ps[|ps| - 1].amount
  }

  function CountWithStatus(ps: seq<Payment>, st: PayState): (n: nat)
    ensures n <= |ps|
  {
    if |ps| == 0 then 0
    else CountWithStatus(ps[..|ps| - 1], st) + (if ps[|ps| - 1].status == st then 1 else 0)
  }

  datatype Stats = Stats(totalPayments: nat, totalRevenue: int, completedPayments: nat, pendingPayments: nat)

  /** The dashboard: the number of payments, the sum of `amount || 0`
      (equal to the sum of amounts), and the completed and pending
      counts. */
  function AdminStats(ps: seq<Payment>): (s: Stats)
    ensures s.totalPayments == |ps|
    ensures s.completedPayments + s.pendingPayments <= s.totalPayments
    ensures (forall q :: q in ps ==> q.amount >= 0) ==> s.totalRevenue >= 0
  {
    CompletedAndPendingBounded(ps);
    RevenueNonNegative(ps);
    Stats(|ps|, Revenue(ps), CountWithStatus(ps, Completed), CountWithStatus(ps, Pending))
  }

  lemma {:induction false} CompletedAndPendingBounded(ps: seq<Payment>)
    ensures CountWithStatus(ps, Completed) + CountWithStatus(ps, Pending) <= |ps|
  {
    if |ps| > 0 {
      CompletedAndPendingBounded(ps[..|ps| - 1]);
    }
  }

  lemma {:induction false} RevenueNonNegative(ps: seq<Payment>)
    ensures (forall q :: q in ps ==> q.amount >= 0) ==> Revenue(ps) >= 0
  {
    if |ps| > 0 {
      assert forall q :: q in ps[..|ps| - 1] ==> q in ps;
      RevenueNonNegative(ps[..|ps| - 1]);
    }
  }

  /** Recording one more payment moves every statistic by exactly that
      payment: one more payment, its amount more revenue, and one more in
      the count of its status. */
  lemma StatsAfterRecord(ps: seq<Payment>, p: Payment)
    ensures var before := AdminStats(ps);
      var after := AdminStats(ps + [p]);
      && after.totalPayments == before.totalPayments + 1
      && after.totalRevenue == before.totalRevenue + p.amount
      && after.completedPayments == before.completedPayments + (if p.status == Completed then 1 else 0)
      && after.pendingPayments == before.pendingPayments + (if p.status == Pending then 1 else 0)
  {
    assert (ps + [p])[..|ps|] == ps;
  }
}

=== FILE: payments.dfy ===
/** The payment handlers of `controllers/paymentController.js`:
    `processPayment` (as written, and with the payment validated before
    anything is written) and `checkPaymentStatus`, together with the
    invariant that every paid enrollment of a priced course is backed by a
    completed payment or an admin grant. */
module Payments {
  import opened Common
  import opened Courses
  import opened Enrollments
  import opened PaymentRecords
  import opened Users
  import opened Store

  /** The request: the authenticated student, the body's courseId, and the
      optional paymentId and paymentMethod. */
  datatype PayRequest = PayRequest(student: nat, courseId: RawId, paymentId: Option<string>, paymentMethod: Option<string>)

  datatype PayOutcome =
    | InvalidCourseId                                          // 400
    | CourseNotFound                                           // 404
    | EnrollFirst                                              // 400
    | FreeUnlocked(enrollment: Enrollment)                     // 200, the enrollment as saved
    | PaymentRecorded(payment: Payment, enrollment: Enrollment) // 200
    | PaymentFailed                                            // 500

  /** `paymentMethod = "card"`: the default applies only when the field
      is missing. */
  function ChosenMethod(rq: PayRequest): string {
    rq.paymentMethod.GetOr("card")
  }

  /** `paymentId || \`PAY_${Date.now()}\``: never empty. */
  function ChosenPaymentId(supplied: Option<string>, now: int): (r: string)
    ensures r != ""
    ensures supplied.Some? && supplied.value != "" ==> r == supplied.value
    ensures supplied.None? || supplied.value == "" ==> r == "PAY_" + IntToDecimal(now)
  {
    if supplied.Some? && supplied.value != "" then supplied.value else "PAY_" + IntToDecimal(now)
  }

  /** The fields the paid branch writes on the enrollment. */
  function PaidFields(e: Enrollment, how: string, pid: string, now: int): Enrollment {
    e.(isPaid := true, enrollmentStatus := Active, paymentDate := Some(now),
       paymentMethod := how, paymentId := Some(pid))
  }

  /** The payment document the paid branch creates for the saved
      enrollment. */
  function PaymentFor(newId: nat, rq: PayRequest, course: Course, saved: Enrollment, now: int): Payment {
    Payment(newId, rq.student, course.id, Some(saved.id), course.price, ChosenMethod(rq),
            ChosenPaymentId(rq.paymentId, now), Completed, now)
  }

  /** The live enrollment `processPayment` and `checkPaymentStatus` look up. */
  function LiveEnrollment(db: Db, rq: PayRequest): Option<Enrollment>
    requires rq.courseId.Oid?
  {
    FindLive(db.enrollments, rq.student, rq.courseId.id)
  }

  // ------------------------------------------------------------------
  // Backed paid enrollments
  // ------------------------------------------------------------------

  predicate FreeCourseId(db: Db, course: nat) {
    FindCourse(db.courses, course).Some? && IsFreeCourse(FindCourse(db.courses, course).value)
  }

  /** A paid enrollment is backed when its course is free, when it was
      granted by an admin, or when a completed payment of the same
      student and course points at it. */
  predicate Backed(db: Db, e: Enrollment) {
    || FreeCourseId(db, e.course)
    || e.paymentMethod == AdminGranted
    || exists p :: p in db.payments && p.enrollment == Some(e.id) && p.status == Completed &&
                   p.student == e.student && p.course == e.course
  }

  predicate PaidIsBacked(db: Db) {
    forall e :: e in db.enrollments && e.isPaid ==> Backed(db, e)
  }

  /** Backing survives any change that keeps the courses and only adds
      payments. */
  lemma BackedGrows(db: Db, db': Db, e: Enrollment)
    requires db'.courses == db.courses
    requires forall p :: p in db.payments ==> p in db'.payments
    requires Backed(db, e)
    ensures Backed(db', e)
  {
  }

  // ------------------------------------------------------------------
  // processPayment as written
  // ------------------------------------------------------------------

  /** `processPayment` as written: in the paid branch the enrollment is
      saved as paid before `Payment.create` runs, so a payment the payment
      schema rejects (method "free", a negative course price, a repeated
      paymentId) ends in a 500 with the enrollment already paid. The
      enrollment is validated against the schema's own enum. */
  function ProcessPaymentAsWritten(db: Db, rq: PayRequest, now: int, newPaymentId: nat): (res: (PayOutcome, Db))
    ensures res.0 == InvalidCourseId <==> !rq.courseId.IsValid()
    ensures res.0 == CourseNotFound <==> rq.courseId.Oid? && FindCourse(db.courses, rq.courseId.id).None?
    ensures res.0 == EnrollFirst <==>
      rq.courseId.Oid? && FindCourse(db.courses, rq.courseId.id).Some? && LiveEnrollment(db, rq).None?
    ensures res.0.PaymentFailed? ==> res.1.payments == db.payments && res.1.users == db.users
    ensures res.1.courses == db.courses
  {
    if !rq.courseId.IsValid() then (InvalidCourseId, db)
    else match FindCourse(db.courses, rq.courseId.id)
      case None => (CourseNotFound, db)
      case Some(course) =>
        match LiveEnrollment(db, rq)
        case None => (EnrollFirst, db)
        case Some(e) =>
          if IsFreeCourse(course) then
            match SaveEnrollment(db.enrollments, Some(e), e.(isPaid := true, enrollmentStatus := Active), now, SchemaPaymentMethods)
            case None => (PaymentFailed, db)
            case Some((saved, es)) => (FreeUnlocked(saved), db.(enrollments := es))
          else
            var pid := ChosenPaymentId(rq.paymentId, now);
            match SaveEnrollment(db.enrollments, Some(e), PaidFields(e, ChosenMethod(rq), pid, now), now, SchemaPaymentMethods)
            case None => (PaymentFailed, db)
            case Some((saved, es)) =>
              var p := PaymentFor(newPaymentId, rq, course, saved, now);
              if !PaymentAccepted(db.payments, p) then (PaymentFailed, db.(enrollments := es))
              else (PaymentRecorded(p, saved),
                    db.(enrollments := es, payments := db.payments + [p], users := AddCourse(db.users, rq.student, course.id)))
  }

  /** The failure the ordering allows: on a priced course, a request whose
      method the enrollment enum admits but the payment enum does not
      ("free") ends in a 500 that leaves the enrollment paid and active
      with no payment behind it, so a backed collection stops being
      backed. */
  lemma {:induction false} AsWrittenPaysWithoutPayment(db: Db, rq: PayRequest, now: int, newPaymentId: nat)
    requires rq.courseId.Oid? && FindCourse(db.courses, rq.courseId.id).Some?
    requires !IsFreeCourse(FindCourse(db.courses, rq.courseId.id).value)
    requires LiveEnrollment(db, rq).Some?
    requires rq.paymentMethod == Some("free")
    requires var e := LiveEnrollment(db, rq).value;
      SaveEnrollment(db.enrollments, Some(e), PaidFields(e, "free", ChosenPaymentId(rq.paymentId, now), now), now, SchemaPaymentMethods).Some?
    requires forall p :: p in db.payments ==> p.enrollment != Some(LiveEnrollment(db, rq).value.id)
    ensures var res := ProcessPaymentAsWritten(db, rq, now, newPaymentId);
      && res.0 == PaymentFailed
      && res.1.payments == db.payments
      && !PaidIsBacked(res.1)
  {
    var e := LiveEnrollment(db, rq).value;
    var course := FindCourse(db.courses, rq.courseId.id).value;
    var pid := ChosenPaymentId(rq.paymentId, now);
    var (saved, es) := SaveEnrollment(db.enrollments, Some(e), PaidFields(e, "free", pid, now), now, SchemaPaymentMethods).value;
    var p := PaymentFor(newPaymentId, rq, course, saved, now);
    assert !PaymentAccepted(db.payments, p);
    var res := ProcessPaymentAsWritten(db, rq, now, newPaymentId);
    assert res.1 == db.(enrollments := es);
    assert saved in res.1.enrollments && saved.isPaid;
    assert !FreeCourseId(res.1, saved.course);
    assert saved.paymentMethod == "free";
    assert !Backed(res.1, saved);
  }

  /** A concrete instance: one course priced 500, one unpaid enrollment,
      and a request with paymentMethod "free" and paymentId "P1". */
  lemma AsWrittenPaysWithoutPaymentExample()
    ensures var course := Course(1, "Course", "About", "Dev", 0, 500, 0, [], [], Beginner, CourseActive);
      var e := NewEnrollment(10, 7, 1, 0);
      var db := Db([course], [e], [], []);
      var res := ProcessPaymentAsWritten(db, PayRequest(7, Oid(1), Some("P1"), Some("free")), 1000, 20);
      res.0 == PaymentFailed && res.1.payments == [] && res.1.enrollments[0].isPaid &&
      PaidIsBacked(db) && !PaidIsBacked(res.1)
  {
    var course := Course(1, "Course", "About", "Dev", 0, 500, 0, [], [], Beginner, CourseActive);
    var e := NewEnrollment(10, 7, 1, 0);
    var db := Db([course], [e], [], []);
    var rq := PayRequest(7, Oid(1), Some("P1"), Some("free"));
    assert FindCourse(db.courses, 1) == Some(course);
    assert LiveEnrollment(db, rq) == Some(e);
    assert ChosenPaymentId(rq.paymentId, 1000) == "P1";
    var d := PreSave(Some(e), PaidFields(e, "free", "P1", 1000), 1000);
    FreeInEnrollmentSchema();
    assert ValidEnrollment(d, SchemaPaymentMethods);
    assert Admissible(db.enrollments, d, false) by {
      assert e in db.enrollments && e.id == d.id;
    }
    assert ReplaceById(db.enrollments, d) == [d];
    AsWrittenPaysWithoutPayment(db, rq, 1000, 20);
  }

  /** The enrollment enum admits "free"; the payment enum does not. */
  lemma FreeInEnrollmentSchema()
    ensures "free" in SchemaPaymentMethods && "free" !in PaymentSchemaMethods
  {
    assert "free"[0] == 'f';
    assert forall m :: m in PaymentSchemaMethods ==> m[0] != 'f';
  }

  // ------------------------------------------------------------------
  // processPayment, payment validated first
  // ------------------------------------------------------------------

  /** `processPayment` with the payment document checked before the
      enrollment is written: every failure leaves the collections as they
      were, and a success records the payment for the enrollment it
      unlocked. */
  function ProcessPayment(db: Db, rq: PayRequest, now: int, newPaymentId: nat): (res: (PayOutcome, Db))
    ensures res.0 == InvalidCourseId <==> !rq.courseId.IsValid()
    ensures res.0 == CourseNotFound <==> rq.courseId.Oid? && FindCourse(db.courses, rq.courseId.id).None?
    ensures res.0 == EnrollFirst <==>
      rq.courseId.Oid? && FindCourse(db.courses, rq.courseId.id).Some? && LiveEnrollment(db, rq).None?
    ensures !res.0.FreeUnlocked? && !res.0.PaymentRecorded? ==> res.1 == db
    ensures res.0.FreeUnlocked? ==>
      && rq.courseId.Oid? && FindCourse(db.courses, rq.courseId.id).Some?
      && IsFreeCourse(FindCourse(db.courses, rq.courseId.id).value)
      && res.1 == db.(enrollments := res.1.enrollments)
      && res.0.enrollment in res.1.enrollments
      && res.1.enrollments == ReplaceById(db.enrollments, res.0.enrollment)
      && res.0.enrollment.id == LiveEnrollment(db, rq).value.id
      && res.0.enrollment.isPaid && res.0.enrollment.enrollmentStatus == Active
    ensures res.0.PaymentRecorded? ==>
      && rq.courseId.Oid? && FindCourse(db.courses, rq.courseId.id).Some?
      && !IsFreeCourse(FindCourse(db.courses, rq.courseId.id).value)
      && var p := res.0.payment;
      && var saved := res.0.enrollment;
      && saved in res.1.enrollments && saved.id == LiveEnrollment(db, rq).value.id
      && saved.isPaid && saved.enrollmentStatus == Active && saved.paymentId == Some(p.paymentId)
      && res.1.enrollments == ReplaceById(db.enrollments, saved)
      && p.paymentId == ChosenPaymentId(rq.paymentId, now)
      && p.paymentMethod == ChosenMethod(rq) && saved.paymentMethod == ChosenMethod(rq)
      && res.1.payments == db.payments + [p]
      && p.enrollment == Some(saved.id) && p.status == Completed
      && p.amount == FindCourse(db.courses, rq.courseId.id).value.price
      && p.student == rq.student && p.course == rq.courseId.id
      && res.1.users == AddCourse(db.users, rq.student, rq.courseId.id)
    ensures res.1.courses == db.courses
  {
    if !rq.courseId.IsValid() then (InvalidCourseId, db)
    else match FindCourse(db.courses, rq.courseId.id)
      case None => (CourseNotFound, db)
      case Some(course) =>
        match LiveEnrollment(db, rq)
        case None => (EnrollFirst, db)
        case Some(e) =>
          if IsFreeCourse(course) then
            match SaveEnrollment(db.enrollments, Some(e), e.(isPaid := true, enrollmentStatus := Active), now, PaymentMethods)
            case None => (PaymentFailed, db)
            case Some((saved, es)) => (FreeUnlocked(saved), db.(enrollments := es))
          else
            var pid := ChosenPaymentId(rq.paymentId, now);
            var p := PaymentFor(newPaymentId, rq, course, e, now);
            if !PaymentAccepted(db.payments, p) then (PaymentFailed, db)
            else
              match SaveEnrollment(db.enrollments, Some(e), PaidFields(e, ChosenMethod(rq), pid, now), now, PaymentMethods)
              case None => (PaymentFailed, db)
              case Some((saved, es)) =>
                (PaymentRecorded(p, saved),
                 db.(enrollments := es, payments := db.payments + [p], users := AddCourse(db.users, rq.student, course.id)))
  }

  /** Where the payment is accepted and the stored enrollment is valid
      under the schema's enum, the corrected handler does exactly what the
      code as written does. */
  lemma ProcessPaymentAgreesWhenPaymentAccepted(db: Db, rq: PayRequest, now: int, newPaymentId: nat)
    requires rq.courseId.Oid? && FindCourse(db.courses, rq.courseId.id).Some? && LiveEnrollment(db, rq).Some?
    requires LiveEnrollment(db, rq).value.paymentMethod in SchemaPaymentMethods
    requires ChosenMethod(rq) != AdminGranted
    requires !IsFreeCourse(FindCourse(db.courses, rq.courseId.id).value) ==>
      PaymentAccepted(db.payments, PaymentFor(newPaymentId, rq, FindCourse(db.courses, rq.courseId.id).value,
                                              LiveEnrollment(db, rq).value, now))
    ensures ProcessPayment(db, rq, now, newPaymentId) == ProcessPaymentAsWritten(db, rq, now, newPaymentId)
  {
    var e := LiveEnrollment(db, rq).value;
    AdminGrantedOutsideSchema();
    if IsFreeCourse(FindCourse(db.courses, rq.courseId.id).value) {
      SaveAgreesOnEnums(db.enrollments, Some(e), e.(isPaid := true, enrollmentStatus := Active), now);
    } else {
      SaveAgreesOnEnums(db.enrollments, Some(e), PaidFields(e, ChosenMethod(rq), ChosenPaymentId(rq.paymentId, now), now), now);
    }
  }

  /** A save that does not write "admin-granted" has the same result under
      the schema's enum and under the enum with the grant's method. */
  lemma SaveAgreesOnEnums(es: seq<Enrollment>, prev: Option<Enrollment>, e: Enrollment, now: int)
    requires e.paymentMethod != AdminGranted
    ensures SaveEnrollment(es, prev, e, now, PaymentMethods) == SaveEnrollment(es, prev, e, now, SchemaPaymentMethods)
  {
    assert PreSave(prev, e, now).paymentMethod == e.paymentMethod;
  }

  /** The corrected handler keeps every paid enrollment backed. */
  lemma ProcessPaymentKeepsPaidBacked(db: Db, rq: PayRequest, now: int, newPaymentId: nat)
    requires PaidIsBacked(db)
    ensures PaidIsBacked(ProcessPayment(db, rq, now, newPaymentId).1)
  {
    var res := ProcessPayment(db, rq, now, newPaymentId);
    if res.0.FreeUnlocked? || res.0.PaymentRecorded? {
      var db' := res.1;
      forall e | e in db'.enrollments && e.isPaid
        ensures Backed(db', e)
      {
        if e == res.0.enrollment {
          if res.0.PaymentRecorded? {
            assert res.0.payment in db'.payments;
          }
        } else {
          assert e in db.enrollments;
          BackedGrows(db, db', e);
        }
      }
    }
  }

  /** Paying twice for the same priced course never records a second
      payment under the same paymentId. */
  lemma NoPaymentIdTwice(db: Db, rq: PayRequest, now: int, id1: nat, later: int, id2: nat)
    requires ProcessPayment(db, rq, now, id1).0.PaymentRecorded?
    ensures var db1 := ProcessPayment(db, rq, now, id1).1;
      var res := ProcessPayment(db1, rq, later, id2);
      res.0.PaymentRecorded? ==> res.0.payment.paymentId != ProcessPayment(db, rq, now, id1).0.payment.paymentId
  {
    var first := ProcessPayment(db, rq, now, id1);
    assert first.0.payment in first.1.payments;
  }

  // ------------------------------------------------------------------
  // checkPaymentStatus
  // ------------------------------------------------------------------

  datatype StatusReport = StatusReport(isEnrolled: bool, isPaid: bool, hasAccess: bool, coursePrice: int, isFreeCourse: bool)

  datatype StatusOutcome = StatusInvalidId | StatusCourseNotFound | StatusOk(report: StatusReport)

  /** `checkPaymentStatus`: 400, 404, or the report. Access is granted for
      a free course, or when the live enrollment is paid. */
  function CheckPaymentStatus(db: Db, student: nat, courseId: RawId): (r: StatusOutcome)
    ensures r == StatusInvalidId <==> !courseId.IsValid()
    ensures r == StatusCourseNotFound <==> courseId.Oid? && FindCourse(db.courses, courseId.id).None?
    ensures r.StatusOk? ==> courseId.Oid? && FindCourse(db.courses, courseId.id).Some?
    ensures r.StatusOk? ==> r.report.hasAccess == r.report.isPaid
    ensures r.StatusOk? ==> r.report.coursePrice == FindCourse(db.courses, courseId.id).value.price
    ensures r.StatusOk? ==> (r.report.isFreeCourse <==> r.report.coursePrice == 0)
    ensures r.StatusOk? ==> (r.report.isEnrolled <==>
      exists e :: e in db.enrollments && e.student == student && e.course == courseId.id && !e.isDeleted)
    ensures r.StatusOk? && r.report.isFreeCourse ==> r.report.hasAccess
    ensures r.StatusOk? && r.report.hasAccess && !r.report.isFreeCourse ==>
      exists e :: e in db.enrollments && e.student == student && e.course == courseId.id && !e.isDeleted && e.isPaid
  {
    if !courseId.IsValid() then StatusInvalidId
    else match FindCourse(db.courses, courseId.id)
      case None => StatusCourseNotFound
      case Some(course) =>
        var live := FindLive(db.enrollments, student, courseId.id);
        var free := IsFreeCourse(course);
        var paid := free || (live.Some? && live.value.isPaid);
        StatusOk(StatusReport(live.Some?, paid, paid, course.price, free))
  }

  /** With the (student, course) index in place the status report is exact:
      access on a priced course means a live paid enrollment exists. */
  lemma StatusExactWhenIndexed(db: Db, student: nat, course: nat)
    requires Indexed(db.enrollments)
    requires CheckPaymentStatus(db, student, Oid(course)).StatusOk?
    ensures CheckPaymentStatus(db, student, Oid(course)).report.hasAccess <==>
      FreeCourseId(db, course) ||
      exists e :: e in db.enrollments && e.student == student && e.course == course && !e.isDeleted && e.isPaid
  {
    LiveIsPairWhenIndexed(db.enrollments, student, course);
    var p := FindPair(db.enrollments, student, course);
    if e :| e in db.enrollments && e.student == student && e.course == course && !e.isDeleted && e.isPaid {
      UniquePair(db.enrollments, e, p.value);
    }
  }

  /** After a successful corrected payment, the status report for the same
      student and course grants access. */
  lemma StatusAfterPayment(db: Db, rq: PayRequest, now: int, newPaymentId: nat)
    requires Indexed(db.enrollments)
    requires ProcessPayment(db, rq, now, newPaymentId).0.FreeUnlocked? ||
             ProcessPayment(db, rq, now, newPaymentId).0.PaymentRecorded?
    ensures var db' := ProcessPayment(db, rq, now, newPaymentId).1;
      CheckPaymentStatus(db', rq.student, rq.courseId) ==
        StatusOk(StatusReport(true, true, true, FindCourse(db.courses, rq.courseId.id).value.price,
                              FindCourse(db.courses, rq.courseId.id).value.price == 0))
  {
    var res := ProcessPayment(db, rq, now, newPaymentId);
    var db' := res.1;
    var saved := res.0.enrollment;
    var e := LiveEnrollment(db, rq).value;
    var es := db'.enrollments;
    var methods := PaymentMethods;
    var fields := if res.0.FreeUnlocked? then e.(isPaid := true, enrollmentStatus := Active)
                  else PaidFields(e, ChosenMethod(rq), ChosenPaymentId(rq.paymentId, now), now);
    assert SaveEnrollment(db.enrollments, Some(e), fields, now, methods) == Some((saved, es));
    SaveKeepsIndexed(db.enrollments, Some(e), fields, now, methods);
    LiveIsPairWhenIndexed(es, rq.student, rq.courseId.id);
    var p := FindPair(es, rq.student, rq.courseId.id);
    UniquePair(es, saved, p.value);
  }
}

=== FILE: progress.dfy ===
/** Lecture progress (`controllers/progressController.js`): one document
    per (student, course) holding the completed lectures; tracking adds a
    lecture once, and the read reports the count. */
module Progress {
  import opened Common

  datatype ProgressDoc = ProgressDoc(id: nat, student: nat, course: nat, completedLectures: seq<nat>, completedAt: int)

  /** `Progress.findOne({ student, course })`: the index of the first
      document of the pair. */
  function PairIndex(ps: seq<ProgressDoc>, student: nat, course: nat): (r: Option<nat>)
    ensures r.Some? ==> r.value < |ps| && ps[r.value].student == student && ps[r.value].course == course
    ensures r.Some? ==> forall j :: 0 <= j < r.value ==> ps[j].student != student || ps[j].course != course
    ensures r.None? ==> forall p :: p in ps ==> p.student != student || p.course != course
  {
    if |ps| == 0 then None
    else if ps[0].student == student && ps[0].course == course then Some(0)
    else match PairIndex(ps[1..], student, course)
      case None => None
      case Some(k) => Some(k + 1)
  }

  /** `trackLecture`: create the pair's document holding just this
      lecture, or add the lecture to the existing one unless it is
      already there. Returns the document as saved and the collection. */
  function TrackLecture(ps: seq<ProgressDoc>, student: nat, course: nat, lecture: nat, newId: nat, now: int)
    : (res: (ProgressDoc, seq<ProgressDoc>))
    ensures res.0.student == student && res.0.course == course
    ensures lecture in res.0.completedLectures
    ensures PairIndex(ps, student, course).None? ==>
      && res.0.id == newId && res.0.completedAt == now
      && res.0.completedLectures == [lecture] && res.1 == ps + [res.0]
    ensures PairIndex(ps, student, course).Some? ==>
      var k := PairIndex(ps, student, course).value;
      && res.1 == ps[k := res.0]
      && res.0.id == ps[k].id && res.0.completedAt == ps[k].completedAt
      && (lecture !in ps[k].completedLectures ==>
            res.0.completedLectures == ps[k].completedLectures + [lecture])
      && (forall l :: l in res.0.completedLectures <==> l in ps[k].completedLectures || l == lecture)
      && (lecture in ps[k].completedLectures ==> res.0 == ps[k])
      && (NoDuplicates(ps[k].completedLectures) ==> NoDuplicates(res.0.completedLectures))
  {
    match PairIndex(ps, student, course)
    case None =>
      var p := ProgressDoc(newId, student, course, [lecture], now);
      (p, ps + [p])
    case Some(k) =>
      var p := ps[k].(completedLectures := AddToSet(ps[k].completedLectures, lecture));
      (p, ps[k := p])
  }

  datatype ProgressView =
    | ProgressServerError  // 500: a route id that is not an ObjectId fails to cast
    | NoProgress           // 200 with progress null
    | ProgressFound(progress: ProgressDoc, totalCompleted: nat)

  /** `getProgress`: a 500 when either route id is not an ObjectId, "no
      progress" when the pair has no document, otherwise the document and
      its number of completed lectures. Route parameters are never
      absent. */
  function GetProgress(ps: seq<ProgressDoc>, student: RawId, course: RawId): (r: ProgressView)
    requires student != Absent && course != Absent
    ensures r.ProgressServerError? <==> student.Malformed? || course.Malformed?
    ensures r.NoProgress? <==>
      student.Oid? && course.Oid? &&
      forall p :: p in ps ==> p.student != student.id || p.course != course.id
    ensures r.ProgressFound? ==>
      && student.Oid? && course.Oid?
      && r.progress in ps && r.progress.student == student.id && r.progress.course == course.id
      && r.totalCompleted == |r.progress.completedLectures|
  {
    if student.Malformed? || course.Malformed? then ProgressServerError
    else match PairIndex(ps, student.id, course.id)
      case None => NoProgress
      case Some(k) => ProgressFound(ps[k], |ps[k].completedLectures|)
  }

  /** Tracking the same lecture twice leaves the collection as after the
      first time. */
  lemma TrackLectureIdempotent(ps: seq<ProgressDoc>, student: nat, course: nat, lecture: nat, id1: nat, id2: nat, now: int, later: int)
    ensures var once := TrackLecture(ps, student, course, lecture, id1, now).1;
      TrackLecture(once, student, course, lecture, id2, later).1 == once
  {
    var (p, once) := TrackLecture(ps, student, course, lecture, id1, now);
    match PairIndex(ps, student, course)
    case None =>
      assert forall j :: 0 <= j < |ps| ==> once[j] == ps[j];
      PairIndexAt(once, student, course, |ps|);
    case Some(k) =>
      assert forall j :: 0 <= j < k ==> once[j] == ps[j];
      PairIndexAt(once, student, course, k);
  }

  /** After tracking, the progress read counts the lecture: the count goes
      up by one for a new lecture and stays for a repeated one; a student
      with duplicate-free lists keeps them so. */
  lemma TrackThenRead(ps: seq<ProgressDoc>, student: nat, course: nat, lecture: nat, newId: nat, now: int)
    requires forall p :: p in ps ==> NoDuplicates(p.completedLectures)
    ensures var ps' := TrackLecture(ps, student, course, lecture, newId, now).1;
      var before := GetProgress(ps, Oid(student), Oid(course));
      var after := GetProgress(ps', Oid(student), Oid(course));
      && after.ProgressFound?
      && lecture in after.progress.completedLectures
      && (before.NoProgress? ==> after.totalCompleted == 1)
      && (before.ProgressFound? ==>
            after.totalCompleted == before.totalCompleted +
              (if lecture in before.progress.completedLectures then 0 else 1))
  {
    var (p, ps') := TrackLecture(ps, student, course, lecture, newId, now);
    match PairIndex(ps, student, course)
    case None =>
      assert ps'[|ps|] == p;
      assert PairIndex(ps', student, course) == Some(|ps|) by {
        assert forall j :: 0 <= j < |ps| ==> ps'[j] == ps[j];
      }
    case Some(k) =>
      assert forall j :: 0 <= j < k ==> ps'[j] == ps[j];
      assert PairIndex(ps', student, course) == Some(k) by {
        PairIndexAt(ps', student, course, k);
      }
  }

  /** The pair's first document sits at `k` when no earlier one matches. */
  lemma {:induction false} PairIndexAt(ps: seq<ProgressDoc>, student: nat, course: nat, k: nat)
    requires k < |ps| && ps[k].student == student && ps[k].course == course
    requires forall j :: 0 <= j < k ==> ps[j].student != student || ps[j].course != course
    ensures PairIndex(ps, student, course) == Some(k)
    decreases k
  {
    if k > 0 {
      PairIndexAt(ps[1..], student, course, k - 1);
    }
  }
}

=== FILE: quiz.dfy ===
/** Positional quiz scoring (`submitQuiz` in
    `controllers/quizController.js`): question `i` scores when its stored
    answer is strictly equal to the `i`-th submitted answer. Nothing is
    stored; the handler only reports the score. */
module Quizzes {
  import opened Common

  /** `answer` is absent (JavaScript `undefined`) when the question was
      stored without one. */
  datatype QuizQuestion = QuizQuestion(question: string, options: seq<string>, answer: Option<string>)

  datatype Quiz = Quiz(id: nat, course: nat, title: string, questions: seq<QuizQuestion>, createdAt: int)

  /** One submitted answer: a string, or some other JSON value (null, a
      number, an object), which is never strictly equal to a stored
      answer. */
  datatype Submitted = Answer(text: string) | NotAString

  /** `q.answer === answers[i]`: reading past the end of the submitted
      list gives `undefined`, which equals a missing stored answer. */
  predicate Matches(q: QuizQuestion, answers: seq<Submitted>, i: nat) {
    if i < |answers| then q.answer.Some? && answers[i] == Answer(q.answer.value)
    else q.answer.None?
  }

  /** Reference count: the matching positions among the first `n`
      questions. */
  function CountMatches(qs: seq<QuizQuestion>, answers: seq<Submitted>, n: nat): (c: nat)
    requires n <= |qs|
    ensures c <= n
  {
    if n == 0 then 0
    else CountMatches(qs, answers, n - 1) + (if Matches(qs[n - 1], answers, n - 1) then 1 else 0)
  }

  /** First quiz with the given id (`Quiz.findById`): the quiz
      collection's copy of the per-model `findById` lookup. */
  function FindQuiz(quizzes: seq<Quiz>, id: nat): (r: Option<Quiz>)
    ensures r.Some? ==> r.value in quizzes && r.value.id == id
    ensures r.None? ==> forall q :: q in quizzes ==> q.id != id
  {
    if |quizzes| == 0 then None
    else if quizzes[0].id == id then Some(quizzes[0])
    else FindQuiz(quizzes[1..], id)
  }

  /** Only `quizId` and the shape of `answers` decide the outcome;
      `studentId` is echoed back untouched. `answers` is None when the
      body has no answer list. */
  datatype QuizOutcome =
    | QuizScored(student: RawId, quiz: nat, score: nat)
    | QuizServerError

  /** `submitQuiz`: an unknown, absent or malformed quiz id reaches
      `quiz.questions` on null (or a cast error) and ends in the 500 path;
      so does a missing answer list once there is a question to score. */
  method SubmitQuiz(quizzes: seq<Quiz>, student: RawId, quizId: RawId, answers: Option<seq<Submitted>>)
    returns (r: QuizOutcome)
    ensures r.QuizServerError? <==>
      !quizId.Oid? || FindQuiz(quizzes, quizId.id).None? ||
      (answers.None? && |FindQuiz(quizzes, quizId.id).value.questions| > 0)
    ensures r.QuizScored? ==>
      var qs := FindQuiz(quizzes, quizId.id).value.questions;
      && r.student == student && r.quiz == quizId.id
      && r.score == CountMatches(qs, answers.GetOr([]), |qs|)
      && r.score <= |qs|
  {
    if !quizId.Oid? {
      return QuizServerError;
    }
    var found := FindQuiz(quizzes, quizId.id);
    if found.None? {
      return QuizServerError;
    }
    var qs := found.value.questions;
    if answers.None? && |qs| > 0 {
      return QuizServerError;
    }
    var given := answers.GetOr([]);
    var score := 0;
    var i := 0;
    while i < |qs|
      invariant 0 <= i <= |qs|
      invariant score == CountMatches(qs, given, i)
    {
      if Matches(qs[i], given, i) {
        score := score + 1;
      }
      i := i + 1;
    }
    return QuizScored(student, quizId.id, score);
  }

  /** Answers past the number of questions are never looked at. */
  lemma {:induction false} ExtraAnswersIgnored(qs: seq<QuizQuestion>, answers: seq<Submitted>, extra: seq<Submitted>, n: nat)
    requires n <= |qs| <= |answers|
    ensures CountMatches(qs, answers + extra, n) == CountMatches(qs, answers, n)
  {
    if n > 0 {
      ExtraAnswersIgnored(qs, answers, extra, n - 1);
      assert (answers + extra)[n - 1] == answers[n - 1];
    }
  }

  /** The stored answers of the questions, as a student would submit
      them. */
  function KeyOf(qs: seq<QuizQuestion>): (key: seq<Submitted>)
    requires forall i :: 0 <= i < |qs| ==> qs[i].answer.Some?
    ensures |key| == |qs|
    ensures forall i :: 0 <= i < |qs| ==> key[i] == Answer(qs[i].answer.value)
  {
    if |qs| == 0 then [] else [Answer(qs[0].answer.value)] + KeyOf(qs[1..])
  }

  /** Submitting the answer key scores every question. */
  lemma {:induction false} AnswerKeyScoresAll(qs: seq<QuizQuestion>, n: nat)
    requires forall i :: 0 <= i < |qs| ==> qs[i].answer.Some?
    requires n <= |qs|
    ensures CountMatches(qs, KeyOf(qs), n) == n
  {
    if n > 0 {
      AnswerKeyScoresAll(qs, n - 1);
      assert Matches(qs[n - 1], KeyOf(qs), n - 1);
    }
  }

  /** The empty submission scores exactly the questions stored without an
      answer. */
  lemma {:induction false} EmptySubmissionScoresUnanswered(qs: seq<QuizQuestion>, n: nat)
    requires n <= |qs|
    ensures CountMatches(qs, [], n) == |set i | 0 <= i < n && qs[i].answer.None?|
  {
    if n > 0 {
      EmptySubmissionScoresUnanswered(qs, n - 1);
      var prev := set i | 0 <= i < n - 1 && qs[i].answer.None?;
      var all := set i | 0 <= i < n && qs[i].answer.None?;
      if qs[n - 1].answer.None? {
        assert all == prev + {n - 1};
      } else {
        assert all == prev;
      }
    }
  }
}

=== FILE: store.dfy ===
/** The collections the enrollment and payment handlers read and write,
    each in creation order. */
module Store {
  import opened Courses
  import opened Enrollments
  import opened PaymentRecords
  import opened Users

  datatype Db = Db(
    courses: seq<Course>,
    enrollments: seq<Enrollment>,
    payments: seq<Payment>,
    users: seq<User>)
}

=== FILE: users.dfy ===
/** The parts of a user document the core reads: name and e-mail for
    reports, the role for the messaging policy, and the denormalised list
    of course ids kept in sync by enrollment and payment. */
module Users {
  import opened Common

  /** `role` is a string in the schema, but the messaging code also
      accepts an array and then uses its first element. */
  datatype RoleField = RoleText(text: string) | RoleList(items: seq<string>)

  datatype User = User(id: nat, fullName: string, email: string, role: RoleField, courses: seq<nat>)

  function FindUser(users: seq<User>, id: nat): (r: Option<User>)
    ensures r.Some? ==> r.value in users && r.value.id == id
    ensures r.None? ==> forall u :: u in users ==> u.id != id
  {
    if |users| == 0 then None
    else if users[0].id == id then Some(users[0])
    else FindUser(users[1..], id)
  }

  /** `User.findByIdAndUpdate(id, update)`: apply `f` to the course list of
      every user with that id; an unknown id changes nothing. */
  function UpdateCourses(users: seq<User>, id: nat, add: bool, course: nat): (r: seq<User>)
    ensures |r| == |users|
    ensures forall k :: 0 <= k < |users| ==>
      r[k].id == users[k].id && r[k].fullName == users[k].fullName &&
      r[k].email == users[k].email && r[k].role == users[k].role
    ensures forall k :: 0 <= k < |users| && users[k].id != id ==> r[k] == users[k]
    ensures forall k :: 0 <= k < |users| && users[k].id == id ==>
      r[k].courses == (if add then AddToSet(users[k].courses, course) else Pull(users[k].courses, course))
  {
    seq(|users|, k requires 0 <= k < |users| =>
      if users[k].id == id then
        users[k].(courses := if add then AddToSet(users[k].courses, course) else Pull(users[k].courses, course))
      else users[k])
  }

  /** `$addToSet: { courses: course }` on one user. */
  function AddCourse(users: seq<User>, id: nat, course: nat): (r: seq<User>)
    ensures |r| == |users|
    ensures forall k :: 0 <= k < |users| && users[k].id == id ==>
      course in r[k].courses && |r[k].courses| <= |users[k].courses| + 1 &&
      (forall c :: c in users[k].courses ==> c in r[k].courses)
    ensures forall k :: 0 <= k < |users| && users[k].id != id ==> r[k] == users[k]
  {
    UpdateCourses(users, id, true, course)
  }

  /** `$pull: { courses: course }` on one user. */
  function RemoveCourse(users: seq<User>, id: nat, course: nat): (r: seq<User>)
    ensures |r| == |users|
    ensures forall k :: 0 <= k < |users| && users[k].id == id ==>
      course !in r[k].courses &&
      (forall c :: c in r[k].courses <==> c in users[k].courses && c != course)
    ensures forall k :: 0 <= k < |users| && users[k].id != id ==> r[k] == users[k]
  {
    UpdateCourses(users, id, false, course)
  }
}
